=== FILE: README.md ===
# green-ecolution backend core, in Dafny

This project models the sequential core of the green-ecolution backend. That backend is a Go service that manages city trees, tree clusters, flowerbeds, sensors, vehicles and watering plans. The model covers:

- **Event manager** (`Worker`, `WorkerScenarios`). This is the in-process publish/subscribe bus. It has a fixed set of registered event types, per-type subscriptions with integer ids, and one FIFO intake queue of capacity 100 that a dispatcher drains. Its implementation is not part of this model, so it is specified as a sequential state machine whose contract is what `internal/worker/manager_test.go` asserts.
- **Tree service** (`TreeService`). Create, update and delete go through the tree repository and append `CreateTree`/`UpdateTree`/`DeleteTree` events to an event log. Repository errors are mapped to service errors, and new sensor data recomputes a tree's watering status.
- **Vehicle service** (`VehicleService`). Covers validation, the number-plate uniqueness check, create, update and delete, and the error mapping.
- **Repositories** over an abstract store:
  - tree update, with the transaction, sensor unlinking and image merge (`TreeRepo`);
  - watering-plan create (`WateringPlanRepo`);
  - flowerbed options, create, image links, unlinking and delete (`FlowerbedRepo`);
  - vehicle create (`VehicleRepo`);
  - region update (`RegionRepo`);
  - sensor update with coordinate validation (`SensorRepo`).

  `Store` holds what they share:
  - a store write can fail;
  - statements outside a transaction stop at the first failure, and the earlier ones stay;
  - `WithTx` is all-or-nothing.
- **Stale-sensor scheduler** (`StatusScheduler`). Marks sensors offline when they have not been updated for 72 hours.
- **Pure transformations**:
  - pagination arithmetic (`Pagination`), with explicit 32-bit wrap-around;
  - the route-step reducer that collapses runs of pickups, route locations, and shipment numbering (`Routing`, `Ors`, `Vroom`);
  - the VROOM client's functional options (`Vroom`);
  - service errors and their `"<code>: <message>"` rendering, and `AllServicesReady` (`Service`);
  - the watering-plan status enum and request validity (`WateringPlans`);
  - the HTTP mappers (`Mapper`).

Go's `errors.Is` is modelled by `Errors.Is`. It sees through `%w`/`errors.Wrap` wrapping, but not through a `service.Error`, which has no `Unwrap`.

Store failures are explicit parameters. A `Store.Fault(at, error)` makes statement number `at` of a call fail. The failing statement takes no effect.

Helpers the model cannot see are parameters:
- the repository insert of `TreeService.Create`;
- the repository update of `VehicleService.Update`;
- `utils.CalculateWateringStatus`;
- the `int32` truncation of the water capacity;
- the VROOM `Send` and ORS directions calls;
- the validator (an `invalid: Option<string>` parameter carries its verdict).

## Model

| member | source | states |
|---|---|---|
| Worker.NewEventManager | internal/worker/manager_test.go:39-45 | a new manager registers exactly the given types, has no subscribers and an empty queue, and satisfies the manager invariant |
| Worker.Publish | internal/worker/manager_test.go:38-61 | publish succeeds exactly for a registered type while the queue has room, and appends the event at the back; an unregistered type fails with the unknown-type error and changes nothing; on a full queue the caller blocks, or gets its context's error when that context is already done |
| Worker.Subscribe | internal/worker/manager_test.go:64-90 | a registered type yields a fresh id of at least 0 and a channel, and records the subscription; an unregistered type yields id -1, no channel and the unknown-type error, and leaves the manager as it was |
| Worker.Unsubscribe | internal/worker/manager_test.go:92-115 | succeeds iff (type, id) is a live subscription, which it removes; registered types, queue, id counters and the stopped flag stay as they were, and an in-flight event of that type no longer waits for the id (it completes when the id was the last one owed); otherwise it fails with the not-subscribed error and changes nothing |
| Worker.Dispatch | internal/worker/manager_test.go:117-141 | a free, running dispatcher takes the oldest queued event and hands it to all of that type's current subscribers; otherwise nothing changes; subscriptions are untouched |
| Worker.Receive | internal/worker/manager_test.go:132-137 | a subscriber reads an event exactly when the in-flight event is of its type and still owed to it; it receives that event unchanged, and only the in-flight delivery changes |
| Worker.Stop | internal/worker/manager_test.go:168-170 | cancelling the run context stops dispatching for good; the queue and the subscriptions stay |
| Worker.StartSubscription | internal/worker/manager_test.go:143-154 | a subscription loop subscribes to its handler's type; this fails exactly for an unregistered type, with no change |
| Worker.RunnerStep | internal/worker/manager_test.go:143-161 | one turn of the loop hands at most one event, the one read from its channel, to the handler, and only appends to what was handled |
| Worker.StopSubscription | internal/worker/manager_test.go:143-161 | cancelling a subscription loop unsubscribes its own id and touches no other type's subscribers |
| WorkerScenarios.UnregisteredTypeIsRejected | internal/worker/manager_test.go:51-61 | on a manager with no registered types, publishing fails with the unknown-type error and changes nothing, and subscribing yields id -1, no channel and the same error |
| WorkerScenarios.UnsubscribeExactlyOnce | internal/worker/manager_test.go:92-115 | a fresh subscription can be removed once; removing it again, or an id never issued, fails with the not-subscribed error |
| WorkerScenarios.IdsAreNotReused | internal/worker/manager_test.go:64-76 | a subscription taken after another was dropped gets a different id |
| WorkerScenarios.PublishAndRead | internal/worker/manager_test.go:164-199 | publish, dispatch and read, per event, keep the manager invariant and return what was read |
| WorkerScenarios.OneReaderGetsEverythingInOrder | internal/worker/manager_test.go:164-199 | with one reading subscriber, every published event arrives exactly once and in order, and the manager ends idle |
| WorkerScenarios.HundredEventsAllDelivered | internal/worker/manager_test.go:188-198 | the test's 100 events are all received, in order |
| WorkerScenarios.PublishAll | internal/worker/manager_test.go:211-216 | a batch of publishes returns one outcome per event and keeps the invariant |
| WorkerScenarios.FillIntake | internal/worker/manager_test.go:211-216 | while there is room, every publish of a registered event succeeds and the queue is the old queue followed by the batch |
| WorkerScenarios.IntakeHoldsHundred | internal/worker/manager_test.go:201-247 | with a non-reading subscriber, 101 publishes succeed and the queue then holds 100 events because the dispatcher holds one; the 102nd publish under an expired deadline fails with the deadline error |
| Service.CodeValue | internal/service/service.go:37-43 | every error code is an HTTP status between 400 and 500 |
| Service.CodeOf | internal/service/service.go:37-43 | reading a number as an error code gives back a code whose value is that number |
| Service.CodeValuesAreTheFiveHttpCodes | internal/service/service.go:37-43 | the codes are exactly 400, 401, 403, 404 and 500, and reading a code's value gives that code back |
| Service.NewError | internal/service/service.go:27-29 | the error keeps the given code and message unchanged |
| Service.DecimalRoundTrip | internal/service/service.go:31-33 | the `%d` rendering of a code reads back as the same number |
| Service.ParseRender | internal/service/service.go:31-33 | `Error()`'s `"<code>: <message>"` text parses back to the error it came from |
| Service.RenderInjective | internal/service/service.go:31-33 | two errors with the same text are the same error |
| Service.AllServicesReady | internal/service/service.go:152-166 | true iff every field implements the service interface and is ready; otherwise it stops at the first failing field, and every field before it was ready |
| Errors.ValidationError | internal/service/domain/vehicle/vehicle.go:55-57 | a 400 error whose message is "validation error: " followed by the validator's message |
| Pagination.Wrap32 | internal/utils/pagination.go:29 | the 32-bit result equals its argument modulo 2^32 and is the argument itself when that fits |
| Pagination.EffectiveLimit | internal/utils/pagination.go:25-27 | a positive limit is kept; any other limit becomes 1 |
| Pagination.CalculatePaginationValuesAsWritten | internal/utils/pagination.go:24-50 | as written: the page count always fits in 32 bits, next page is page+1 exactly when page < page count, previous page is page-1 exactly when page > 1; while totalCount + limit - 1 fits in 32 bits it agrees with the corrected function, beyond that the sum wraps |
| Pagination.PaginationOverflowExample | internal/utils/pagination.go:29 | for totalCount = 2147483647, limit = 2, page = 1, the written code gives -1073741824 pages and no next page; the corrected code gives 1073741824 pages and next page 2 |
| Pagination.CeilingDivision | internal/utils/pagination.go:29 | for a non-negative count, the page count is the least number of pages that holds it: (pages-1)*limit < count <= pages*limit |
| Pagination.CeilQuotientInRange | internal/utils/pagination.go:29 | the corrected page count always fits in 32 bits |
| Pagination.CalculatePaginationValues | internal/utils/pagination.go:24-50 | totalPages is ceil(totalCount / limit) for a non-negative count and fits in int32; next page is page+1 exactly when page < totalPages; previous page is page-1 exactly when page > 1 |
| Pagination.QuotInRange | internal/utils/pagination.go:29 | the truncating division of a 32-bit sum by a positive limit stays in 32 bits |
| Pagination.CreatePagination | internal/utils/pagination.go:8-22 | as written: a limit of -1 gives no pagination; otherwise the result echoes total and current page, the total is narrowed to 32 bits and the page count is the ceiling of total over limit only while total + limit - 1 fits in 32 bits; next page exactly below the page count, previous page exactly above 1 |
| Pagination.CreatePaginationCorrected | internal/utils/pagination.go:8-22 | the same with the page count computed without overflow: the ceiling of total over limit for every non-negative total that fits in 32 bits |
| Pagination.CreatePaginationAgreesUntilOverflow | internal/utils/pagination.go:13-29 | the written and the corrected function agree whenever total + limit - 1 fits in 32 bits; for total 2147483647, limit 2, page 1 the written one reports -1073741824 pages and no next page, the corrected one 1073741824 pages and next page 2 |
| Routing.PickupRun | internal/storage/routing/openrouteservice/repo.go:68-78 | the length of the leading run of pickups: all steps before it are pickups and the next one is not |
| Routing.SkipPickups | internal/storage/routing/openrouteservice/repo.go:69-75 | dropping leading pickups does not change the non-pickup steps |
| Routing.Collapsed | internal/storage/routing/openrouteservice/repo.go:63-79 | the reference reduction is no longer than its input, has no two adjacent pickups, keeps every non-pickup step in order, and starts with the input's first step |
| Routing.CollapsedPickupHead | internal/storage/routing/openrouteservice/repo.go:68-78 | a run of pickups collapses to its first step, carrying the load of the run's last step |
| Routing.FoldIsMerge | internal/storage/routing/openrouteservice/repo.go:63-79 | the source's left fold, from any accumulator, equals merging that accumulator with the reference reduction |
| Routing.MergeStep | internal/storage/routing/openrouteservice/repo.go:64-78 | one fold step agrees with the reference reduction for every case of the reducer |
| Routing.ReduceSteps | internal/storage/routing/openrouteservice/repo.go:63-79 | the reduced steps are the reference reduction: no adjacent pickups, every non-pickup step kept in order, never longer, empty for an empty route |
| Routing.Locations | internal/storage/routing/openrouteservice/repo.go:89-91 | the coordinates are the steps' locations, one per step, in order |
| Routing.Located | internal/storage/routing/openrouteservice/repo.go:150-152 | keeps exactly the clusters with both coordinates, in order |
| Routing.LocatedAppend | internal/storage/routing/openrouteservice/repo.go:150-152 | filtering distributes over concatenation, so the relative order is kept |
| Routing.Number | internal/storage/routing/openrouteservice/repo.go:154-172 | the k-th shipment has pickup id 2k and delivery id 2k+1, the given amount, and delivers to [longitude, latitude] |
| Routing.ShipmentsFor | internal/storage/routing/openrouteservice/repo.go:147-173 | one shipment per located cluster, numbered as above |
| Ors.ToOrsVehicleType | internal/storage/routing/openrouteservice/repo.go:191-202 | a trailer maps to "driving-car", a transporter to "driving-hgv", and anything else fails with the unknown-vehicle-type error |
| Ors.ProfilesDistinguishTypes | internal/storage/routing/openrouteservice/repo.go:191-202 | two routable types get the same profile iff they are the same type |
| Ors.ToVroomVehicle | internal/storage/routing/openrouteservice/repo.go:175-189 | fails exactly for a type that cannot be routed; otherwise it copies id and description, uses the type's profile, starts and ends at the depot, and carries the truncated water capacity |
| Ors.ToVroomShipments | internal/storage/routing/openrouteservice/repo.go:147-173 | shipments skip clusters without coordinates, keep the order, and have pickup 2k, delivery 2k+1 and amount [100] |
| Ors.OptimizeRoute | internal/storage/routing/openrouteservice/repo.go:123-145 | an unknown type fails before anything is sent; otherwise the request has the vehicle and shipments above, and the result is what the call returns |
| Ors.RouteFromResponse | internal/storage/routing/openrouteservice/repo.go:58-108 | an empty route list is a run-time panic; otherwise the directions request holds the reduced route's locations under the vehicle's profile |
| Ors.GenerateRouteAsWritten | internal/storage/routing/openrouteservice/repo.go:52-59 | the function as written, which only logs the optimize error and then reads the first route of a nil response |
| Ors.UnknownVehicleTypePanics | internal/storage/routing/openrouteservice/repo.go:53-59 | for a type that cannot be routed, the written code panics, while the corrected code returns the unknown-vehicle-type error |
| Ors.GenerateRoute | internal/storage/routing/openrouteservice/repo.go:52-109 | an optimize failure is returned as the error; a panic happens only on an empty route list; a route is the directions for the reduced steps |
| Vroom.Apply | internal/storage/routing/vroom/vroom.go:36-64 | each option sets its own configuration field to its value and leaves every other field unchanged |
| Vroom.AsFunctions | internal/storage/routing/vroom/vroom.go:66-78 | each option becomes the configuration function that applies it, one per option and in order |
| Vroom.LastSetter | internal/storage/routing/vroom/vroom.go:70-78 | picks an option that sets the field; there is none exactly when no option targets the field |
| Vroom.NewVroomClientSnoc | internal/storage/routing/vroom/vroom.go:70-78 | adding one more option applies it to the client built from the earlier ones |
| Vroom.NewVroomClientLastWins | internal/storage/routing/vroom/vroom.go:66-78 | each field holds the value of the last option that sets it, or its default when none does |
| Vroom.ToOrsVehicleType | internal/storage/routing/vroom/vroom.go:184-190 | fails only for the unknown vehicle type; every other type maps to "driving-car" |
| Vroom.ToVroomVehicle | internal/storage/routing/vroom/vroom.go:168-182 | fails exactly for the unknown type; otherwise it copies id and description and starts and ends at the configured points |
| Vroom.ToVroomShipments | internal/storage/routing/vroom/vroom.go:142-166 | shipments skip clusters without coordinates and keep the order; the k-th picks up (id 2k) at the watering point and delivers (id 2k+1) to [longitude, latitude] with the cluster's name; amount [40] |
| Vroom.OptimizeRoute | internal/storage/routing/vroom/vroom.go:118-140 | an unknown type fails before sending; otherwise the request holds the vehicle and the shipments above |
| WateringPlans.SixDistinctStatuses | internal/entities/watering_plan.go:12-17 | there are exactly six pairwise distinct status values |
| WateringPlans.UpdateStatusValidIffDeclared | internal/entities/watering_plan.go:53 | an update status is valid iff it is one of the six |
| WateringPlans.CreatePart | internal/entities/watering_plan.go:38-51 | an update's date, description, cluster ids, transporter and trailer are its create part |
| WateringPlans.UpdateValidIffCreatePartValid | internal/entities/watering_plan.go:38-53 | an update is valid iff its create part is valid (date, a non-nil cluster id, a transporter; trailer optional) and its status is declared |
| Mapper.MapWateringPlanStatus | internal/server/http/entities/mapper/watering_plan.go:26-28 | keeps the status string |
| Mapper.MapWateringPlanStatusReq | internal/server/http/entities/mapper/watering_plan.go:30-32 | keeps the status string |
| Mapper.DomainStatusRoundTrip | internal/server/http/entities/mapper/watering_plan.go:26-32 | domain to HTTP to domain is the identity |
| Mapper.HttpStatusRoundTrip | internal/server/http/entities/mapper/watering_plan.go:26-32 | HTTP to domain to HTTP is the identity |
| Mapper.StatusEnumsCorrespond | internal/server/http/entities/mapper/watering_plan.go:26-28 | the two enums list the same six values in the same order |
| Mapper.MapWatermarkData | internal/server/http/entities/mapper/sensor.go:29-39 | the output has the input's length, and entry i carries centibar, resistance and depth of input i |
| Mapper.MapLatestDataToResponse | internal/server/http/entities/mapper/sensor.go:16-27 | data without a payload maps to the empty response; otherwise battery, humidity, temperature and the watermarks are copied |
| Mapper.MapSensorStatus | internal/server/http/entities/mapper/sensor.go:41-43 | keeps the status string |
| Store.Issue | internal/storage/postgres/watering_plan/create.go:164-190 | statements take effect in order up to the failing one, which takes none; the error is the fault's; with no fault in range all statements take effect |
| Options.ApplyAllAppend | internal/storage/postgres/vehicle/create.go:20-23 | applying two batches of options is applying the first, then the second |
| Options.ApplyAllLast | internal/storage/postgres/vehicle/create.go:20-23 | the last option sees the result of all earlier ones |
| Options.Lift | internal/storage/postgres/region/update.go:19-21 | turns each option value into the entity function that applies it, one per option and in order |
| Options.ApplyAllLift | internal/storage/postgres/region/update.go:19-21 | applying the lifted functions is the left fold of the options |
| Options.FoldAppend | internal/storage/postgres/region/update.go:19-21 | folding two batches is folding the first, then the second |
| WateringPlanRepo.DefaultWateringPlan | internal/storage/postgres/watering_plan/create.go:16-29 | the default plan is planned, zero-dated, without vehicles, users or clusters, with distance and water 0 |
| WateringPlanRepo.ValidateWateringPlan | internal/storage/postgres/watering_plan/create.go:120-138 | valid iff there is a transporter of type transporter, any trailer is of type trailer, and there are users and clusters; checked in that order, each with its own error |
| WateringPlanRepo.TreeCountAppend | internal/storage/postgres/watering_plan/create.go:194-208 | the tree count of two cluster lists is the sum of their counts |
| WateringPlanRepo.RequiredWater | internal/storage/postgres/watering_plan/create.go:194-208 | required water is a non-negative multiple of 120 litres, and 0 for no clusters |
| WateringPlanRepo.RequiredWaterAppend | internal/storage/postgres/watering_plan/create.go:194-208 | the water of two cluster lists is the sum of their water, so it is 120 times the total tree count |
| WateringPlanRepo.MapAll | internal/storage/postgres/watering_plan/create.go:196-203 | succeeds iff every cluster's fields load, giving the loaded clusters in order |
| WateringPlanRepo.CalculateRequiredWater | internal/storage/postgres/watering_plan/create.go:194-208 | fails with the mapping error iff a cluster cannot be loaded; otherwise 120 per tree over all clusters |
| WateringPlanRepo.UserLinks | internal/storage/postgres/watering_plan/create.go:164-176 | one user link per user id, in order |
| WateringPlanRepo.ClusterLinks | internal/storage/postgres/watering_plan/create.go:178-190 | one cluster link per cluster, in order |
| WateringPlanRepo.VehicleLinks | internal/storage/postgres/watering_plan/create.go:140-162 | the transporter is always linked; the trailer is linked only when present |
| WateringPlanRepo.PlannedWrites | internal/storage/postgres/watering_plan/create.go:79-118 | the insert comes first, then one link per user in order, then the transporter link and, when there is a trailer, its link, then one link per cluster in order; nothing else |
| WateringPlanRepo.CreateEntity | internal/storage/postgres/watering_plan/create.go:79-118 | the row is written with status planned, the next id and the computed water; a water failure writes nothing; statements stop at the first failure |
| WateringPlanRepo.Commit | internal/storage/postgres/watering_plan/create.go:54-70 | a committed plan is stored under its id and its links are added |
| WateringPlanRepo.Persist | internal/storage/postgres/watering_plan/create.go:54-118 | succeeds iff every cluster loads and no statement fails; a failure returns the mapping error or the failing statement's error and leaves the store as it was; success stores the planned row with the given date, description and distance and 120 per tree as water, plus every link |
| WateringPlanRepo.Create | internal/storage/postgres/watering_plan/create.go:31-77 | a nil createFn fails; its error is returned; false gives no plan and no write; an invalid plan fails unwritten; any error leaves the store unchanged |
| FlowerbedRepo.AppendImages | internal/storage/postgres/flowerbed/flowerbed.go:114-120 | keeps the existing images and appends one image per id, in order |
| FlowerbedRepo.Apply | internal/storage/postgres/flowerbed/flowerbed.go:48-132 | each setter changes only its own field; the id setters store an entity holding only that id |
| FlowerbedRepo.AsFunctions | internal/storage/postgres/flowerbed/create.go:29-32 | one entity function per option, in order |
| FlowerbedRepo.ConfigureSnoc | internal/storage/postgres/flowerbed/create.go:29-32 | options are applied in order |
| FlowerbedRepo.ConfigureFrame | internal/storage/postgres/flowerbed/flowerbed.go:48-132 | a field that no option targets keeps its value |
| FlowerbedRepo.DefaultFlowerbed | internal/storage/postgres/flowerbed/create.go:12-26 | size 0, no region, no coordinates, no images, not archived, and a sensor with the empty id |
| FlowerbedRepo.ValidateFlowerbed | internal/storage/postgres/flowerbed/create.go:110-128 | valid iff present with longitude, latitude and region, checked in that order, each with its own error |
| FlowerbedRepo.ValidationMessagesDistinct | internal/storage/postgres/flowerbed/create.go:110-128 | the four validation messages are pairwise distinct |
| FlowerbedRepo.LinkedImages | internal/storage/postgres/flowerbed/create.go:90-108 | lists exactly the images linked to the flowerbed |
| FlowerbedRepo.LinkedImagesAppend | internal/storage/postgres/flowerbed/create.go:90-100 | links added later are listed after the earlier ones |
| FlowerbedRepo.RowOf | internal/storage/postgres/flowerbed/create.go:63-88 | the inserted row carries the sensor id, the region id if any, and the coordinates |
| FlowerbedRepo.Create | internal/storage/postgres/flowerbed/create.go:28-47 | options are applied to the default; an invalid flowerbed fails with its validation error, unwritten; a valid one with a nil sensor panics; a valid one with a sensor succeeds exactly when the insert does, and a failing insert returns its error and writes nothing; on success the row is inserted under the next id and read back |
| FlowerbedRepo.DefaultSensorIdIsEmpty | internal/storage/postgres/flowerbed/create.go:14 | without a sensor option the written sensor id is the empty string |
| FlowerbedRepo.FreshIdHasNoImages | internal/storage/postgres/flowerbed/create.go:39-46 | a newly created flowerbed has no image links |
| FlowerbedRepo.NoLinksNoImages | internal/storage/postgres/flowerbed/create.go:39-46 | without links to it a flowerbed has no images |
| FlowerbedRepo.LinkWrites | internal/storage/postgres/flowerbed/create.go:90-100 | one link per image id, in order |
| FlowerbedRepo.LinkedImagesOfLinkWrites | internal/storage/postgres/flowerbed/create.go:90-100 | after the link writes, the flowerbed's images are the requested ids, in order |
| FlowerbedRepo.HandleImages | internal/storage/postgres/flowerbed/create.go:90-100 | links are written in order up to the first failure; that failure is the error returned, and the earlier links stay |
| FlowerbedRepo.ImageIds | internal/storage/postgres/flowerbed/create.go:94-96 | the ids of the images, in order |
| FlowerbedRepo.CreateAndLinkImagesAsWritten | internal/storage/postgres/flowerbed/create.go:49-61 | the function as written, linking the images of the re-read flowerbed |
| FlowerbedRepo.ExampleOptionsConfigure | internal/storage/postgres/flowerbed/create.go:29-32 | the example options give a located flowerbed in region 1 requesting image 7, everything else default |
| FlowerbedRepo.CreateAndLinkImagesLinksNothing | internal/storage/postgres/flowerbed/create.go:49-61 | as written, creating a flowerbed that requests image 7 succeeds and links no image |
| FlowerbedRepo.CreateAndLinkImagesLinksRequested | internal/storage/postgres/flowerbed/create.go:49-61 | corrected, the same call links image 7 |
| FlowerbedRepo.CreateAndLinkImages | internal/storage/postgres/flowerbed/create.go:49-61 | a create failure is returned; after a successful create it succeeds iff no link statement fails, a failing link's error is returned unwrapped, and the stored links are the earlier ones plus the links issued before the failure |
| FlowerbedRepo.Delete | internal/storage/postgres/flowerbed/flowerbed.go:134-144 | fails iff the delete statement fails, with no change; otherwise only that row is removed |
| FlowerbedRepo.Unlink | internal/storage/postgres/flowerbed/flowerbed.go:161-173 | removes exactly the link between the flowerbed and the image |
| FlowerbedRepo.UnlinkEach | internal/storage/postgres/flowerbed/flowerbed.go:146-159 | unlinks each image in order and stops at the first failure; with no failure, exactly the flowerbed's links to those images are gone |
| FlowerbedRepo.DeleteAndUnlinkImages | internal/storage/postgres/flowerbed/flowerbed.go:146-159 | a missing flowerbed fails with "failed to get images"; otherwise it succeeds iff no unlink and no delete fails; a failing unlink stops before the delete with its error wrapped as "failed to unlink images"; a failing delete returns its own error; success removes the row and all its links |
| FlowerbedRepo.UnlinkSensorId | internal/storage/postgres/flowerbed/flowerbed.go:184-189 | an empty sensor id fails without touching the store; otherwise every flowerbed with that sensor loses it |
| VehicleRepo.DefaultVehicle | internal/storage/postgres/vehicle/create.go:11-17 | empty plate, empty description, capacity 0 |
| VehicleRepo.InsertedRow | internal/storage/postgres/vehicle/create.go:42-55 | only plate, description and capacity reach the insert; the other columns take their defaults |
| VehicleRepo.Create | internal/storage/postgres/vehicle/create.go:19-40 | options are applied to the default; capacity 0 is rejected before an empty plate; a failed check or insert writes nothing; success stores the row under the next id and returns it |
| VehicleRepo.CreateSeesOnlyThreeFields | internal/storage/postgres/vehicle/create.go:42-47 | two option lists that agree on plate, description and capacity create the same vehicle |
| RegionRepo.GetById | internal/storage/postgres/region/update.go:13-17 | finds the stored region; a missing one is the not-found error |
| RegionRepo.UpdateEntity | internal/storage/postgres/region/update.go:34-41 | writes only the name of the region's own row |
| RegionRepo.Update | internal/storage/postgres/region/update.go:12-32 | a missing region fails unwritten; options are applied in order; an empty name fails unwritten; a failing write returns its own error; with no fault it succeeds iff the row of the region's id exists and returns the re-read region; every failure leaves the store as it was |
| RegionRepo.RenameRoundTrip | internal/storage/postgres/region/update.go:12-32 | renaming stores the new name, the returned region is what a read gives back, and repeating the rename changes nothing |
| SensorRepo.ValidateCoordinates | internal/storage/postgres/sensor/update.go:63-72 | valid iff latitude is in [-90, 90] and not 0 and longitude is in [-180, 180] and not 0; latitude is checked first |
| SensorRepo.UpdateWrites | internal/storage/postgres/sensor/update.go:25-61 | location, then status, then the reading only when there is latest data with a payload |
| SensorRepo.GetById | internal/storage/postgres/sensor/update.go:16-19 | finds the stored sensor without its latest reading; a missing one is the sensor-not-found error |
| SensorRepo.Update | internal/storage/postgres/sensor/update.go:14-39 | a missing sensor fails; options are applied to the stored sensor; invalid coordinates fail unwritten; statements stop at the first failure; success re-reads the sensor; a reading is inserted iff it has a payload and all statements took effect |
| SensorRepo.UpdateWritesEffect | internal/storage/postgres/sensor/update.go:41-61 | a full update writes location and status into the sensor's own row only |
| SensorRepo.InsertsOfUpdatePrefix | internal/storage/postgres/sensor/update.go:30-35 | of an update's statements, only the third inserts a reading |
| SensorRepo.ReadingsGrowOnlyByInsert | internal/storage/postgres/sensor/update.go:30-35 | readings are only appended, one per insert statement |
| StatusScheduler.Offline | internal/service/domain/sensor/status_schedular.go:50 | the option sets the status to offline and nothing else |
| StatusScheduler.UpdateStaleSensorStates | internal/service/domain/sensor/status_schedular.go:41-60 | a failing listing is returned with no write; otherwise each listed sensor updated before now - 72h is set offline in list order, failures are skipped, and the result is no error |
| StatusScheduler.OfflineUpdateEffect | internal/service/domain/sensor/status_schedular.go:50 | the offline update changes at most the sensor's own status, and sets it to offline when its checks and statements pass |
| StatusScheduler.StepEffect | internal/service/domain/sensor/status_schedular.go:48-57 | a fresh sensor changes nothing; a stale one changes at most its own status, to offline |
| StatusScheduler.AtMostOfflineKeepsKeyed | internal/service/domain/sensor/status_schedular.go:48-57 | turning sensors offline keeps every sensor under its own id |
| StatusScheduler.AtMostOfflineTransitive | internal/service/domain/sensor/status_schedular.go:48-57 | two rounds of turning sensors offline are one such round |
| StatusScheduler.MarkStaleAtMostOffline | internal/service/domain/sensor/status_schedular.go:48-57 | a pass adds or removes no sensor, inserts no reading and changes nothing but statuses to offline |
| StatusScheduler.MarkStaleUntouched | internal/service/domain/sensor/status_schedular.go:48-57 | a sensor not listed as stale keeps its row |
| StatusScheduler.MarkStaleMarksOffline | internal/service/domain/sensor/status_schedular.go:48-57 | a stale, stored sensor whose update goes through ends offline, even when a later failure follows |
| TreeRepo.GetById | internal/storage/postgres/tree/update.go:47-50 | finds the stored tree; a missing one is the not-found error |
| TreeRepo.EntityWrites | internal/storage/postgres/tree/update.go:91-128 | unlink the sensor from all trees when one is set, then the location, then the row |
| TreeRepo.LinkWrites | internal/storage/postgres/tree/update.go:135-139 | one link per image, in order |
| TreeRepo.ImageWrites | internal/storage/postgres/tree/update.go:130-142 | unlink all images, then link each one |
| TreeRepo.MergedImages | internal/storage/postgres/tree/update.go:19-24 | with no new images the re-read images are kept; otherwise the new ones are appended |
| TreeRepo.Commit | internal/storage/postgres/tree/update.go:66-81 | a failing entity or image statement leaves the store as it was; success writes the tree and, when relinking, its images |
| TreeRepo.Relink | internal/storage/postgres/tree/update.go:18-30 | the after-update hook relinks the merged images; its failure aborts the whole transaction |
| TreeRepo.RelinkKeepsWritten | internal/storage/postgres/tree/update.go:18-30 | relinking keeps every other effect of the update |
| TreeRepo.UpdateWithTx | internal/storage/postgres/tree/update.go:33-89 | a missing tree, a nil updateFn and an updateFn error are returned unwritten; false returns the current tree unwritten; true writes the tree and runs the hook; any error leaves the store unchanged |
| TreeRepo.Update | internal/storage/postgres/tree/update.go:13-15 | succeeds iff the tree exists and its statements succeed; success writes the optioned tree, returns the stored row, and leaves the images alone |
| TreeRepo.UpdateWithImages | internal/storage/postgres/tree/update.go:17-31 | a missing tree fails with the not-found sentinel; otherwise a failing entity statement returns its error, and when the optioned tree carries images a failing image statement returns the image error; it succeeds exactly when the entity statements and, if the tree carries images, the image statements go through; success writes the optioned tree and links the stored images followed by the new ones; any failure leaves the store unchanged |
| TreeRepo.EntityWritesSteps | internal/storage/postgres/tree/update.go:97-127 | the entity statements detach the sensor, set the location and update the row, in that order |
| TreeRepo.DetachEffect | internal/storage/postgres/tree/update.go:97-104 | unlinking a sensor removes it from every tree and changes nothing else |
| TreeRepo.EntityWritesEffect | internal/storage/postgres/tree/update.go:91-128 | the tree's row takes every field of the update except its images; other trees only lose the sensor |
| TreeRepo.LinkWritesEffect | internal/storage/postgres/tree/update.go:135-139 | the link statements append the images to the tree's own row |
| TreeRepo.ImageWritesEffect | internal/storage/postgres/tree/update.go:130-142 | after the image statements, the tree's images are exactly the given ones |
| TreeRepo.UpdateKeepsSensorsUnique | internal/storage/postgres/tree/update.go:97-104 | if at most one tree referenced each sensor before an update, that holds after it |
| TreeRepo.SensorCameFromBefore | internal/storage/postgres/tree/update.go:97-104 | any sensor other than the updated tree's was already on the same tree before |
| TreeService.HandleError | internal/service/domain/tree/tree.go:253-263 | entity not found becomes 404 "tree not found"; sensor not found becomes 404 with the original message; anything else becomes 500 with the original message |
| TreeService.HandleErrorRemapsServiceErrors | internal/service/domain/tree/tree.go:253-263 | a service error is opaque to `errors.Is`, so mapping it again gives 500 with its rendered text |
| TreeService.Create | internal/service/domain/tree/tree.go:132-175 | a validation failure is 400 with no write and no event; a missing cluster is 404 with the tree-not-found text and a missing sensor 404 with the sensor-not-found text; a failing insert returns its error mapped by `handleError`; success inserts and appends exactly one CreateTree event with the new tree; any error leaves the state as it was |
| TreeService.ClusterOf | internal/service/domain/tree/tree.go:140-147 | finds the referenced cluster, if any |
| TreeService.SensorOf | internal/service/domain/tree/tree.go:149-156 | finds the referenced sensor, if any |
| TreeService.CreateOptionsSetRequestedFields | internal/service/domain/tree/tree.go:140-165 | the create options set the cluster and sensor when found and every plain field from the request |
| TreeService.PlainFieldsSet | internal/service/domain/tree/tree.go:158-165 | the six plain options set readonly, planting year, species, number, latitude and longitude |
| TreeService.GetById | internal/service/domain/tree/tree.go:83-92 | finds the stored tree; a missing one is the mapped 404 "tree not found" |
| TreeService.ClusterLookupError | internal/service/domain/tree/tree.go:216-219 | a missing cluster in an update, wrapped and mapped, is 404 "tree not found" |
| TreeService.SensorLookupError | internal/service/domain/tree/tree.go:228-231 | a missing sensor in an update, wrapped and mapped, is 404 with the wrapped message |
| TreeService.UpdateAfterLookup | internal/service/domain/tree/tree.go:210-250 | cluster and sensor lookups fail with the mapped errors; absent ids clear the links; success writes the repository update and appends UpdateTree(prev, updated) |
| TreeService.UpdateAsWritten | internal/service/domain/tree/tree.go:193-251 | the function as written, mapping the lookup error twice |
| TreeService.Update | internal/service/domain/tree/tree.go:193-251 | a validation failure is 400 with no write and no event; a missing tree is 404; otherwise it continues as above |
| TreeService.UpdateStoresRequest | internal/service/domain/tree/tree.go:210-250 | after a successful update, the stored tree carries the requested cluster, sensor and plain fields, and the event holds the previous and the updated tree |
| TreeService.UpdateOptionsSetFields | internal/service/domain/tree/tree.go:210-240 | the update options set or clear the cluster and sensor and set every plain field from the request |
| TreeService.UpdateFoldSetsFields | internal/service/domain/tree/tree.go:210-240 | the same, for the fold of the options |
| TreeService.DeleteAfterLookup | internal/service/domain/tree/tree.go:182-190 | a failing delete returns the mapped error with no change; success removes the tree and appends one DeleteTree event with the snapshot taken before |
| TreeService.DeleteAsWritten | internal/service/domain/tree/tree.go:177-191 | the function as written, mapping the lookup error twice |
| TreeService.Delete | internal/service/domain/tree/tree.go:177-191 | a missing tree is 404 "tree not found" with nothing deleted and no event; otherwise it continues as above |
| TreeService.MissingTreeAsWrittenIsInternalError | internal/service/domain/tree/tree.go:177-203 | as written, deleting or updating a missing tree gives 500 "404: tree not found"; corrected, it gives 404 "tree not found" |
| TreeService.HandleNewSensorData | internal/service/domain/tree/tree.go:46-70 | always returns no error; an unchanged status, or no tree for the sensor, changes nothing; a changed status is written, and UpdateTree is published with the previous tree and the updated one, or none when the write failed |
| TreeService.NewSensorDataSetsStatus | internal/service/domain/tree/tree.go:46-70 | a changed status is stored on the tree, and the event carries the old and the new tree |
| VehicleService.HandleError | internal/service/domain/vehicle/vehicle.go:139-145 | entity not found becomes 404 "vehicle not found"; anything else becomes 500 with the original message |
| VehicleService.Holders | internal/service/domain/vehicle/vehicle.go:147-153 | the ids of exactly the vehicles with the plate |
| VehicleService.IsPlateTaken | internal/service/domain/vehicle/vehicle.go:147-153 | taken iff some vehicle has the plate; not found counts as free; other lookup errors propagate, mapped |
| VehicleService.Create | internal/service/domain/vehicle/vehicle.go:54-83 | a validation failure is 400 before any repository call; a taken plate is 400 and nothing is created; otherwise the repository create's result, mapped; any error leaves the store unchanged |
| VehicleService.CreatedVehicleFields | internal/service/domain/vehicle/vehicle.go:65-76 | a created vehicle has the requested plate, description and capacity; every other field is a column default |
| VehicleService.RequestSetsStoredFields | internal/service/domain/vehicle/vehicle.go:65-76 | the request options set plate, description and capacity |
| VehicleService.FoldKeepsStoredFields | internal/service/domain/vehicle/vehicle.go:65-76 | options that do not target plate, description or capacity leave them alone |
| VehicleService.UpdateAfterCheck | internal/service/domain/vehicle/vehicle.go:95-118 | a failing plate check returns its error; a taken plate is 400; otherwise the repository update's result, mapped |
| VehicleService.UpdateAsWritten | internal/service/domain/vehicle/vehicle.go:85-119 | the function as written, checking the plate against every vehicle, itself included |
| VehicleService.IsPlateTakenByOther | internal/service/domain/vehicle/vehicle.go:95-99 | taken iff a vehicle other than the updated one has the plate |
| VehicleService.Update | internal/service/domain/vehicle/vehicle.go:85-119 | a validation failure is 400; a missing vehicle is 404; a plate held by another vehicle is 400; otherwise the repository update |
| VehicleService.UpdateKeepingOwnPlate | internal/service/domain/vehicle/vehicle.go:95-99 | as written, an update that keeps the vehicle's own plate is rejected as taken; corrected, it reaches the repository |
| VehicleService.Delete | internal/service/domain/vehicle/vehicle.go:121-133 | a missing vehicle is 404 with no delete; a failing delete is mapped; success removes only that vehicle |

## Left out

- Concurrency. The event manager's goroutines and channels, and the timing of `Run`, are one sequential step at a time. A full queue is an outcome that fails once the caller's deadline has passed. Go's random choice among ready `select` cases is not modelled: subscribers that are owed the in-flight event may read it in any order.
- The status scheduler's ticker loop and `RunStatusSchedular`, because they are timing. The clock is the parameter `now`, and the sensor listing is the parameter `all`.
- I/O. This covers the VROOM `Send`, the ORS `generateGeoJSON`, MQTT, logging and HTTP routing. The network calls are function parameters.
- The SQL store. Row lookups are map lookups. The store's `HandleError`, which the repositories apply to a failing statement, passes the error through unchanged here. The raw pgx "no rows" errors of the read queries are the storage not-found sentinels the services test for. Re-reads after a write are assumed to succeed.
- The sentinel error texts and the vehicle-type strings. Their declaring files are not part of this model, so the model uses stand-in texts.
- Float semantics. Coordinates, capacities and sizes are reals. The `int32(WaterCapacity)` truncation and `utils.CalculateWateringStatus` are uninterpreted parameters.
- 32-bit wrap-around of the store's id sequences and of shipment ids. Ids are unbounded integers. Only the pagination arithmetic models `int32` overflow.
- `TimeToPgDate` failing on a watering plan's date: dates are always valid here.
- Nil elements inside Go pointer slices (clusters, steps, images). Sequences hold values.
- The `validate` struct tags of the tree and vehicle requests. The validator's verdict is the `invalid` parameter.
- The tree repository's create and delete, and the tree lookup by sensor. They are not among the modelled sources, so they are function parameters or map operations.
- The tree service calls its repository's `Update` with entity options, while `internal/storage/postgres/tree/update.go` takes an update function. The model bridges the two with an update function that applies the options and always reports a change.
- The vehicle repository's `Update`. It is not part of this model, so it is a parameter.
- `Ready` of the tree and vehicle services: it only tests a Go pointer for nil, and the model has no nil services. `AllServicesReady` takes each field's readiness as data.
- The publish failures of the tree service. A publish that fails is only logged, so the event log records every publish, and the service's result never depends on it.
- TreeRepo.UpdateWithImages: the re-read tree already holds the kept images, and the hook appends the new images to them. So an update that passes the tree's current images back links them twice. The model keeps that behaviour and states it, rather than treating it as a defect.
- VehicleRepo.Create: the insert passes only plate, description and capacity. Type, status, model, licence and dimensions come from the column defaults, so a created vehicle does not carry the requested type. The model states this, and the service contract follows it.

## Findings

| source | as written | input that shows it | evidently intended | confidence | as-written member | corrected member |
|---|---|---|---|---|---|---|
| internal/utils/pagination.go:29 | `(totalCount + limit - 1) / limit` is computed in `int32` and wraps | totalCount = 2147483647, limit = 2, page = 1 gives -1073741824 pages and no next page | ceil(totalCount / limit) = 1073741824, next page 2 | not executed | Pagination.CreatePagination | Pagination.CreatePaginationCorrected |
| internal/storage/routing/openrouteservice/repo.go:53-59 | the optimize error is only logged, and `optimizedRoutes.Routes[0]` is then read from a nil response | a vehicle of unknown type: the optimizer fails, and the nil response is dereferenced (a panic) | return the optimize error, here the unknown-vehicle-type error | not executed | Ors.GenerateRouteAsWritten | Ors.GenerateRoute |
| internal/storage/postgres/flowerbed/create.go:49-61 | the images linked are those of the flowerbed re-read after the insert, which has no links yet | options requesting image 7 give a flowerbed with no image links | link the images the options requested | not executed | FlowerbedRepo.CreateAndLinkImagesLinksNothing | FlowerbedRepo.CreateAndLinkImagesLinksRequested |
| internal/service/domain/tree/tree.go:177-182 | `s.GetByID` already maps the error to a service error, and `handleError` maps it again; `errors.Is` cannot see through a service error | deleting or updating a tree id that is not stored gives 500 "404: tree not found" | 404 "tree not found" | not executed | TreeService.MissingTreeAsWrittenIsInternalError | TreeService.Delete |
| internal/service/domain/vehicle/vehicle.go:95-99 | the plate check looks for any vehicle with the plate, the updated vehicle included | updating vehicle 1 and keeping its own plate "FL-1" fails with "Number plate is already taken" | only another vehicle's plate counts as taken | not executed | VehicleService.UpdateAsWritten | VehicleService.Update |

=== FILE: entities.dfy ===
/** The domain entities (package entities) the modelled code reads and writes, reduced to
    the fields that code touches. Floating-point values are `real`s and are only
    compared; times are nanosecond counts. */
module Entities {
  import opened Wrappers

  type Timestamp = int

  /** Go's zero `time.Time` (0001-01-01 UTC) in nanoseconds since the Unix epoch; the
      `required` validation tag rejects exactly this instant. */
  const ZeroTime: Timestamp := -62135596800 * 1_000_000_000

  /** A vehicle type is a string type; any string may occur. The texts are stand-ins:
      the file declaring the constants is not part of this model, and only their
      distinctness matters. */
  datatype VehicleType = VehicleType(value: string)

  const Transporter := VehicleType("transporter")
  const Trailer := VehicleType("trailer")
  const VehicleTypeUnknown := VehicleType("unknown")

  datatype Vehicle = Vehicle(
    id: int,
    numberPlate: string,
    description: string,
    waterCapacity: real,
    vehicleType: VehicleType,
    status: string,
    model: string,
    height: real,
    length: real,
    width: real,
    drivingLicense: string)

  datatype Watermark = Watermark(centibar: int, resistance: int, depth: int)

  /** The payload of a sensor reading. */
  datatype SensorPayload = SensorPayload(battery: real, humidity: real, temperature: real, watermarks: seq<Watermark>)

  /** A stored sensor reading; its payload pointer may be nil. */
  datatype SensorData = SensorData(data: Option<SensorPayload>)

  /** A sensor status is a string type; `MapSensorStatus` only casts it. */
  datatype SensorStatus = SensorStatus(value: string)

  /** Stand-in text of the offline status constant (the file declaring the sensor
      statuses is not part of this model). */
  const SensorStatusOffline := SensorStatus("offline")

  datatype Sensor = Sensor(
    id: string,
    status: SensorStatus,
    latitude: real,
    longitude: real,
    latestData: Option<SensorData>,
    updatedAt: Timestamp)

  /** `&entities.Sensor{ID: id}`: every other field at its zero value. */
  function SensorWithId(id: string): Sensor {
    Sensor(id, SensorStatus(""), 0.0, 0.0, None, 0)
  }

  datatype Region = Region(id: int, name: string, createdAt: Timestamp, updatedAt: Timestamp)

  /** `&entities.Region{ID: id}`. */
  function RegionWithId(id: int): Region {
    Region(id, "", 0, 0)
  }

  datatype Image = Image(id: int)

  datatype Flowerbed = Flowerbed(
    id: int,
    sensor: Option<Sensor>,
    size: real,
    description: string,
    numberOfPlants: int,
    moistureLevel: real,
    region: Option<Region>,
    address: string,
    latitude: Option<real>,
    longitude: Option<real>,
    images: seq<Image>,
    archived: bool)

  datatype TreeCluster = TreeCluster(
    id: int,
    name: string,
    latitude: Option<real>,
    longitude: Option<real>,
    trees: seq<int>)

  /** A tree's watering status is a string type computed from sensor readings. */
  datatype WateringStatus = WateringStatus(value: string)

  datatype Tree = Tree(
    id: int,
    treeClusterId: Option<int>,
    sensorId: Option<string>,
    plantingYear: int,
    species: string,
    number: string,
    latitude: real,
    longitude: real,
    description: string,
    wateringStatus: WateringStatus,
    readonly: bool,
    images: seq<Image>)
}

=== FILE: errors.dfy ===
/** Go error values as the model sees them: the storage layer's sentinel errors, plain
    `errors.New` texts, `%w`/`errors.Wrap` wrapping, and the service layer's
    `service.Error`. `Is` follows `errors.Is`: it looks through wrapping, and a
    `service.Error` (which has no `Unwrap`) matches no sentinel. */
module Errors {
  import Service

  /** Sentinel errors of the storage package that the modelled code tests for or returns. */
  datatype Sentinel =
    | EntityNotFound
    | TreeNotFound
    | SensorNotFound
    | VehicleNotFound
    | FlowerbedNotFound
    | UnknownVehicleType
    | InvalidLatitude
    | InvalidLongitude

  /** Stand-in texts of the sentinels; the storage package defining them is not part of
      this model, so only their distinctness matters. */
  function SentinelText(s: Sentinel): string {
    match s
    case EntityNotFound => "entity not found"
    case TreeNotFound => "tree not found"
    case SensorNotFound => "sensor not found"
    case VehicleNotFound => "vehicle not found"
    case FlowerbedNotFound => "flowerbed not found"
    case UnknownVehicleType => "unknown vehicle type"
    case InvalidLatitude => "invalid latitude"
    case InvalidLongitude => "invalid longitude"
  }

  datatype Failure =
    | Sentinel(sentinel: Sentinel)
    | Plain(text: string)
    | Wrapped(context: string, cause: Failure)
    | ServiceFailure(error: Service.Error)
    | Canceled
    | DeadlineExceeded

  /** `errors.Is(f, target)`. */
  predicate Is(f: Failure, target: Sentinel) {
    match f
    case Sentinel(s) => s == target
    case Wrapped(_, cause) => Is(cause, target)
    case _ => false
  }

  /** `f.Error()`: wrapping prefixes its context and ": ". */
  function Message(f: Failure): string {
    match f
    case Sentinel(s) => SentinelText(s)
    case Plain(t) => t
    case Wrapped(c, cause) => c + ": " + Message(cause)
    case ServiceFailure(e) => Service.Render(e)
    case Canceled => "context canceled"
    case DeadlineExceeded => "context deadline exceeded"
  }

  /** A `service.Error` with the given code and message, as an error value. */
  function ServiceError(code: Service.ErrorCode, msg: string): Failure {
    ServiceFailure(Service.NewError(code, msg))
  }

  /** What the services return when the validator rejects a request: the validator's
      message wrapped with "validation error", as a 400 error. */
  function ValidationError(msg: string): (e: Failure)
    ensures e.ServiceFailure? && e.error.code == Service.BadRequest
    ensures e.error.message == "validation error: " + msg
  {
    var m := Message(Wrapped("validation error", Plain(msg)));
    assert "validation error" + ": " == "validation error: ";
    assert Message(Plain(msg)) == msg;
    ServiceError(Service.BadRequest, m)
  }
}

=== FILE: flowerbed_repo.dfy ===
/** The flowerbed repository's writes (internal/storage/postgres/flowerbed/create.go and
    flowerbed.go): entity options, validation, create with image links, delete with image
    unlinking, and sensor unlinking. None of these calls runs in a transaction, so a
    failure part-way keeps what was written before it. */
module FlowerbedRepo {
  import opened Wrappers
  import opened Entities
  import opened Errors
  import Options
  import opened Store

  // ---------------------------------------------------------------------------
  // Options

  /** The `With*` entity options. */
  datatype FlowerbedOption =
    | WithSize(size: real)
    | WithDescription(description: string)
    | WithNumberOfPlants(numberOfPlants: int)
    | WithMoistureLevel(moistureLevel: real)
    | WithRegion(region: Option<Region>)
    | WithAddress(address: string)
    | WithLatitude(latitude: Option<real>)
    | WithLongitude(longitude: Option<real>)
    | WithSensor(sensor: Option<Sensor>)
    | WithImages(images: seq<Image>)
    | WithArchived(archived: bool)
    | WithImagesIds(imageIds: seq<int>)
    | WithSensorId(sensorId: string)
    | WithRegionId(regionId: int)

  datatype FlowerbedField =
    | SizeField | DescriptionField | PlantsField | MoistureField | RegionField | AddressField
    | LatitudeField | LongitudeField | SensorField | ImagesField | ArchivedField

  /** The field an option writes. */
  function Target(o: FlowerbedOption): FlowerbedField {
    match o
    case WithSize(_) => SizeField
    case WithDescription(_) => DescriptionField
    case WithNumberOfPlants(_) => PlantsField
    case WithMoistureLevel(_) => MoistureField
    case WithRegion(_) => RegionField
    case WithAddress(_) => AddressField
    case WithLatitude(_) => LatitudeField
    case WithLongitude(_) => LongitudeField
    case WithSensor(_) => SensorField
    case WithImages(_) => ImagesField
    case WithArchived(_) => ArchivedField
    case WithImagesIds(_) => ImagesField
    case WithSensorId(_) => SensorField
    case WithRegionId(_) => RegionField
  }

  /** `a` and `b` hold the same value in field `f`. */
  predicate Agree(a: Flowerbed, b: Flowerbed, f: FlowerbedField) {
    match f
    case SizeField => a.size == b.size
    case DescriptionField => a.description == b.description
    case PlantsField => a.numberOfPlants == b.numberOfPlants
    case MoistureField => a.moistureLevel == b.moistureLevel
    case RegionField => a.region == b.region
    case AddressField => a.address == b.address
    case LatitudeField => a.latitude == b.latitude
    case LongitudeField => a.longitude == b.longitude
    case SensorField => a.sensor == b.sensor
    case ImagesField => a.images == b.images
    case ArchivedField => a.archived == b.archived
  }

  /** `a` and `b` differ at most in field `f`. */
  predicate SameExcept(a: Flowerbed, b: Flowerbed, f: FlowerbedField) {
    a.id == b.id && forall g :: g != f ==> Agree(a, b, g)
  }

  /** `WithImagesIDs`' loop: one image per id appended, in order. */
  function AppendImages(images: seq<Image>, ids: seq<int>): (r: seq<Image>)
    ensures |r| == |images| + |ids|
    ensures r[..|images|] == images
    ensures forall i :: 0 <= i < |ids| ==> r[|images| + i] == Image(ids[i])
    decreases |ids|
  {
    if |ids| == 0 then images else AppendImages(images + [Image(ids[0])], ids[1..])
  }

  /** One option changes only its own field. `WithImagesIDs` keeps the images already
      there and appends one per id; `WithSensorID` and `WithRegionID` install an entity
      holding only that id; every other option stores its value. */
  function Apply(fb: Flowerbed, o: FlowerbedOption): (r: Flowerbed)
    ensures SameExcept(fb, r, Target(o))
    ensures o.WithImagesIds? ==>
              && |r.images| == |fb.images| + |o.imageIds|
              && r.images[..|fb.images|] == fb.images
              && forall i :: 0 <= i < |o.imageIds| ==> r.images[|fb.images| + i] == Image(o.imageIds[i])
    ensures o.WithSensorId? ==> r.sensor == Some(SensorWithId(o.sensorId))
    ensures o.WithRegionId? ==> r.region == Some(RegionWithId(o.regionId))
    ensures o.WithLatitude? ==> r.latitude == o.latitude
    ensures o.WithLongitude? ==> r.longitude == o.longitude
    ensures o.WithRegion? ==> r.region == o.region
    ensures o.WithSensor? ==> r.sensor == o.sensor
  {
    match o
    case WithSize(v) => fb.(size := v)
    case WithDescription(v) => fb.(description := v)
    case WithNumberOfPlants(v) => fb.(numberOfPlants := v)
    case WithMoistureLevel(v) => fb.(moistureLevel := v)
    case WithRegion(v) => fb.(region := v)
    case WithAddress(v) => fb.(address := v)
    case WithLatitude(v) => fb.(latitude := v)
    case WithLongitude(v) => fb.(longitude := v)
    case WithSensor(v) => fb.(sensor := v)
    case WithImages(v) => fb.(images := v)
    case WithArchived(v) => fb.(archived := v)
    case WithImagesIds(ids) => fb.(images := AppendImages(fb.images, ids))
    case WithSensorId(id) => fb.(sensor := Some(SensorWithId(id)))
    case WithRegionId(id) => fb.(region := Some(RegionWithId(id)))
  }

  function AsFunctions(opts: seq<FlowerbedOption>): (fns: seq<Flowerbed -> Flowerbed>)
    ensures |fns| == |opts|
  {
    seq(|opts|, i requires 0 <= i < |opts| => (fb: Flowerbed) => Apply(fb, opts[i]))
  }

  /** Runs the options on `fb` in order. */
  function Configure(fb: Flowerbed, opts: seq<FlowerbedOption>): Flowerbed {
    Options.ApplyAll(fb, AsFunctions(opts))
  }

  /** Options run in order: one more option acts on the result of the earlier ones. */
  lemma ConfigureSnoc(fb: Flowerbed, opts: seq<FlowerbedOption>, o: FlowerbedOption)
    ensures Configure(fb, opts + [o]) == Apply(Configure(fb, opts), o)
  {
    assert AsFunctions(opts + [o]) == AsFunctions(opts) + [(x: Flowerbed) => Apply(x, o)];
    Options.ApplyAllLast(fb, AsFunctions(opts), (x: Flowerbed) => Apply(x, o));
  }

  /** Options that do not write a field leave it as it was. */
  lemma {:induction false} ConfigureFrame(fb: Flowerbed, opts: seq<FlowerbedOption>, f: FlowerbedField)
    requires forall i :: 0 <= i < |opts| ==> Target(opts[i]) != f
    ensures Agree(Configure(fb, opts), fb, f)
    ensures Configure(fb, opts).id == fb.id
    decreases |opts|
  {
    if |opts| == 0 {
      assert AsFunctions(opts) == [];
    } else {
      var init := opts[..|opts| - 1];
      var o := opts[|opts| - 1];
      assert init + [o] == opts;
      ConfigureSnoc(fb, init, o);
      ConfigureFrame(fb, init, f);
      assert Target(o) != f;
    }
  }

  /** The default flowerbed: a zero sensor (not nil), size 0, no region, no coordinates,
      no images, not archived. */
  function DefaultFlowerbed(): (fb: Flowerbed)
    ensures fb.sensor == Some(SensorWithId(""))
    ensures fb.size == 0.0 && fb.region.None? && fb.latitude.None? && fb.longitude.None?
    ensures fb.images == [] && !fb.archived
  {
    Flowerbed(0, Some(SensorWithId("")), 0.0, "", 0, 0.0, None, "", None, None, [], false)
  }

  // ---------------------------------------------------------------------------
  // Validation

  const NilMessage := "flowerbed is nil"
  const LongitudeMessage := "flowerbed longitude is empty"
  const LatitudeMessage := "flowerbed latitude is empty"
  const RegionMessage := "flowerbed region is empty"

  /** `validateFlowerbedEntity`: nil, then longitude, latitude and region, each with its
      own error; the first failing check decides. */
  function ValidateFlowerbed(fb: Option<Flowerbed>): (r: Option<Failure>)
    ensures r.None? <==> fb.Some? && fb.value.longitude.Some? && fb.value.latitude.Some? && fb.value.region.Some?
    ensures fb.None? ==> r == Some(Plain(NilMessage))
    ensures fb.Some? && fb.value.longitude.None? ==> r == Some(Plain(LongitudeMessage))
    ensures fb.Some? && fb.value.longitude.Some? && fb.value.latitude.None? ==> r == Some(Plain(LatitudeMessage))
    ensures fb.Some? && fb.value.longitude.Some? && fb.value.latitude.Some? && fb.value.region.None? ==>
              r == Some(Plain(RegionMessage))
  {
    match fb
    case None => Some(Plain(NilMessage))
    case Some(f) =>
      if f.longitude.None? then Some(Plain(LongitudeMessage))
      else if f.latitude.None? then Some(Plain(LatitudeMessage))
      else if f.region.None? then Some(Plain(RegionMessage))
      else None
  }

  /** The four validation errors are pairwise distinct. */
  lemma ValidationMessagesDistinct()
    ensures |{NilMessage, LongitudeMessage, LatitudeMessage, RegionMessage}| == 4
  {
  }

  // ---------------------------------------------------------------------------
  // The store

  /** A flowerbed row; the sensor column holds a nullable id. */
  datatype FlowerbedRow = FlowerbedRow(
    id: int,
    sensorId: Option<string>,
    size: real,
    description: string,
    numberOfPlants: int,
    moistureLevel: real,
    regionId: Option<int>,
    address: string,
    latitude: real,
    longitude: real)

  datatype ImageLink = ImageLink(flowerbedId: int, imageId: int)

  datatype Db = Db(flowerbeds: map<int, FlowerbedRow>, nextId: int, imageLinks: seq<ImageLink>)

  /** Ids are handed out in increasing order, and links refer to handed-out ids. */
  ghost predicate Valid(db: Db) {
    && (forall id :: id in db.flowerbeds ==> id < db.nextId)
    && (forall i :: 0 <= i < |db.imageLinks| ==> db.imageLinks[i].flowerbedId < db.nextId)
  }

  /** The image ids linked to flowerbed `id`, in link order (`GetAllImagesByID`). */
  function LinkedImages(links: seq<ImageLink>, id: int): (r: seq<int>)
    ensures forall img :: img in r <==> ImageLink(id, img) in links
    decreases |links|
  {
    if |links| == 0 then []
    else (if links[0].flowerbedId == id then [links[0].imageId] else []) + LinkedImages(links[1..], id)
  }

  lemma {:induction false} LinkedImagesAppend(a: seq<ImageLink>, b: seq<ImageLink>, id: int)
    ensures LinkedImages(a + b, id) == LinkedImages(a, id) + LinkedImages(b, id)
    decreases |a|
  {
    if |a| == 0 {
      assert a + b == b;
    } else {
      assert (a + b)[1..] == a[1..] + b;
      LinkedImagesAppend(a[1..], b, id);
    }
  }

  /** What the re-read returns: the row and the ids of its linked images. */
  datatype StoredFlowerbed = StoredFlowerbed(row: FlowerbedRow, images: seq<int>)

  function ReadBack(db: Db, id: int): StoredFlowerbed
    requires id in db.flowerbeds
  {
    StoredFlowerbed(db.flowerbeds[id], LinkedImages(db.imageLinks, id))
  }

  // ---------------------------------------------------------------------------
  // Create

  /** `createEntity`'s row. The sensor id is taken through the sensor pointer, so a
      flowerbed whose sensor was set to nil cannot be written. */
  function RowOf(fb: Flowerbed, id: int): (r: FlowerbedRow)
    requires fb.latitude.Some? && fb.longitude.Some? && fb.sensor.Some?
    ensures r.id == id && r.sensorId == Some(fb.sensor.value.id)
    ensures r.regionId == (if fb.region.Some? then Some(fb.region.value.id) else None)
    ensures r.latitude == fb.latitude.value && r.longitude == fb.longitude.value
  {
    FlowerbedRow(id, Some(fb.sensor.value.id), fb.size, fb.description, fb.numberOfPlants, fb.moistureLevel,
                 if fb.region.Some? then Some(fb.region.value.id) else None,
                 fb.address, fb.latitude.value, fb.longitude.value)
  }

  /** `Create`: the options run on the default flowerbed; an invalid result is rejected
      with no write; a nil sensor makes the insert panic; a failing insert (`insertFault`)
      writes nothing; otherwise the row gets the next id and is read back. */
  function Create(db: Db, opts: seq<FlowerbedOption>, insertFault: Option<Failure>): (o: Outcome<Db, StoredFlowerbed>)
    ensures var fb := Configure(DefaultFlowerbed(), opts);
            && (ValidateFlowerbed(Some(fb)).Some? ==> o == Done(db, Err(ValidateFlowerbed(Some(fb)).value)))
            && (o.Panicked? <==> ValidateFlowerbed(Some(fb)).None? && fb.sensor.None?)
            && (o.Done? && o.result.Err? ==> o.db == db)
            && (ValidateFlowerbed(Some(fb)).None? && fb.sensor.Some? ==>
                  && o.Done? && (o.result.Ok? <==> insertFault.None?)
                  && (insertFault.Some? ==> o == Done(db, Err(insertFault.value))))
            && (o.Done? && o.result.Ok? ==>
                  && ValidateFlowerbed(Some(fb)).None? && fb.sensor.Some? && insertFault.None?
                  && o.db.flowerbeds == db.flowerbeds[db.nextId := RowOf(fb, db.nextId)]
                  && o.db.nextId == db.nextId + 1 && o.db.imageLinks == db.imageLinks
                  && o.result.value.row == RowOf(fb, db.nextId))
  {
    var fb := Configure(DefaultFlowerbed(), opts);
    match ValidateFlowerbed(Some(fb))
    case Some(e) => Done(db, Err(e))
    case None =>
      if fb.sensor.None? then Panicked("nil pointer dereference")
      else match insertFault
        case Some(e) => Done(db, Err(e))
        case None =>
          var id := db.nextId;
          var db' := Db(db.flowerbeds[id := RowOf(fb, id)], id + 1, db.imageLinks);
          Done(db', Ok(ReadBack(db', id)))
  }

  /** Without a sensor option the stored sensor id is the empty string, not null. */
  lemma DefaultSensorIdIsEmpty(db: Db, opts: seq<FlowerbedOption>)
    requires forall i :: 0 <= i < |opts| ==> Target(opts[i]) != SensorField
    requires Create(db, opts, None).Done? && Create(db, opts, None).result.Ok?
    ensures Create(db, opts, None).result.value.row.sensorId == Some("")
  {
    ConfigureFrame(DefaultFlowerbed(), opts, SensorField);
  }

  /** A fresh flowerbed has no image links in a valid store. */
  lemma FreshIdHasNoImages(db: Db)
    requires Valid(db)
    ensures LinkedImages(db.imageLinks, db.nextId) == []
  {
    NoLinksNoImages(db.imageLinks, db.nextId);
  }

  lemma {:induction false} NoLinksNoImages(links: seq<ImageLink>, id: int)
    requires forall i :: 0 <= i < |links| ==> links[i].flowerbedId != id
    ensures LinkedImages(links, id) == []
    decreases |links|
  {
    if |links| > 0 {
      NoLinksNoImages(links[1..], id);
    }
  }

  function LinkWrites(id: int, imageIds: seq<int>): (r: seq<ImageLink>)
    ensures |r| == |imageIds| && forall i :: 0 <= i < |r| ==> r[i] == ImageLink(id, imageIds[i])
    decreases |imageIds|
  {
    if |imageIds| == 0 then [] else [ImageLink(id, imageIds[0])] + LinkWrites(id, imageIds[1..])
  }

  lemma {:induction false} LinkedImagesOfLinkWrites(id: int, imageIds: seq<int>)
    ensures LinkedImages(LinkWrites(id, imageIds), id) == imageIds
    decreases |imageIds|
  {
    if |imageIds| > 0 {
      var rest := LinkWrites(id, imageIds[1..]);
      assert LinkWrites(id, imageIds) == [ImageLink(id, imageIds[0])] + rest;
      LinkedImagesCons(ImageLink(id, imageIds[0]), rest, id);
      LinkedImagesOfLinkWrites(id, imageIds[1..]);
      assert [imageIds[0]] + imageIds[1..] == imageIds;
    }
  }

  lemma LinkedImagesCons(l: ImageLink, rest: seq<ImageLink>, id: int)
    ensures LinkedImages([l] + rest, id) == (if l.flowerbedId == id then [l.imageId] else []) + LinkedImages(rest, id)
  {
    assert ([l] + rest)[1..] == rest;
  }

  /** `handleImages`: links the images one by one and stops at the first failure; links
      already written stay. */
  function HandleImages(db: Db, id: int, imageIds: seq<int>, linkFault: Option<Fault>): (o: Outcome<Db, ()>)
    ensures o.Done?
    ensures var issued := Issue(LinkWrites(id, imageIds), linkFault);
            && o.db == db.(imageLinks := db.imageLinks + issued.writes)
            && (o.result.Err? <==> issued.error.Some?)
            && (o.result.Err? ==> o.result.error == issued.error.value)
  {
    var issued := Issue(LinkWrites(id, imageIds), linkFault);
    var db' := db.(imageLinks := db.imageLinks + issued.writes);
    match issued.error
    case Some(e) => Done(db', Err(e))
    case None => Done(db', Ok(()))
  }

  function ImageIds(images: seq<Image>): (r: seq<int>)
    ensures |r| == |images| && forall i :: 0 <= i < |r| ==> r[i] == images[i].id
    decreases |images|
  {
    if |images| == 0 then [] else [images[0].id] + ImageIds(images[1..])
  }

  /** `CreateAndLinkImages` as written: the images it links are those of the flowerbed
      read back after the insert, which has no links yet. */
  function CreateAndLinkImagesAsWritten(db: Db, opts: seq<FlowerbedOption>, insertFault: Option<Failure>,
                                        linkFault: Option<Fault>): Outcome<Db, StoredFlowerbed>
  {
    match Create(db, opts, insertFault)
    case Panicked(reason) => Panicked(reason)
    case Done(db1, Err(e)) => Done(db1, Err(e))
    case Done(db1, Ok(created)) =>
      match HandleImages(db1, created.row.id, created.images, linkFault)
      case Done(db2, Err(e)) => Done(db2, Err(e))
      case Done(db2, Ok(_)) => Done(db2, Ok(created))
      case Panicked(reason) => Panicked(reason)
  }

  /** The options of the example below: coordinates, a region and image 7. */
  const ExampleOptions: seq<FlowerbedOption> :=
    [WithLatitude(Some(54.78)), WithLongitude(Some(9.43)), WithRegionId(1), WithImagesIds([7])]

  lemma ExampleOptionsConfigure()
    ensures Configure(DefaultFlowerbed(), ExampleOptions)
            == DefaultFlowerbed().(latitude := Some(54.78), longitude := Some(9.43),
                                   region := Some(RegionWithId(1)), images := [Image(7)])
  {
    var d := DefaultFlowerbed();
    var o := ExampleOptions;
    assert o[..0] == [] && AsFunctions([]) == [];
    assert Configure(d, o[..0]) == d;
    assert o[..0] + [o[0]] == o[..1];
    ConfigureSnoc(d, o[..0], o[0]);
    assert o[..1] + [o[1]] == o[..2];
    ConfigureSnoc(d, o[..1], o[1]);
    assert o[..2] + [o[2]] == o[..3];
    ConfigureSnoc(d, o[..2], o[2]);
    assert o[..3] + [o[3]] == o;
    ConfigureSnoc(d, o[..3], o[3]);
  }

  /** Asking for image 7 links nothing: after a successful call the new flowerbed has no
      images. */
  lemma CreateAndLinkImagesLinksNothing(db: Db, linkFault: Option<Fault>)
    requires Valid(db)
    ensures var o := CreateAndLinkImagesAsWritten(db, ExampleOptions, None, linkFault);
            && o.Done? && o.result.Ok?
            && LinkedImages(o.db.imageLinks, db.nextId) == []
            && o.result.value.images == []
  {
    ExampleOptionsConfigure();
    FreshIdHasNoImages(db);
    var c := Create(db, ExampleOptions, None);
    assert c.Done? && c.result.Ok?;
    assert c.result.value.images == [];
    assert LinkWrites(db.nextId, []) == [];
    var h := HandleImages(c.db, db.nextId, [], linkFault);
    assert |Issue(LinkWrites(db.nextId, []), linkFault).writes| == 0;
    assert h.db.imageLinks == c.db.imageLinks;
  }

  /** With the same request the corrected call links image 7. */
  lemma CreateAndLinkImagesLinksRequested(db: Db)
    requires Valid(db)
    ensures var o := CreateAndLinkImages(db, ExampleOptions, None, None);
            o.Done? && o.result.Ok? && LinkedImages(o.db.imageLinks, db.nextId) == [7]
  {
    ExampleOptionsConfigure();
    var c := Create(db, ExampleOptions, None);
    assert c.Done? && c.result.Ok?;
    assert ImageIds([Image(7)]) == [7];
  }

  /** `CreateAndLinkImages` linking the images the options asked for: after a successful
      call the new flowerbed's images are exactly those, in order; a failing link stops
      the linking and leaves the flowerbed and the earlier links in place. */
  function CreateAndLinkImages(db: Db, opts: seq<FlowerbedOption>, insertFault: Option<Failure>,
                               linkFault: Option<Fault>): (o: Outcome<Db, StoredFlowerbed>)
    requires Valid(db)
    ensures o.Panicked? <==> Create(db, opts, insertFault).Panicked?
    ensures Create(db, opts, insertFault).Done? && Create(db, opts, insertFault).result.Err? ==>
              o == Create(db, opts, insertFault)
    ensures o.Done? && o.result.Ok? ==>
              && o.result.value.row.id == db.nextId
              && o.result.value.images == ImageIds(Configure(DefaultFlowerbed(), opts).images)
              && LinkedImages(o.db.imageLinks, db.nextId) == ImageIds(Configure(DefaultFlowerbed(), opts).images)
    ensures o.Done? && o.result.Err? && Create(db, opts, insertFault).Done? && Create(db, opts, insertFault).result.Ok? ==>
              db.nextId in o.db.flowerbeds
    ensures var c := Create(db, opts, insertFault);
            var wanted := ImageIds(Configure(DefaultFlowerbed(), opts).images);
            c.Done? && c.result.Ok? ==>
              && o.Done?
              && (o.result.Ok? <==> linkFault.None? || linkFault.value.at >= |wanted|)
              && (o.result.Err? ==> o.result.error == linkFault.value.error)
              && o.db.imageLinks == c.db.imageLinks + Issue(LinkWrites(db.nextId, wanted), linkFault).writes
  {
    match Create(db, opts, insertFault)
    case Panicked(reason) => Panicked(reason)
    case Done(db1, Err(e)) => Done(db1, Err(e))
    case Done(db1, Ok(created)) =>
      var id := created.row.id;
      var wanted := ImageIds(Configure(DefaultFlowerbed(), opts).images);
      match HandleImages(db1, id, wanted, linkFault)
      case Done(db2, Err(e)) => Done(db2, Err(e))
      case Done(db2, Ok(_)) =>
        FreshIdHasNoImages(db);
        LinkedImagesAppend(db1.imageLinks, LinkWrites(id, wanted), id);
        LinkedImagesOfLinkWrites(id, wanted);
        Done(db2, Ok(ReadBack(db2, id)))
      case Panicked(reason) => Panicked(reason)
  }

  // ---------------------------------------------------------------------------
  // Delete and unlink

  /** `Delete`: removes the row, or fails with `fault` and changes nothing. */
  function Delete(db: Db, id: int, fault: Option<Failure>): (o: Outcome<Db, ()>)
    ensures o.Done?
    ensures o.result.Err? <==> fault.Some?
    ensures o.result.Err? ==> o.db == db
    ensures o.result.Ok? ==> o.db.flowerbeds == db.flowerbeds - {id} && o.db.imageLinks == db.imageLinks
  {
    match fault
    case Some(e) => Done(db, Err(e))
    case None => Done(db.(flowerbeds := db.flowerbeds - {id}), Ok(()))
  }

  /** Removes every link between a flowerbed and an image. */
  function Unlink(links: seq<ImageLink>, id: int, imageId: int): (r: seq<ImageLink>)
    ensures forall l :: l in r <==> l in links && l != ImageLink(id, imageId)
    decreases |links|
  {
    if |links| == 0 then []
    else (if links[0] == ImageLink(id, imageId) then [] else [links[0]]) + Unlink(links[1..], id, imageId)
  }

  /** Unlinks the images in order, stopping at the first failing unlink. */
  function UnlinkEach(links: seq<ImageLink>, id: int, imageIds: seq<int>, fault: Option<Fault>): (r: (seq<ImageLink>, Option<Failure>))
    ensures r.1.None? <==> fault.None? || fault.value.at >= |imageIds|
    ensures r.1.Some? ==> r.1.value == fault.value.error
    ensures r.1.None? ==> forall l :: l in r.0 <==> l in links && !(l.flowerbedId == id && l.imageId in imageIds)
    decreases |imageIds|
  {
    if |imageIds| == 0 then (links, None)
    else if fault.Some? && fault.value.at == 0 then (links, Some(fault.value.error))
    else
      var next := if fault.Some? then Some(Fault(fault.value.at - 1, fault.value.error)) else None;
      UnlinkEach(Unlink(links, id, imageIds[0]), id, imageIds[1..], next)
  }

  /** `DeleteAndUnlinkImages`: a missing flowerbed fails with "failed to get images";
      otherwise every linked image is unlinked, and only then the flowerbed deleted. A
      failing unlink stops with "failed to unlink images" before the delete. */
  function DeleteAndUnlinkImages(db: Db, id: int, unlinkFault: Option<Fault>, deleteFault: Option<Failure>): (o: Outcome<Db, ()>)
    ensures o.Done?
    ensures id !in db.flowerbeds ==> o == Done(db, Err(Wrapped("failed to get images", Sentinel(FlowerbedNotFound))))
    ensures o.result.Err? && o.result.error.Wrapped? && o.result.error.context == "failed to unlink images" ==>
              o.db.flowerbeds == db.flowerbeds
    ensures id in db.flowerbeds ==>
              (o.result.Ok? <==> (unlinkFault.None? || unlinkFault.value.at >= |LinkedImages(db.imageLinks, id)|) && deleteFault.None?)
    ensures id in db.flowerbeds && unlinkFault.Some? && unlinkFault.value.at < |LinkedImages(db.imageLinks, id)| ==>
              o.result == Err(Wrapped("failed to unlink images", unlinkFault.value.error))
    ensures id in db.flowerbeds && (unlinkFault.None? || unlinkFault.value.at >= |LinkedImages(db.imageLinks, id)|) && deleteFault.Some? ==>
              o.result == Err(deleteFault.value)
    ensures o.result.Ok? ==>
              && id in db.flowerbeds
              && o.db.flowerbeds == db.flowerbeds - {id}
              && (forall l :: l in o.db.imageLinks <==> l in db.imageLinks && l.flowerbedId != id)
  {
    if id !in db.flowerbeds then Done(db, Err(Wrapped("failed to get images", Sentinel(FlowerbedNotFound))))
    else
      var images := LinkedImages(db.imageLinks, id);
      var (links, err) := UnlinkEach(db.imageLinks, id, images, unlinkFault);
      var db1 := db.(imageLinks := links);
      match err
      case Some(e) => Done(db1, Err(Wrapped("failed to unlink images", e)))
      case None => Delete(db1, id, deleteFault)
  }

  /** `UnlinkSensorID`: the empty id is refused without touching the store; otherwise no
      flowerbed refers to the sensor afterwards and every other row is unchanged. */
  function UnlinkSensorId(db: Db, sensorId: string, fault: Option<Failure>): (o: Outcome<Db, ()>)
    ensures o.Done?
    ensures sensorId == "" ==> o == Done(db, Err(Plain("sensorID cannot be empty")))
    ensures o.result.Err? ==> o.db == db
    ensures o.result.Ok? ==>
              && o.db.flowerbeds.Keys == db.flowerbeds.Keys
              && o.db.imageLinks == db.imageLinks
              && forall k :: k in o.db.flowerbeds ==>
                   && o.db.flowerbeds[k].sensorId != Some(sensorId)
                   && (db.flowerbeds[k].sensorId != Some(sensorId) ==> o.db.flowerbeds[k] == db.flowerbeds[k])
                   && o.db.flowerbeds[k].(sensorId := db.flowerbeds[k].sensorId) == db.flowerbeds[k]
  {
    if sensorId == "" then Done(db, Err(Plain("sensorID cannot be empty")))
    else match fault
      case Some(e) => Done(db, Err(e))
      case None =>
        var rows := map k | k in db.flowerbeds ::
          if db.flowerbeds[k].sensorId == Some(sensorId) then db.flowerbeds[k].(sensorId := None) else db.flowerbeds[k];
        Done(db.(flowerbeds := rows), Ok(()))
  }
}

=== FILE: http_entities.dfy ===
/** The HTTP response and request types the mappers produce and consume
    (package internal/server/http/entities), reduced to the mapped fields. */
module HttpEntities {

  /** The HTTP layer's own watering-plan status string type, with the same six values as
      the domain's. */
  datatype WateringPlanStatus = WateringPlanStatus(value: string)

  const Planned := WateringPlanStatus("planned")
  const Active := WateringPlanStatus("active")
  const Canceled := WateringPlanStatus("canceled")
  const Finished := WateringPlanStatus("finished")
  const NotCompeted := WateringPlanStatus("not competed")
  const StatusUnknown := WateringPlanStatus("unknown")

  const AllStatuses: seq<WateringPlanStatus> := [Planned, Active, Canceled, Finished, NotCompeted, StatusUnknown]

  datatype SensorStatus = SensorStatus(value: string)

  datatype WatermarkResponse = WatermarkResponse(centibar: int, resistance: int, depth: int)

  datatype SensorDataResponse = SensorDataResponse(
    battery: real,
    humidity: real,
    temperature: real,
    watermarks: seq<WatermarkResponse>)

  /** `&SensorDataResponse{}`: zero numbers and no watermarks. */
  const EmptySensorDataResponse := SensorDataResponse(0.0, 0.0, 0.0, [])
}

=== FILE: mapper.dfy ===
/** The hand-written conversions between domain and HTTP values
    (internal/server/http/entities/mapper/sensor.go and watering_plan.go). */
module Mapper {
  import opened Wrappers
  import Entities
  import WateringPlans
  import Http = HttpEntities

  // ---------------------------------------------------------------------------
  // Watering-plan status

  /** Domain to HTTP: the status string is kept. */
  function MapWateringPlanStatus(s: WateringPlans.WateringPlanStatus): (r: Http.WateringPlanStatus)
    ensures r.value == s.value
  {
    Http.WateringPlanStatus(s.value)
  }

  /** HTTP to domain: the status string is kept. */
  function MapWateringPlanStatusReq(s: Http.WateringPlanStatus): (r: WateringPlans.WateringPlanStatus)
    ensures r.value == s.value
  {
    WateringPlans.WateringPlanStatus(s.value)
  }

  lemma DomainStatusRoundTrip(s: WateringPlans.WateringPlanStatus)
    ensures MapWateringPlanStatusReq(MapWateringPlanStatus(s)) == s
  {
  }

  lemma HttpStatusRoundTrip(s: Http.WateringPlanStatus)
    ensures MapWateringPlanStatus(MapWateringPlanStatusReq(s)) == s
  {
  }

  /** Each declared domain status maps to the HTTP status declared at the same
      position, so the two enums correspond one to one. */
  lemma StatusEnumsCorrespond()
    ensures |WateringPlans.AllStatuses| == |Http.AllStatuses|
    ensures forall i :: 0 <= i < |WateringPlans.AllStatuses| ==>
              MapWateringPlanStatus(WateringPlans.AllStatuses[i]) == Http.AllStatuses[i]
  {
  }

  // ---------------------------------------------------------------------------
  // Sensor data

  /** The domain watermark an HTTP watermark was made from. */
  function WatermarkOf(w: Http.WatermarkResponse): Entities.Watermark {
    Entities.Watermark(w.centibar, w.resistance, w.depth)
  }

  /** `mapWatermarkData`: one response per watermark, at the same index, from which the
      watermark is recovered field for field. */
  function MapWatermarkData(watermarks: seq<Entities.Watermark>): (r: seq<Http.WatermarkResponse>)
    ensures |r| == |watermarks|
    ensures forall i :: 0 <= i < |r| ==> WatermarkOf(r[i]) == watermarks[i]
    decreases |watermarks|
  {
    if |watermarks| == 0 then []
    else
      var w := watermarks[0];
      [Http.WatermarkResponse(w.centibar, w.resistance, w.depth)] + MapWatermarkData(watermarks[1..])
  }

  /** `MapLatestDataToResponse`: no payload gives the empty response; otherwise battery,
      humidity and temperature are copied and the watermarks mapped one to one. */
  function MapLatestDataToResponse(d: Entities.SensorData): (r: Http.SensorDataResponse)
    ensures d.data.None? ==> r == Http.EmptySensorDataResponse
    ensures d.data.Some? ==>
              && r.battery == d.data.value.battery
              && r.humidity == d.data.value.humidity
              && r.temperature == d.data.value.temperature
              && |r.watermarks| == |d.data.value.watermarks|
              && forall i :: 0 <= i < |r.watermarks| ==> WatermarkOf(r.watermarks[i]) == d.data.value.watermarks[i]
  {
    match d.data
    case None => Http.EmptySensorDataResponse
    case Some(p) => Http.SensorDataResponse(p.battery, p.humidity, p.temperature, MapWatermarkData(p.watermarks))
  }

  /** `MapSensorStatus`: the status string is kept. */
  function MapSensorStatus(s: Entities.SensorStatus): (r: Http.SensorStatus)
    ensures r.value == s.value
  {
    Http.SensorStatus(s.value)
  }
}

=== FILE: options.dfy ===
/** Functional options (`entities.EntityFunc[T]` and the routing client's option type):
    each option is a function on the entity, and a constructor applies its options to a
    starting value one after another, in the order given. */
module Options {

  /** Applies `fns` to `e` from first to last. */
  function ApplyAll<T>(e: T, fns: seq<T -> T>): T
    decreases |fns|
  {
    if fns == [] then e else ApplyAll(fns[0](e), fns[1..])
  }

  /** Applying two batches is applying the first, then the second. */
  lemma {:induction false} ApplyAllAppend<T>(e: T, a: seq<T -> T>, b: seq<T -> T>)
    ensures ApplyAll(e, a + b) == ApplyAll(ApplyAll(e, a), b)
    decreases |a|
  {
    if a != [] {
      assert (a + b)[1..] == a[1..] + b;
      ApplyAllAppend(a[0](e), a[1..], b);
    } else {
      assert a + b == b;
    }
  }

  /** The last option sees the result of all earlier ones. */
  lemma ApplyAllLast<T>(e: T, fns: seq<T -> T>, f: T -> T)
    ensures ApplyAll(e, fns + [f]) == f(ApplyAll(e, fns))
  {
    ApplyAllAppend(e, fns, [f]);
  }

  /** Options given as data, each turned into the entity function `apply` gives it. */
  function Lift<T, O>(apply: (T, O) -> T, opts: seq<O>): (fns: seq<T -> T>)
    ensures |fns| == |opts|
    ensures forall i :: 0 <= i < |opts| ==> fns[i] == (e => apply(e, opts[i]))
  {
    seq(|opts|, i requires 0 <= i < |opts| => (e: T) => apply(e, opts[i]))
  }

  /** Options given as data, applied from first to last. */
  function Fold<T, O>(apply: (T, O) -> T, e: T, opts: seq<O>): T
    decreases |opts|
  {
    if |opts| == 0 then e else Fold(apply, apply(e, opts[0]), opts[1..])
  }

  /** Applying the lifted options is folding them. */
  lemma {:induction false} ApplyAllLift<T, O>(apply: (T, O) -> T, e: T, opts: seq<O>)
    ensures ApplyAll(e, Lift(apply, opts)) == Fold(apply, e, opts)
    decreases |opts|
  {
    if |opts| > 0 {
      var fns := Lift(apply, opts);
      assert fns[1..] == Lift(apply, opts[1..]);
      assert fns[0](e) == apply(e, opts[0]);
      ApplyAllLift(apply, apply(e, opts[0]), opts[1..]);
    }
  }

  /** Folding two batches is folding the first, then the second. */
  lemma {:induction false} FoldAppend<T, O>(apply: (T, O) -> T, e: T, a: seq<O>, b: seq<O>)
    ensures Fold(apply, e, a + b) == Fold(apply, Fold(apply, e, a), b)
    decreases |a|
  {
    if a == [] {
      assert a + b == b;
    } else {
      assert (a + b)[0] == a[0] && (a + b)[1..] == a[1..] + b;
      FoldAppend(apply, apply(e, a[0]), a[1..], b);
    }
  }
}

=== FILE: ors.dfy ===
/** The openrouteservice route repository (internal/storage/routing/openrouteservice/repo.go):
    it asks vroom for an optimised tour, collapses the tour's pickup runs and asks
    openrouteservice for the GeoJSON of the resulting coordinates. Both HTTP calls are
    parameters. */
module Ors {
  import opened Wrappers
  import opened Entities
  import opened Errors
  import opened Routing

  /** Water one cluster needs, as shipment amount. */
  const TreeAmount: int := 100
  const DefaultPickupDescription: string := "TBZ Schleswiger Str."

  /** The depot in Flensburg: start, end and watering point of every tour. */
  const Depot: Point := [9.434764259345679, 54.768731253913806]
  const StartPoint: Point := Depot
  const EndPoint: Point := Depot
  const WateringPoint: Point := Depot

  /** The request body of the directions call. */
  datatype DirectionsRequest = DirectionsRequest(coordinates: seq<Point>, units: string, language: string)

  /** The GeoJSON answer; its features are passed through untouched. */
  datatype GeoJson<F> = GeoJson(geoType: string, bbox: seq<real>, features: seq<F>)

  /** What `GenerateRoute` can end in: a route, an error, or a Go run-time panic. */
  datatype RouteOutcome<F> = Route(geo: GeoJson<F>) | RouteError(error: Failure) | Panicked(reason: string)

  /** The two types this repository routes. */
  predicate Routable(t: VehicleType) {
    t == Trailer || t == Transporter
  }

  /** Trailers drive the car profile, transporters the heavy-goods profile; every other
      type, the unknown one included, has no profile. */
  function ToOrsVehicleType(t: VehicleType): (r: Result<string, Failure>)
    ensures r.Ok? <==> Routable(t)
    ensures r.Err? ==> r.error == Sentinel(UnknownVehicleType)
    ensures t == Trailer ==> r == Ok("driving-car")
    ensures t == Transporter ==> r == Ok("driving-hgv")
  {
    if t == Trailer then Ok("driving-car")
    else if t == Transporter then Ok("driving-hgv")
    else Err(Sentinel(UnknownVehicleType))
  }

  /** The two known vehicle types get different profiles. */
  lemma ProfilesDistinguishTypes(a: VehicleType, b: VehicleType)
    requires ToOrsVehicleType(a).Ok? && ToOrsVehicleType(b).Ok?
    ensures ToOrsVehicleType(a) == ToOrsVehicleType(b) <==> a == b
  {
  }

  /** `toVroomVehicle`: fails exactly for a type that is not routable; otherwise copies id and
      description, takes the profile from `ToOrsVehicleType`, starts and ends at the depot
      and carries the water capacity narrowed to an integer by `truncate` (Go's
      `int32(float64)`). */
  function ToVroomVehicle(vehicle: Vehicle, truncate: real -> int): (r: Result<VroomVehicle, Failure>)
    ensures r.Ok? <==> Routable(vehicle.vehicleType)
    ensures r.Err? ==> r.error == Sentinel(UnknownVehicleType)
    ensures r.Ok? ==>
              && r.value.id == vehicle.id
              && r.value.description == vehicle.description
              && Ok(r.value.profile) == ToOrsVehicleType(vehicle.vehicleType)
              && r.value.start == Depot && r.value.end == Depot
              && r.value.capacity == [truncate(vehicle.waterCapacity)]
  {
    match ToOrsVehicleType(vehicle.vehicleType)
    case Err(e) => Err(e)
    case Ok(profile) =>
      Ok(VroomVehicle(vehicle.id, vehicle.description, profile, StartPoint, EndPoint,
                      [truncate(vehicle.waterCapacity)]))
  }

  /** Located clusters become shipments numbered 0/1, 2/3, ..., each of 100 units picked
      up at the depot and delivered at the cluster. */
  function ToVroomShipments(clusters: seq<TreeCluster>): (r: seq<VroomShipment>)
    ensures |r| == |Located(clusters)|
    ensures forall k :: 0 <= k < |r| ==>
              var c := Located(clusters)[k];
              && r[k].amount == [100]
              && r[k].pickup == VroomShipmentStep("TBZ Schleswiger Str.", 2 * k, Depot)
              && r[k].delivery == VroomShipmentStep(c.name, 2 * k + 1, [c.longitude.value, c.latitude.value])
  {
    ShipmentsFor(clusters, TreeAmount, DefaultPickupDescription, WateringPoint)
  }

  /** `optimizeRoute`: a vehicle type that is not routable fails before anything is
      sent; otherwise the answer of `send` for the one vehicle and the shipments is
      returned. */
  function OptimizeRoute(vehicle: Vehicle, clusters: seq<TreeCluster>, truncate: real -> int,
                         send: VroomRequest -> Result<VroomResponse, Failure>): (r: Result<VroomResponse, Failure>)
    ensures !Routable(vehicle.vehicleType) ==> r == Err(Sentinel(UnknownVehicleType))
    ensures Routable(vehicle.vehicleType) ==>
              r == send(VroomRequest([ToVroomVehicle(vehicle, truncate).value], ToVroomShipments(clusters)))
  {
    match ToVroomVehicle(vehicle, truncate)
    case Err(e) => Err(e)
    case Ok(v) => send(VroomRequest([v], ToVroomShipments(clusters)))
  }

  /** Everything after the optimisation: collapse the first route's pickup runs and ask
      for directions through their locations. */
  function RouteFromResponse<F>(vehicle: Vehicle, response: VroomResponse,
                                directions: (string, DirectionsRequest) -> Result<GeoJson<F>, Failure>): (r: RouteOutcome<F>)
    ensures r.Panicked? <==> |response.routes| == 0
    ensures |response.routes| > 0 && Routable(vehicle.vehicleType) ==>
              var request := DirectionsRequest(Locations(Collapsed(response.routes[0].steps)), "m", "de-de");
              match directions(ToOrsVehicleType(vehicle.vehicleType).value, request)
              case Ok(g) => r == Route(g)
              case Err(e) => r == RouteError(e)
  {
    if |response.routes| == 0 then Panicked("index out of range")
    else
      var reduced := ReduceSteps(response.routes[0].steps);
      match ToOrsVehicleType(vehicle.vehicleType)
      case Err(e) => RouteError(e)
      case Ok(profile) =>
        match directions(profile, DirectionsRequest(Locations(reduced), "m", "de-de"))
        case Err(e) => RouteError(e)
        case Ok(g) => Route(GeoJson(g.geoType, g.bbox, g.features))
  }

  /** `GenerateRoute` as written: an error from `optimizeRoute` is only logged, and the
      nil response is then dereferenced. */
  function GenerateRouteAsWritten<F>(vehicle: Vehicle, clusters: seq<TreeCluster>, truncate: real -> int,
                                     send: VroomRequest -> Result<VroomResponse, Failure>,
                                     directions: (string, DirectionsRequest) -> Result<GeoJson<F>, Failure>): RouteOutcome<F>
  {
    match OptimizeRoute(vehicle, clusters, truncate, send)
    case Err(_) => Panicked("nil pointer dereference")
    case Ok(response) => RouteFromResponse(vehicle, response, directions)
  }

  /** For a vehicle of the unknown type (or any type that is not routable) the
      repository panics instead of reporting `ErrUnknownVehicleType`, whatever vroom and
      openrouteservice would answer. */
  lemma UnknownVehicleTypePanics<F>(vehicle: Vehicle, clusters: seq<TreeCluster>, truncate: real -> int,
                                    send: VroomRequest -> Result<VroomResponse, Failure>,
                                    directions: (string, DirectionsRequest) -> Result<GeoJson<F>, Failure>)
    requires !Routable(vehicle.vehicleType)
    ensures GenerateRouteAsWritten(vehicle, clusters, truncate, send, directions).Panicked?
    ensures GenerateRoute(vehicle, clusters, truncate, send, directions) == RouteError(Sentinel(UnknownVehicleType))
  {
  }

  /** `GenerateRoute` with the optimisation error returned, as the later vehicle-type
      check shows was intended: a failed optimisation (an unknown vehicle type among
      others) is reported and never panics; a panic is left only for a response without
      routes; otherwise the directions are requested through the locations of the first
      route with its pickup runs collapsed. */
  function GenerateRoute<F>(vehicle: Vehicle, clusters: seq<TreeCluster>, truncate: real -> int,
                            send: VroomRequest -> Result<VroomResponse, Failure>,
                            directions: (string, DirectionsRequest) -> Result<GeoJson<F>, Failure>): (r: RouteOutcome<F>)
    ensures OptimizeRoute(vehicle, clusters, truncate, send).Err? ==>
              r == RouteError(OptimizeRoute(vehicle, clusters, truncate, send).error)
    ensures r.Panicked? <==>
              var o := OptimizeRoute(vehicle, clusters, truncate, send);
              o.Ok? && |o.value.routes| == 0
    ensures r.Route? ==>
              var steps := OptimizeRoute(vehicle, clusters, truncate, send).value.routes[0].steps;
              directions(ToOrsVehicleType(vehicle.vehicleType).value,
                         DirectionsRequest(Locations(Collapsed(steps)), "m", "de-de")) == Ok(r.geo)
  {
    match OptimizeRoute(vehicle, clusters, truncate, send)
    case Err(e) => RouteError(e)
    case Ok(response) => RouteFromResponse(vehicle, response, directions)
  }
}

=== FILE: pagination.dfy ===
/** Page arithmetic for list responses (internal/utils/pagination.go). The source
    computes in Go's `int32`, whose `+` wraps around and whose `/` truncates toward zero;
    both are written out here. */
module Pagination {
  import opened Wrappers

  const MinInt32: int := -0x8000_0000
  const MaxInt32: int := 0x7fff_ffff
  const MinInt64: int := -0x8000_0000_0000_0000
  const MaxInt64: int := 0x7fff_ffff_ffff_ffff

  predicate IsInt32(x: int) {
    MinInt32 <= x <= MaxInt32
  }

  predicate IsInt64(x: int) {
    MinInt64 <= x <= MaxInt64
  }

  /** Two's-complement wrap-around to 32 bits: Go's `int32` overflow and `int32(x)`. */
  function Wrap32(x: int): (r: int)
    ensures IsInt32(r)
    ensures (r - x) % 0x1_0000_0000 == 0
    ensures IsInt32(x) ==> r == x
  {
    var m := x % 0x1_0000_0000;
    if m > MaxInt32 then m - 0x1_0000_0000 else m
  }

  /** Go's integer division, which truncates toward zero. */
  function Quot(a: int, b: int): int
    requires b != 0
  {
    var q := (if a < 0 then -a else a) / (if b < 0 then -b else b);
    if (a < 0) != (b < 0) then -q else q
  }

  /** Non-positive limits count as 1. */
  function EffectiveLimit(limit: int): (l: int)
    ensures l >= 1
    ensures limit >= 1 ==> l == limit
  {
    if limit <= 0 then 1 else limit
  }

  /** Result of `calculatePaginationValues`; a `None` page is a nil pointer. */
  datatype PageValues = PageValues(totalPages: int, nextPage: Option<int>, prevPage: Option<int>)

  /** The response's pagination object. */
  datatype PaginationInfo = PaginationInfo(
    total: int,
    currentPage: int,
    totalPages: int,
    nextPage: Option<int>,
    prevPage: Option<int>)

  /** Fills in next and previous page from the page count, with the source's two
      redundant clean-ups at the last and the first page. */
  function Neighbours(page: int, totalPages: int): (r: PageValues)
  {
    var next := if page < totalPages then Some(page + 1) else None;
    var prev := if page > 1 then Some(page - 1) else None;
    PageValues(totalPages,
               if page == totalPages then None else next,
               if page == 1 then None else prev)
  }

  /** `calculatePaginationValues` as written: `totalCount + limit - 1` is computed in
      `int32` and wraps around for counts near the top of the range. */
  function CalculatePaginationValuesAsWritten(totalCount: int, limit: int, page: int): (r: PageValues)
    requires IsInt32(totalCount) && IsInt32(limit) && IsInt32(page)
    ensures IsInt32(r.totalPages)
    ensures r.nextPage.Some? <==> page < r.totalPages
    ensures r.nextPage.Some? ==> r.nextPage.value == page + 1 && IsInt32(page + 1)
    ensures r.prevPage.Some? <==> page > 1
    ensures r.prevPage.Some? ==> r.prevPage.value == page - 1
    ensures totalCount + EffectiveLimit(limit) - 1 <= MaxInt32 ==> r == CalculatePaginationValues(totalCount, limit, page)
  {
    var l := EffectiveLimit(limit);
    var sum := Wrap32(totalCount + l - 1);
    QuotInRange(sum, l);
    assert totalCount + l - 1 <= MaxInt32 ==> sum == totalCount + l - 1;
    Neighbours(page, Quot(sum, l))
  }

  /** Dividing an `int32` by a positive divisor stays in `int32`. */
  lemma QuotInRange(a: int, l: int)
    requires IsInt32(a) && l >= 1
    ensures IsInt32(Quot(a, l))
  {
    var n := if a < 0 then -a else a;
    var q := n / l;
    assert Quot(a, l) == (if a < 0 then -q else q);
    DivAtMost(n, l);
    DivNonNegative(n, l);
  }

  lemma DivNonNegative(b: int, l: int)
    requires b >= 0 && l >= 1
    ensures b / l >= 0
  {
  }

  /** The wrap-around yields a negative page count: 2147483647 items at 2 per page give
      -1073741824 pages and no next page after page 1. */
  lemma PaginationOverflowExample()
    ensures CalculatePaginationValuesAsWritten(MaxInt32, 2, 1) == PageValues(-1073741824, None, None)
    ensures CalculatePaginationValues(MaxInt32, 2, 1) == PageValues(1073741824, Some(2), None)
  {
    assert Wrap32(MaxInt32 + 2 - 1) == MinInt32;
  }

  lemma MulMonotone(x: int, y: int, l: int)
    requires x >= y && l >= 0
    ensures x * l >= y * l
  {
    assert x * l - y * l == (x - y) * l;
  }

  lemma DivAtMost(b: int, l: int)
    requires b >= 0 && l >= 1
    ensures b / l <= b
  {
    assert b == (b / l) * l + b % l;
    if b / l > b {
      MulMonotone(b / l, 1, l);
    }
  }

  lemma DivBelowBound(a: int, l: int, bound: int)
    requires 0 <= a <= bound + l - 1 && l >= 1 && bound >= 1
    ensures a / l <= bound
  {
    var q := a / l;
    assert a == q * l + a % l;
    if q > bound {
      MulMonotone(q, bound + 1, l);
      assert (bound + 1) * l == bound * l + l;
      MulMonotone(bound, 1, l);
    }
  }

  /** The quotient in the page count stays in `int32` when computed without
      wrap-around. */
  lemma CeilQuotientInRange(totalCount: int, l: int)
    requires IsInt32(totalCount) && l >= 1 && IsInt32(l)
    ensures IsInt32(Quot(totalCount + l - 1, l))
  {
    var a := totalCount + l - 1;
    if a >= 0 {
      DivBelowBound(a, l, MaxInt32);
    } else {
      DivAtMost(-a, l);
    }
  }

  /** For a non-negative count, `(c + l - 1) / l` is the ceiling of `c / l`. */
  lemma CeilingDivision(c: int, l: int)
    requires c >= 0 && l >= 1
    ensures Quot(c + l - 1, l) >= 0
    ensures (Quot(c + l - 1, l) - 1) * l < c <= Quot(c + l - 1, l) * l
  {
    var a := c + l - 1;
    var q := a / l;
    var rem := a % l;
    assert a == q * l + rem && 0 <= rem < l;
    assert Quot(a, l) == q;
    assert (q - 1) * l == q * l - l;
  }

  lemma CeilingDivisionFrom(c: int, l: int)
    requires l >= 1
    ensures c >= 0 ==> Quot(c + l - 1, l) >= 0 && (Quot(c + l - 1, l) - 1) * l < c <= Quot(c + l - 1, l) * l
  {
    if c >= 0 { CeilingDivision(c, l); }
  }

  /** `calculatePaginationValues` with the page count computed without overflow: the
      page count is the ceiling of count over limit (a non-positive limit counting as
      1), there is a next page exactly below the last page, and a previous page exactly
      above the first. */
  function CalculatePaginationValues(totalCount: int, limit: int, page: int): (r: PageValues)
    requires IsInt32(totalCount) && IsInt32(limit) && IsInt32(page)
    ensures IsInt32(r.totalPages)
    ensures totalCount >= 0 ==>
              && r.totalPages >= 0
              && (r.totalPages - 1) * EffectiveLimit(limit) < totalCount <= r.totalPages * EffectiveLimit(limit)
    ensures r.nextPage.Some? <==> page < r.totalPages
    ensures r.nextPage.Some? ==> r.nextPage.value == page + 1 && IsInt32(page + 1)
    ensures r.prevPage.Some? <==> page > 1
    ensures r.prevPage.Some? ==> r.prevPage.value == page - 1
  {
    var l := EffectiveLimit(limit);
    CeilQuotientInRange(totalCount, l);
    CeilingDivisionFrom(totalCount, l);
    Neighbours(page, Quot(totalCount + l - 1, l))
  }

  /** `CreatePagination` as written: a limit of -1 means "no paging" and gives no
      pagination object; otherwise the object echoes the total and the current page. The
      `int64` total is narrowed to `int32` and handed to the overflowing page arithmetic,
      so the page count is the ceiling only while `total + limit - 1` fits in `int32`. */
  function CreatePagination(page: int, limit: int, totalCount: int): (r: Option<PaginationInfo>)
    requires IsInt32(page) && IsInt32(limit) && IsInt64(totalCount)
    ensures r.None? <==> limit == -1
    ensures r.Some? ==> r.value.total == totalCount && r.value.currentPage == page
    ensures r.Some? && 0 <= totalCount && totalCount + EffectiveLimit(limit) - 1 <= MaxInt32 ==>
              && r.value.totalPages >= 0
              && (r.value.totalPages - 1) * EffectiveLimit(limit) < totalCount <= r.value.totalPages * EffectiveLimit(limit)
    ensures r.Some? ==> (r.value.nextPage.Some? <==> page < r.value.totalPages)
    ensures r.Some? ==> (r.value.prevPage.Some? <==> page > 1)
  {
    if limit == -1 then None
    else
      var v := CalculatePaginationValuesAsWritten(Wrap32(totalCount), limit, page);
      Some(PaginationInfo(totalCount, page, v.totalPages, v.nextPage, v.prevPage))
  }

  /** `CreatePagination` with the page count computed without overflow: for every
      non-negative total that fits in `int32`, the page count is the ceiling of total over
      limit. */
  function CreatePaginationCorrected(page: int, limit: int, totalCount: int): (r: Option<PaginationInfo>)
    requires IsInt32(page) && IsInt32(limit) && IsInt64(totalCount)
    ensures r.None? <==> limit == -1
    ensures r.Some? ==> r.value.total == totalCount && r.value.currentPage == page
    ensures r.Some? && 0 <= totalCount <= MaxInt32 ==>
              && r.value.totalPages >= 0
              && (r.value.totalPages - 1) * EffectiveLimit(limit) < totalCount <= r.value.totalPages * EffectiveLimit(limit)
    ensures r.Some? ==> (r.value.nextPage.Some? <==> page < r.value.totalPages)
    ensures r.Some? ==> (r.value.prevPage.Some? <==> page > 1)
  {
    if limit == -1 then None
    else
      var v := CalculatePaginationValues(Wrap32(totalCount), limit, page);
      Some(PaginationInfo(totalCount, page, v.totalPages, v.nextPage, v.prevPage))
  }

  /** The two agree while the sum fits; at the top of the range the written one reports a
      negative page count and no next page. */
  lemma CreatePaginationAgreesUntilOverflow(page: int, limit: int, totalCount: int)
    requires IsInt32(page) && IsInt32(limit) && IsInt32(totalCount)
    ensures totalCount + EffectiveLimit(limit) - 1 <= MaxInt32 ==>
              CreatePagination(page, limit, totalCount) == CreatePaginationCorrected(page, limit, totalCount)
    ensures CreatePagination(1, 2, MaxInt32) == Some(PaginationInfo(MaxInt32, 1, -1073741824, None, None))
    ensures CreatePaginationCorrected(1, 2, MaxInt32) == Some(PaginationInfo(MaxInt32, 1, 1073741824, Some(2), None))
  {
    PaginationOverflowExample();
  }
}

=== FILE: region_repo.dfy ===
/** Updating a region (internal/storage/postgres/region/update.go). The region options are
    opaque entity functions, applied in order to the stored region. */
module RegionRepo {
  import opened Wrappers
  import opened Entities
  import opened Errors
  import Options
  import opened Store

  datatype Db = Db(regions: map<int, Region>)

  /** `GetByID`; a missing row is the storage layer's not-found error. */
  function GetById(db: Db, id: int): (r: Result<Region, Failure>)
    ensures r.Ok? <==> id in db.regions
    ensures r.Ok? ==> r.value == db.regions[id]
    ensures r.Err? ==> r.error == Sentinel(EntityNotFound)
  {
    if id in db.regions then Ok(db.regions[id]) else Err(Sentinel(EntityNotFound))
  }

  /** `updateEntity`: writes the name into the row of the entity's id; a statement that
      matches no row changes nothing. */
  function UpdateEntity(db: Db, r: Region): (db': Db)
    ensures db'.regions.Keys == db.regions.Keys
    ensures r.id in db.regions ==> db'.regions[r.id] == db.regions[r.id].(name := r.name)
    ensures forall k :: k in db.regions && k != r.id ==> db'.regions[k] == db.regions[k]
  {
    if r.id in db.regions then Db(db.regions[r.id := db.regions[r.id].(name := r.name)]) else db
  }

  /** `Update`: a failed lookup returns its error with no write; the options run on the
      stored region; an empty name is rejected with no write; a failing write
      (`updateFault`) changes nothing; otherwise only the name of the entity's row is
      written and the region is read back. */
  function Update(db: Db, id: int, opts: seq<Region -> Region>, updateFault: Option<Failure>): (o: Outcome<Db, Region>)
    ensures o.Done?
    ensures id !in db.regions ==> o == Done(db, Err(Sentinel(EntityNotFound)))
    ensures o.result.Err? ==> o.db == db
    ensures id in db.regions ==>
              var r := Options.ApplyAll(db.regions[id], opts);
              && (r.name == "" ==> o == Done(db, Err(Plain("name is required"))))
              && (r.name != "" && updateFault.Some? ==> o == Done(db, Err(updateFault.value)))
              && (r.name != "" && updateFault.None? ==> o.db == UpdateEntity(db, r))
              && (r.name != "" && updateFault.None? ==> (o.result.Ok? <==> r.id in db.regions))
              && (r.name != "" && updateFault.None? && r.id !in db.regions ==> o.result == Err(Sentinel(EntityNotFound)))
              && (o.result.Ok? ==> r.name != "" && updateFault.None? && r.id in o.db.regions && o.result.value == o.db.regions[r.id])
    ensures o.result.Ok? && Options.ApplyAll(db.regions[id], opts).id == id ==>
              o.result.value == db.regions[id].(name := Options.ApplyAll(db.regions[id], opts).name)
  {
    match GetById(db, id)
    case Err(e) => Done(db, Err(e))
    case Ok(stored) =>
      var r := Options.ApplyAll(stored, opts);
      if r.name == "" then Done(db, Err(Plain("name is required")))
      else match updateFault
        case Some(e) => Done(db, Err(e))
        case None =>
          var db' := UpdateEntity(db, r);
          match GetById(db', r.id)
          case Err(e) => Done(db', Err(e))
          case Ok(read) => Done(db', Ok(read))
  }

  /** The name option of the region service. */
  function SetName(name: string): Region -> Region
  {
    (r: Region) => r.(name := name)
  }

  /** Renaming a region whose row carries its own id stores the new name and returns the
      region as read back; renaming it again to the same name changes nothing further. */
  lemma {:induction false} RenameRoundTrip(db: Db, id: int, name: string)
    requires id in db.regions && db.regions[id].id == id && name != ""
    ensures var o := Update(db, id, [SetName(name)], None);
            && o == Done(Db(db.regions[id := db.regions[id].(name := name)]), Ok(db.regions[id].(name := name)))
            && GetById(o.db, id) == o.result
            && Update(o.db, id, [SetName(name)], None) == o
  {
    var stored := db.regions[id];
    assert Options.ApplyAll(stored, [SetName(name)]) == Options.ApplyAll(stored.(name := name), []);
    var o := Update(db, id, [SetName(name)], None);
    var renamed := stored.(name := name);
    assert Options.ApplyAll(renamed, [SetName(name)]) == Options.ApplyAll(renamed, []);
    assert o.db.regions[id] == renamed;
    assert o.db.regions[id := renamed] == o.db.regions;
  }
}

=== FILE: routing.dfy ===
/** The route-optimisation data shared by the openrouteservice repository and the vroom
    client: vroom's request and response records, the reducer that collapses runs of
    pickup steps, and the numbering of shipments. */
module Routing {
  import opened Entities

  /** A coordinate pair, longitude first. */
  type Point = seq<real>

  datatype VroomRouteStep = VroomRouteStep(stepType: string, location: Point, load: seq<int>)
  datatype VroomRoute = VroomRoute(steps: seq<VroomRouteStep>)
  datatype VroomResponse = VroomResponse(routes: seq<VroomRoute>)

  datatype VroomShipmentStep = VroomShipmentStep(description: string, id: int, location: Point)
  datatype VroomShipment = VroomShipment(amount: seq<int>, pickup: VroomShipmentStep, delivery: VroomShipmentStep)

  datatype VroomVehicle = VroomVehicle(
    id: int,
    description: string,
    profile: string,
    start: Point,
    end: Point,
    capacity: seq<int>)

  datatype VroomRequest = VroomRequest(vehicles: seq<VroomVehicle>, shipments: seq<VroomShipment>)

  predicate IsPickup(s: VroomRouteStep) {
    s.stepType == "pickup"
  }

  predicate NoAdjacentPickups(steps: seq<VroomRouteStep>) {
    forall i :: 0 < i < |steps| ==> !(IsPickup(steps[i - 1]) && IsPickup(steps[i]))
  }

  /** The steps that are not pickups, in their order. */
  function NonPickups(steps: seq<VroomRouteStep>): seq<VroomRouteStep>
    decreases |steps|
  {
    if |steps| == 0 then []
    else (if IsPickup(steps[0]) then [] else [steps[0]]) + NonPickups(steps[1..])
  }

  // ---------------------------------------------------------------------------
  // The reducer, as the source folds it

  /** One step of the fold: a pickup following a pickup is not appended, but hands its
      load to the pickup already in the accumulator. */
  function ReduceStep(acc: seq<VroomRouteStep>, current: VroomRouteStep): seq<VroomRouteStep> {
    if |acc| == 0 || !IsPickup(acc[|acc| - 1]) || !IsPickup(current) then acc + [current]
    else acc[..|acc| - 1] + [acc[|acc| - 1].(load := current.load)]
  }

  /** The left fold (`utils.Reduce`) of `ReduceStep`. */
  function FoldSteps(acc: seq<VroomRouteStep>, steps: seq<VroomRouteStep>): seq<VroomRouteStep>
    decreases |steps|
  {
    if |steps| == 0 then acc else FoldSteps(ReduceStep(acc, steps[0]), steps[1..])
  }

  // ---------------------------------------------------------------------------
  // The reducer's meaning, stated run by run

  /** The length of the run of pickups at the front. */
  function PickupRun(steps: seq<VroomRouteStep>): (n: nat)
    ensures n <= |steps|
    ensures forall i :: 0 <= i < n ==> IsPickup(steps[i])
    ensures n < |steps| ==> !IsPickup(steps[n])
    decreases |steps|
  {
    if |steps| == 0 || !IsPickup(steps[0]) then 0 else 1 + PickupRun(steps[1..])
  }

  /** Skipping a prefix of pickups does not change the non-pickup steps. */
  lemma {:induction false} SkipPickups(steps: seq<VroomRouteStep>, n: nat)
    requires n <= |steps|
    requires forall i :: 0 <= i < n ==> IsPickup(steps[i])
    ensures NonPickups(steps) == NonPickups(steps[n..])
    decreases n
  {
    if n > 0 {
      assert steps[1..][n - 1..] == steps[n..];
      SkipPickups(steps[1..], n - 1);
    }
  }

  /** Every maximal run of pickups becomes its first step carrying the load of the run's
      last step; every other step is kept. The result is no longer than the input, has
      no two adjacent pickups and keeps the non-pickup steps in order. */
  function Collapsed(steps: seq<VroomRouteStep>): (r: seq<VroomRouteStep>)
    ensures |r| <= |steps|
    ensures |steps| > 0 ==> |r| > 0 && r[0].stepType == steps[0].stepType && r[0].location == steps[0].location
    ensures NoAdjacentPickups(r)
    ensures NonPickups(r) == NonPickups(steps)
    decreases |steps|
  {
    if |steps| == 0 then []
    else if !IsPickup(steps[0]) then
      var rest := Collapsed(steps[1..]);
      assert NonPickups([steps[0]] + rest) == [steps[0]] + NonPickups(rest) by {
        assert ([steps[0]] + rest)[1..] == rest;
      }
      [steps[0]] + rest
    else
      var n := PickupRun(steps);
      var rest := Collapsed(steps[n..]);
      var head := steps[0].(load := steps[n - 1].load);
      SkipPickups(steps, n);
      assert NonPickups([head] + rest) == NonPickups(rest) by {
        assert ([head] + rest)[1..] == rest;
      }
      [head] + rest
  }

  /** Appends a collapsed sequence to an accumulator, joining a pickup at the seam. */
  function Merge(acc: seq<VroomRouteStep>, c: seq<VroomRouteStep>): seq<VroomRouteStep> {
    if |acc| > 0 && IsPickup(acc[|acc| - 1]) && |c| > 0 && IsPickup(c[0]) then
      acc[..|acc| - 1] + [acc[|acc| - 1].(load := c[0].load)] + c[1..]
    else acc + c
  }

  lemma CollapsedPickupFront(x: VroomRouteStep, t: seq<VroomRouteStep>)
    requires IsPickup(x)
    ensures PickupRun([x] + t) == 1 + PickupRun(t)
    ensures Collapsed([x] + t)
            == [x.(load := if PickupRun(t) == 0 then x.load else t[PickupRun(t) - 1].load)]
               + Collapsed(t[PickupRun(t)..])
  {
    var s := [x] + t;
    assert s[1..] == t;
    var n := PickupRun(s);
    assert s[n..] == t[n - 1..];
    assert s[n - 1] == if n == 1 then x else t[n - 2];
  }

  lemma CollapsedPickupHead(t: seq<VroomRouteStep>)
    requires |t| > 0 && IsPickup(t[0])
    ensures Collapsed(t) == [t[0].(load := t[PickupRun(t) - 1].load)] + Collapsed(t[PickupRun(t)..])
  {
  }

  lemma MergeStepNonPickup(acc: seq<VroomRouteStep>, x: VroomRouteStep, t: seq<VroomRouteStep>)
    requires !IsPickup(x)
    ensures Merge(ReduceStep(acc, x), Collapsed(t)) == Merge(acc, Collapsed([x] + t))
  {
    var c := Collapsed(t);
    assert ([x] + t)[1..] == t;
    assert Collapsed([x] + t) == [x] + c;
    var a := acc + [x];
    assert a[|a| - 1] == x;
    assert Merge(a, c) == a + c;
    assert ([x] + c)[0] == x;
    assert Merge(acc, [x] + c) == acc + ([x] + c);
    assert a + c == acc + ([x] + c);
  }

  /** After a lone pickup the collapsed rest starts with a non-pickup, if at all. */
  lemma CollapsedLonePickup(x: VroomRouteStep, t: seq<VroomRouteStep>)
    requires IsPickup(x) && PickupRun(t) == 0
    ensures Collapsed([x] + t) == [x] + Collapsed(t)
    ensures |Collapsed(t)| > 0 ==> !IsPickup(Collapsed(t)[0])
  {
    CollapsedPickupFront(x, t);
    assert x.(load := x.load) == x;
  }

  lemma MergeOntoPickup(acc: seq<VroomRouteStep>, x: VroomRouteStep, c: seq<VroomRouteStep>)
    requires |acc| > 0 && IsPickup(acc[|acc| - 1]) && IsPickup(x)
    requires |c| > 0 ==> !IsPickup(c[0])
    ensures Merge(ReduceStep(acc, x), c) == Merge(acc, [x] + c)
  {
    var p := acc[|acc| - 1];
    var a := acc[..|acc| - 1] + [p.(load := x.load)];
    assert ReduceStep(acc, x) == a;
    assert a[|a| - 1] == p.(load := x.load);
    assert Merge(a, c) == a + c;
    assert ([x] + c)[0] == x;
    assert ([x] + c)[1..] == c;
  }

  lemma MergeAfterOther(acc: seq<VroomRouteStep>, x: VroomRouteStep, c: seq<VroomRouteStep>)
    requires !(|acc| > 0 && IsPickup(acc[|acc| - 1]))
    requires |c| > 0 ==> !IsPickup(c[0])
    ensures Merge(ReduceStep(acc, x), c) == Merge(acc, [x] + c)
  {
    var a := acc + [x];
    assert ReduceStep(acc, x) == a;
    assert a[|a| - 1] == x;
    assert Merge(a, c) == a + c;
    assert Merge(acc, [x] + c) == acc + ([x] + c);
    assert a + c == acc + ([x] + c);
  }

  lemma MergeStepLonePickup(acc: seq<VroomRouteStep>, x: VroomRouteStep, t: seq<VroomRouteStep>)
    requires IsPickup(x) && PickupRun(t) == 0
    ensures Merge(ReduceStep(acc, x), Collapsed(t)) == Merge(acc, Collapsed([x] + t))
  {
    CollapsedLonePickup(x, t);
    if |acc| > 0 && IsPickup(acc[|acc| - 1]) {
      MergeOntoPickup(acc, x, Collapsed(t));
    } else {
      MergeAfterOther(acc, x, Collapsed(t));
    }
  }

  lemma MergeStepPickupRun(acc: seq<VroomRouteStep>, x: VroomRouteStep, t: seq<VroomRouteStep>)
    requires IsPickup(x) && PickupRun(t) > 0
    ensures Merge(ReduceStep(acc, x), Collapsed(t)) == Merge(acc, Collapsed([x] + t))
  {
    CollapsedPickupFront(x, t);
    CollapsedPickupHead(t);
    var m := PickupRun(t);
    var load := t[m - 1].load;
    var rest := Collapsed(t[m..]);
    assert Collapsed(t) == [t[0].(load := load)] + rest;
    assert Collapsed([x] + t) == [x.(load := load)] + rest;
    assert ([t[0].(load := load)] + rest)[1..] == rest;
    assert ([x.(load := load)] + rest)[1..] == rest;
    if |acc| > 0 && IsPickup(acc[|acc| - 1]) {
      var p := acc[|acc| - 1];
      var a := acc[..|acc| - 1] + [p.(load := x.load)];
      assert ReduceStep(acc, x) == a;
      assert a[..|a| - 1] == acc[..|acc| - 1];
    } else {
      assert ReduceStep(acc, x) == acc + [x];
      assert (acc + [x])[..|acc|] == acc;
    }
  }

  /** One fold step followed by the collapsed rest is the collapsed whole, merged. */
  lemma MergeStep(acc: seq<VroomRouteStep>, x: VroomRouteStep, t: seq<VroomRouteStep>)
    ensures Merge(ReduceStep(acc, x), Collapsed(t)) == Merge(acc, Collapsed([x] + t))
  {
    if !IsPickup(x) {
      MergeStepNonPickup(acc, x, t);
    } else if PickupRun(t) == 0 {
      MergeStepLonePickup(acc, x, t);
    } else {
      MergeStepPickupRun(acc, x, t);
    }
  }

  lemma {:induction false} FoldIsMerge(acc: seq<VroomRouteStep>, steps: seq<VroomRouteStep>)
    ensures FoldSteps(acc, steps) == Merge(acc, Collapsed(steps))
    decreases |steps|
  {
    if |steps| > 0 {
      FoldIsMerge(ReduceStep(acc, steps[0]), steps[1..]);
      MergeStep(acc, steps[0], steps[1..]);
      assert [steps[0]] + steps[1..] == steps;
    }
  }

  /** The reducer of `GenerateRoute`: folding from an empty accumulator is the run-wise
      collapse, so no two pickups end up adjacent, non-pickup steps survive in order, the
      result is never longer than the input and empty input gives empty output. */
  function ReduceSteps(steps: seq<VroomRouteStep>): (r: seq<VroomRouteStep>)
    ensures r == Collapsed(steps)
    ensures NoAdjacentPickups(r)
    ensures NonPickups(r) == NonPickups(steps)
    ensures |r| <= |steps|
    ensures |steps| == 0 ==> r == []
  {
    FoldIsMerge([], steps);
    FoldSteps([], steps)
  }

  /** The route's coordinates: each step's location, in order. */
  function Locations(steps: seq<VroomRouteStep>): (r: seq<Point>)
    ensures |r| == |steps|
    ensures forall i :: 0 <= i < |steps| ==> r[i] == steps[i].location
    decreases |steps|
  {
    if |steps| == 0 then [] else [steps[0].location] + Locations(steps[1..])
  }

  // ---------------------------------------------------------------------------
  // Shipments

  predicate HasCoordinates(c: TreeCluster) {
    c.latitude.Some? && c.longitude.Some?
  }

  /** The clusters that have both coordinates, in their order. */
  function Located(clusters: seq<TreeCluster>): (r: seq<TreeCluster>)
    ensures |r| <= |clusters|
    ensures forall i :: 0 <= i < |r| ==> HasCoordinates(r[i])
    ensures forall i :: 0 <= i < |clusters| && HasCoordinates(clusters[i]) ==> clusters[i] in r
    decreases |clusters|
  {
    if |clusters| == 0 then []
    else (if HasCoordinates(clusters[0]) then [clusters[0]] else []) + Located(clusters[1..])
  }

  /** Filtering distributes over concatenation: the kept clusters keep their order. */
  lemma {:induction false} LocatedAppend(a: seq<TreeCluster>, b: seq<TreeCluster>)
    ensures Located(a + b) == Located(a) + Located(b)
    decreases |a|
  {
    if |a| == 0 {
      assert a + b == b;
    } else {
      assert (a + b)[1..] == a[1..] + b;
      LocatedAppend(a[1..], b);
    }
  }

  /** The shipment of one located cluster, numbered from `nextId`. */
  function ShipmentOf(c: TreeCluster, nextId: int, amount: int, pickupDescription: string, wateringPoint: Point): VroomShipment
    requires HasCoordinates(c)
  {
    VroomShipment(
      [amount],
      VroomShipmentStep(pickupDescription, nextId, wateringPoint),
      VroomShipmentStep(c.name, nextId + 1, [c.longitude.value, c.latitude.value]))
  }

  /** Numbers the shipments of located clusters, advancing the id by two per cluster:
      the k-th shipment has pickup id `nextId + 2k` at the watering point and delivery
      id `nextId + 2k + 1` at the cluster's longitude and latitude, named after it. */
  function Number(clusters: seq<TreeCluster>, nextId: int, amount: int, pickupDescription: string, wateringPoint: Point): (r: seq<VroomShipment>)
    requires forall i :: 0 <= i < |clusters| ==> HasCoordinates(clusters[i])
    ensures |r| == |clusters|
    ensures forall k :: 0 <= k < |r| ==>
              && HasCoordinates(clusters[k])
              && r[k].amount == [amount]
              && r[k].pickup == VroomShipmentStep(pickupDescription, nextId + 2 * k, wateringPoint)
              && r[k].delivery == VroomShipmentStep(clusters[k].name, nextId + 2 * k + 1,
                                                    [clusters[k].longitude.value, clusters[k].latitude.value])
    decreases |clusters|
  {
    if |clusters| == 0 then []
    else [ShipmentOf(clusters[0], nextId, amount, pickupDescription, wateringPoint)]
         + Number(clusters[1..], nextId + 2, amount, pickupDescription, wateringPoint)
  }

  /** `toVroomShipments` of both clients: clusters lacking a coordinate are dropped and
      the rest are numbered from 0 in their order. */
  function ShipmentsFor(clusters: seq<TreeCluster>, amount: int, pickupDescription: string, wateringPoint: Point): (r: seq<VroomShipment>)
    ensures |r| == |Located(clusters)|
    ensures forall k :: 0 <= k < |r| ==>
              var c := Located(clusters)[k];
              && r[k].amount == [amount]
              && r[k].pickup == VroomShipmentStep(pickupDescription, 2 * k, wateringPoint)
              && r[k].delivery == VroomShipmentStep(c.name, 2 * k + 1, [c.longitude.value, c.latitude.value])
  {
    Number(Located(clusters), 0, amount, pickupDescription, wateringPoint)
  }
}

=== FILE: sensor_repo.dfy ===
/** Updating a sensor (internal/storage/postgres/sensor/update.go). The sensor options are
    opaque entity functions, applied in order to the stored sensor. The statements run
    outside a transaction: one that fails keeps the earlier ones. */
module SensorRepo {
  import opened Wrappers
  import opened Entities
  import opened Errors
  import Options
  import opened Store

  /** Stored sensors, and the readings inserted for them. */
  datatype Db = Db(sensors: map<string, Sensor>, readings: seq<(string, SensorData)>)

  predicate ValidLatitude(lat: real) {
    -90.0 <= lat <= 90.0 && lat != 0.0
  }

  predicate ValidLongitude(lon: real) {
    -180.0 <= lon <= 180.0 && lon != 0.0
  }

  /** `validateCoordinates`: latitude in [-90, 90] and not 0, then longitude in
      [-180, 180] and not 0; when both are bad the latitude error wins. */
  function ValidateCoordinates(lat: real, lon: real): (r: Option<Failure>)
    ensures r.None? <==> ValidLatitude(lat) && ValidLongitude(lon)
    ensures !ValidLatitude(lat) ==> r == Some(Sentinel(InvalidLatitude))
    ensures ValidLatitude(lat) && !ValidLongitude(lon) ==> r == Some(Sentinel(InvalidLongitude))
  {
    if lat < -90.0 || lat > 90.0 || lat == 0.0 then Some(Sentinel(InvalidLatitude))
    else if lon < -180.0 || lon > 180.0 || lon == 0.0 then Some(Sentinel(InvalidLongitude))
    else None
  }

  datatype SensorWrite =
    | SetLocation(id: string, latitude: real, longitude: real)
    | UpdateStatus(id: string, status: SensorStatus)
    | InsertData(id: string, data: SensorData)

  /** The reading is inserted only when there is a latest reading and it has a payload. */
  predicate HasPayload(s: Sensor) {
    s.latestData.Some? && s.latestData.value.data.Some?
  }

  /** The statements of an update in order: location, status, and the reading if any. */
  function UpdateWrites(s: Sensor): (w: seq<SensorWrite>)
    ensures |w| == if HasPayload(s) then 3 else 2
    ensures w[0] == SetLocation(s.id, s.latitude, s.longitude) && w[1] == UpdateStatus(s.id, s.status)
    ensures HasPayload(s) ==> w[2] == InsertData(s.id, s.latestData.value)
  {
    [SetLocation(s.id, s.latitude, s.longitude), UpdateStatus(s.id, s.status)]
    + if HasPayload(s) then [InsertData(s.id, s.latestData.value)] else []
  }

  function Perform(db: Db, w: SensorWrite): Db {
    match w
    case SetLocation(id, lat, lon) =>
      if id in db.sensors then db.(sensors := db.sensors[id := db.sensors[id].(latitude := lat, longitude := lon)]) else db
    case UpdateStatus(id, status) =>
      if id in db.sensors then db.(sensors := db.sensors[id := db.sensors[id].(status := status)]) else db
    case InsertData(id, data) => db.(readings := db.readings + [(id, data)])
  }

  function PerformAll(db: Db, ws: seq<SensorWrite>): Db
    decreases |ws|
  {
    if |ws| == 0 then db else PerformAll(Perform(db, ws[0]), ws[1..])
  }

  /** `GetByID`: the stored row; the row mapping leaves the latest reading out, and a
      missing row is the sensor-not-found error. */
  function GetById(db: Db, id: string): (r: Result<Sensor, Failure>)
    ensures r.Ok? <==> id in db.sensors
    ensures r.Ok? ==> r.value == db.sensors[id].(latestData := None)
    ensures r.Err? ==> r.error == Sentinel(SensorNotFound)
  {
    if id in db.sensors then Ok(db.sensors[id].(latestData := None)) else Err(Sentinel(SensorNotFound))
  }

  /** `Update`: a missing sensor fails with no write; the options run on the stored
      sensor; invalid coordinates fail with no write; then location, status and, when the
      sensor carries a reading with a payload, the reading are written in order until one
      fails, the earlier writes staying in place; on success the sensor is read back. */
  function Update(db: Db, id: string, opts: seq<Sensor -> Sensor>, fault: Option<Fault>): (o: Outcome<Db, Sensor>)
    ensures o.Done?
    ensures id !in db.sensors ==> o == Done(db, Err(Sentinel(SensorNotFound)))
    ensures id in db.sensors ==>
              var s := Options.ApplyAll(db.sensors[id].(latestData := None), opts);
              && (ValidateCoordinates(s.latitude, s.longitude).Some? ==>
                    o == Done(db, Err(ValidateCoordinates(s.latitude, s.longitude).value)))
              && (ValidateCoordinates(s.latitude, s.longitude).None? ==>
                    var issued := Issue(UpdateWrites(s), fault);
                    && o.db == PerformAll(db, issued.writes)
                    && (issued.error.Some? ==> o.result == Err(issued.error.value))
                    && (issued.error.None? ==> o.result == GetById(o.db, s.id))
                    && (|o.db.readings| > |db.readings| <==> HasPayload(s) && |issued.writes| == 3))
  {
    match GetById(db, id)
    case Err(e) => Done(db, Err(e))
    case Ok(stored) =>
      var s := Options.ApplyAll(stored, opts);
      match ValidateCoordinates(s.latitude, s.longitude)
      case Some(e) => Done(db, Err(e))
      case None =>
        var issued := Issue(UpdateWrites(s), fault);
        var db' := PerformAll(db, issued.writes);
        ReadingsGrowOnlyByInsert(db, issued.writes);
        InsertsOfUpdatePrefix(s, issued.writes);
        match issued.error
        case Some(e) => Done(db', Err(e))
        case None => Done(db', GetById(db', s.id))
  }

  /** All of an update's statements write the sensor's location and status into its
      row, touch no other row and insert at most the sensor's reading. */
  lemma UpdateWritesEffect(db: Db, s: Sensor)
    ensures PerformAll(db, UpdateWrites(s)).sensors
            == if s.id in db.sensors
               then db.sensors[s.id := db.sensors[s.id].(latitude := s.latitude, longitude := s.longitude, status := s.status)]
               else db.sensors
  {
    var w := UpdateWrites(s);
    var d1 := Perform(db, w[0]);
    var d2 := Perform(d1, w[1]);
    assert PerformAll(db, w) == PerformAll(d1, w[1..]);
    assert w[1..][0] == w[1];
    assert PerformAll(d1, w[1..]) == PerformAll(d2, w[2..]);
    if HasPayload(s) {
      assert w[2..][0] == w[2] && w[2..][1..] == [];
      assert PerformAll(d2, w[2..]) == PerformAll(Perform(d2, w[2]), []);
    } else {
      assert w[2..] == [];
    }
  }

  function CountInserts(ws: seq<SensorWrite>): nat
    decreases |ws|
  {
    if |ws| == 0 then 0 else (if ws[0].InsertData? then 1 else 0) + CountInserts(ws[1..])
  }

  /** Of the statements an update issues, only the third inserts a reading. */
  lemma InsertsOfUpdatePrefix(s: Sensor, w: seq<SensorWrite>)
    requires w <= UpdateWrites(s)
    ensures CountInserts(w) == if |w| == 3 then 1 else 0
  {
    var u := UpdateWrites(s);
    assert |w| <= |u|;
    if |w| >= 1 { assert w[0] == u[0]; assert w[1..] <= u[1..]; }
    if |w| >= 2 { assert w[1] == u[1]; assert w[2..] <= u[2..]; }
    if |w| == 3 { assert w[2] == u[2]; assert w[3..] == []; }
    if |w| == 0 {
    } else if |w| == 1 {
      assert CountInserts(w) == CountInserts(w[1..]);
    } else if |w| == 2 {
      assert CountInserts(w) == CountInserts(w[1..]) == CountInserts(w[2..]);
    } else {
      assert CountInserts(w) == CountInserts(w[1..]) == CountInserts(w[2..]);
      assert CountInserts(w[2..]) == 1 + CountInserts(w[3..]);
    }
  }

  /** Readings are only ever appended, one per insert statement. */
  lemma {:induction false} ReadingsGrowOnlyByInsert(db: Db, ws: seq<SensorWrite>)
    ensures |PerformAll(db, ws).readings| == |db.readings| + CountInserts(ws)
    ensures PerformAll(db, ws).readings[..|db.readings|] == db.readings
    decreases |ws|
  {
    if |ws| > 0 {
      var db1 := Perform(db, ws[0]);
      ReadingsGrowOnlyByInsert(db1, ws[1..]);
      assert db1.readings[..|db.readings|] == db.readings;
    }
  }
}

=== FILE: service.dfy ===
/** The service layer's shared error type (`service.Error`), its textual rendering and
    the readiness probe over the wired services (internal/service/service.go). */
module Service {
  import opened Wrappers

  /** The five HTTP-like codes the service layer uses. */
  datatype ErrorCode = BadRequest | Unauthorized | Forbidden | NotFound | InternalError

  /** A service error: an HTTP-like code and a human readable message. */
  datatype Error = Error(message: string, code: ErrorCode)

  /** The numeric value of each code. */
  function CodeValue(c: ErrorCode): (v: nat)
    ensures 400 <= v <= 500
  {
    match c
    case BadRequest => 400
    case Unauthorized => 401
    case Forbidden => 403
    case NotFound => 404
    case InternalError => 500
  }

  /** The code with numeric value `v`, if there is one. */
  function CodeOf(v: nat): (r: Option<ErrorCode>)
    ensures r.Some? ==> CodeValue(r.value) == v
  {
    if v == 400 then Some(BadRequest)
    else if v == 401 then Some(Unauthorized)
    else if v == 403 then Some(Forbidden)
    else if v == 404 then Some(NotFound)
    else if v == 500 then Some(InternalError)
    else None
  }

  /** The numeric codes are exactly 400, 401, 403, 404 and 500, one per constant. */
  lemma CodeValuesAreTheFiveHttpCodes(v: nat)
    ensures CodeOf(v).Some? <==> v in {400, 401, 403, 404, 500}
    ensures forall c: ErrorCode :: CodeOf(CodeValue(c)) == Some(c)
  {
  }

  /** `NewError` stores code and message unchanged. */
  function NewError(code: ErrorCode, msg: string): (e: Error)
    ensures e.code == code && e.message == msg
  {
    Error(msg, code)
  }

  // ---------------------------------------------------------------------------
  // Decimal rendering of the code, as `%d` prints it

  predicate IsDigit(c: char) {
    '0' <= c <= '9'
  }

  predicate AllDigits(s: string) {
    forall i :: 0 <= i < |s| ==> IsDigit(s[i])
  }

  function DigitChar(d: nat): (c: char)
    requires d < 10
    ensures IsDigit(c) && (c - '0') as nat == d
  {
    (d as int + '0' as int) as char
  }

  /** `n` written in base ten without leading zeros. */
  function DecimalText(n: nat): (s: string)
    ensures |s| >= 1 && AllDigits(s)
  {
    if n < 10 then [DigitChar(n)] else DecimalText(n / 10) + [DigitChar(n % 10)]
  }

  /** The number a string of decimal digits denotes. */
  function DecimalValue(s: string): nat
    requires AllDigits(s)
  {
    if s == [] then 0 else DecimalValue(s[..|s| - 1]) * 10 + (s[|s| - 1] - '0') as nat
  }

  lemma {:induction false} DecimalRoundTrip(n: nat)
    ensures DecimalValue(DecimalText(n)) == n
  {
    if n >= 10 {
      var s := DecimalText(n);
      assert s[..|s| - 1] == DecimalText(n / 10);
      DecimalRoundTrip(n / 10);
    }
  }

  /** `Error()` renders as "<code>: <message>". */
  function Render(e: Error): string {
    DecimalText(CodeValue(e.code)) + ": " + e.message
  }

  /** Index of the first ':' in `s`, if any. */
  function FirstColon(s: string): (r: Option<nat>)
    ensures r.Some? ==> r.value < |s| && s[r.value] == ':' && forall j :: 0 <= j < r.value ==> s[j] != ':'
    ensures r.None? ==> forall j :: 0 <= j < |s| ==> s[j] != ':'
  {
    if s == [] then None
    else if s[0] == ':' then Some(0)
    else match FirstColon(s[1..])
      case None => None
      case Some(k) => Some(k + 1)
  }

  /** Reads back a rendered error: the digits before the first ':' give the code, the
      text after ": " the message. */
  function Parse(s: string): Option<Error> {
    match FirstColon(s)
    case None => None
    case Some(k) =>
      if k + 2 <= |s| && s[k + 1] == ' ' && AllDigits(s[..k]) then
        match CodeOf(DecimalValue(s[..k]))
        case None => None
        case Some(c) => Some(Error(s[k + 2..], c))
      else None
  }

  /** Rendering loses nothing: the code and the message are recovered from the text. */
  lemma ParseRender(e: Error)
    ensures Parse(Render(e)) == Some(e)
  {
    var d := DecimalText(CodeValue(e.code));
    var s := Render(e);
    assert s[|d|] == ':';
    assert forall j :: 0 <= j < |d| ==> s[j] == d[j] && IsDigit(d[j]);
    assert FirstColon(s) == Some(|d|);
    assert s[..|d|] == d;
    assert s[|d| + 2..] == e.message;
    DecimalRoundTrip(CodeValue(e.code));
    CodeValuesAreTheFiveHttpCodes(CodeValue(e.code));
  }

  /** Two errors render alike only if they are the same error. */
  lemma RenderInjective(a: Error, b: Error)
    requires Render(a) == Render(b)
    ensures a == b
  {
    ParseRender(a);
    ParseRender(b);
  }

  // ---------------------------------------------------------------------------
  // Readiness of the wired services

  /** One field of the `Services` struct: nil (which does not implement `Service`), or a
      service reporting `Ready()`. */
  datatype ServiceField = Missing | Wired(ready: bool)

  /** The ten fields of the `Services` struct, in declaration order. */
  const ServiceFieldNames: seq<string> := [
    "InfoService", "TreeService", "AuthService", "RegionService", "TreeClusterService",
    "SensorService", "VehicleService", "PluginService", "WateringPlanService", "RoutingService"
  ]

  predicate FieldReady(f: ServiceField) {
    f.Wired? && f.ready
  }

  /** Walks the fields in order and stops at the first that is nil or not ready.
      `probed` is the number of fields looked at. */
  method AllServicesReady(fields: seq<ServiceField>) returns (ready: bool, probed: nat)
    ensures ready <==> forall i :: 0 <= i < |fields| ==> FieldReady(fields[i])
    ensures ready ==> probed == |fields|
    ensures !ready ==> 1 <= probed <= |fields| && !FieldReady(fields[probed - 1])
    ensures forall j :: 0 <= j < probed - 1 ==> FieldReady(fields[j])
  {
    var i := 0;
    while i < |fields|
      invariant 0 <= i <= |fields|
      invariant forall j :: 0 <= j < i ==> FieldReady(fields[j])
    {
      match fields[i]
      case Missing =>
        return false, i + 1;
      case Wired(r) =>
        if !r {
          return false, i + 1;
        }
      i := i + 1;
    }
    return true, |fields|;
  }
}

=== FILE: status_scheduler.dfy ===
/** The sensor status scheduler (internal/service/domain/sensor/status_schedular.go): on
    every tick it lists all sensors and marks those not updated for 72 hours as offline,
    one sensor update each. A failing update is only logged; the pass goes on with the
    next sensor. The clock is the parameter `now`, and the list of sensors is the result
    of the repository's `GetAll`. */
module StatusScheduler {
  import opened Wrappers
  import opened Entities
  import opened Errors
  import opened Store
  import Options
  import SensorRepo

  /** 72 hours, in nanoseconds like every timestamp of the model. */
  const StaleAfter: int := 72 * 3600 * 1_000_000_000

  /** `UpdatedAt.Before(cutoff)` with the cutoff 72 hours before `now`: strictly earlier. */
  predicate Stale(s: Sensor, now: Timestamp) {
    s.updatedAt < now - StaleAfter
  }

  /** The option `WithStatus(SensorStatusOffline)`. */
  function Offline(s: Sensor): (r: Sensor)
    ensures r.status == SensorStatusOffline
    ensures r.(status := s.status) == s
  {
    s.(status := SensorStatusOffline)
  }

  /** One iteration of the loop: a stale sensor is updated with the offline option,
      whatever the update's result; a fresh one is skipped. */
  function Step(db: SensorRepo.Db, s: Sensor, now: Timestamp, faults: string -> Option<Fault>): SensorRepo.Db {
    if Stale(s, now) then SensorRepo.Update(db, s.id, [Offline], faults(s.id)).db else db
  }

  /** The reference pass: every listed sensor in order, each step on the store the
      earlier ones left. */
  function MarkStale(db: SensorRepo.Db, sensors: seq<Sensor>, now: Timestamp, faults: string -> Option<Fault>): SensorRepo.Db
    decreases |sensors|
  {
    if |sensors| == 0 then db
    else Step(MarkStale(db, sensors[..|sensors| - 1], now, faults), sensors[|sensors| - 1], now, faults)
  }

  /** `updateStaleSensorStates`: a failing listing is returned and nothing is written;
      otherwise every stale listed sensor is updated in list order and the pass reports
      no error, whatever its updates returned. */
  method UpdateStaleSensorStates(db: SensorRepo.Db, all: Result<seq<Sensor>, Failure>, now: Timestamp,
                                 faults: string -> Option<Fault>)
    returns (db': SensorRepo.Db, err: Option<Failure>)
    ensures all.Err? ==> db' == db && err == Some(all.error)
    ensures all.Ok? ==> err.None? && db' == MarkStale(db, all.value, now, faults)
  {
    if all.Err? {
      return db, Some(all.error);
    }
    var sensors := all.value;
    db' := db;
    var i := 0;
    while i < |sensors|
      invariant 0 <= i <= |sensors|
      invariant db' == MarkStale(db, sensors[..i], now, faults)
    {
      assert sensors[..i + 1][..i] == sensors[..i];
      if Stale(sensors[i], now) {
        var o := SensorRepo.Update(db', sensors[i].id, [Offline], faults(sensors[i].id));
        db' := o.db;
      }
      i := i + 1;
    }
    assert sensors[..|sensors|] == sensors;
    err := None;
  }

  /** Every stored sensor sits under its own id. */
  ghost predicate Keyed(db: SensorRepo.Db) {
    forall k :: k in db.sensors ==> db.sensors[k].id == k
  }

  /** `after` differs from `before` at most by sensors turned offline: same rows, same
      readings, and each row either unchanged or changed in its status to offline only. */
  ghost predicate AtMostOffline(before: SensorRepo.Db, after: SensorRepo.Db) {
    && after.readings == before.readings
    && after.sensors.Keys == before.sensors.Keys
    && forall k :: k in before.sensors ==>
         after.sensors[k] == before.sensors[k] || after.sensors[k] == before.sensors[k].(status := SensorStatusOffline)
  }

  /** The update succeeds once it is past its checks: the stored coordinates are valid
      and neither of its two statements fails. */
  predicate Succeeds(s: Sensor, fault: Option<Fault>) {
    SensorRepo.ValidateCoordinates(s.latitude, s.longitude).None? && (fault.None? || fault.value.at >= 2)
  }

  /** The offline update of a stored sensor changes at most its status, and sets it when
      the update goes through. */
  lemma OfflineUpdateEffect(db: SensorRepo.Db, k: string, fault: Option<Fault>)
    requires Keyed(db) && k in db.sensors
    ensures var r := SensorRepo.Update(db, k, [Offline], fault).db;
            && AtMostOffline(db, r)
            && (forall j :: j in db.sensors && j != k ==> r.sensors[j] == db.sensors[j])
            && (Succeeds(db.sensors[k], fault) ==> r.sensors[k].status == SensorStatusOffline)
  {
    var stored := db.sensors[k];
    var s := Options.ApplyAll(stored.(latestData := None), [Offline]);
    assert [Offline][1..] == [];
    assert s == Options.ApplyAll(Offline(stored.(latestData := None)), []);
    assert s == stored.(latestData := None, status := SensorStatusOffline);
    assert s.id == k;
    var r := SensorRepo.Update(db, k, [Offline], fault).db;
    if SensorRepo.ValidateCoordinates(s.latitude, s.longitude).None? {
      var w := SensorRepo.UpdateWrites(s);
      var issued := Issue(w, fault);
      assert r == SensorRepo.PerformAll(db, issued.writes);
      var d1 := SensorRepo.Perform(db, w[0]);
      assert d1 == db by {
        assert stored.(latitude := s.latitude, longitude := s.longitude) == stored;
      }
      if |issued.writes| == 0 {
        assert r == db;
      } else if |issued.writes| == 1 {
        assert issued.writes[1..] == [];
        assert r == SensorRepo.PerformAll(d1, []);
      } else {
        assert issued.writes == w;
        SensorRepo.UpdateWritesEffect(db, s);
        assert stored.(latitude := s.latitude, longitude := s.longitude, status := s.status)
               == stored.(status := SensorStatusOffline);
        SensorRepo.ReadingsGrowOnlyByInsert(db, w);
        SensorRepo.InsertsOfUpdatePrefix(s, w);
        assert r.readings == db.readings;
      }
    }
  }

  /** A step changes at most statuses to offline, and only the listed sensor's, when it
      is stale; a stale, stored sensor whose update goes through ends offline. */
  lemma StepEffect(db: SensorRepo.Db, s: Sensor, now: Timestamp, faults: string -> Option<Fault>)
    requires Keyed(db)
    ensures var r := Step(db, s, now, faults);
            && AtMostOffline(db, r)
            && (forall j :: j in db.sensors && (j != s.id || !Stale(s, now)) ==> r.sensors[j] == db.sensors[j])
            && (Stale(s, now) && s.id in db.sensors && Succeeds(db.sensors[s.id], faults(s.id)) ==>
                  r.sensors[s.id].status == SensorStatusOffline)
  {
    if Stale(s, now) {
      if s.id in db.sensors {
        OfflineUpdateEffect(db, s.id, faults(s.id));
      } else {
        assert Step(db, s, now, faults) == db;
      }
    }
  }

  lemma AtMostOfflineKeepsKeyed(a: SensorRepo.Db, b: SensorRepo.Db)
    requires Keyed(a) && AtMostOffline(a, b)
    ensures Keyed(b)
  {
    forall k | k in b.sensors
      ensures b.sensors[k].id == k
    {
      assert k in a.sensors;
    }
  }

  lemma AtMostOfflineTransitive(a: SensorRepo.Db, b: SensorRepo.Db, c: SensorRepo.Db)
    requires AtMostOffline(a, b) && AtMostOffline(b, c)
    ensures AtMostOffline(a, c)
  {
    forall k | k in a.sensors
      ensures c.sensors[k] == a.sensors[k] || c.sensors[k] == a.sensors[k].(status := SensorStatusOffline)
    {
      assert k in b.sensors;
    }
  }

  /** A pass only ever turns sensors offline: it inserts no reading, adds or removes no
      sensor, and changes no location. */
  lemma {:induction false} MarkStaleAtMostOffline(db: SensorRepo.Db, sensors: seq<Sensor>, now: Timestamp,
                                                  faults: string -> Option<Fault>)
    requires Keyed(db)
    ensures AtMostOffline(db, MarkStale(db, sensors, now, faults))
    ensures Keyed(MarkStale(db, sensors, now, faults))
    decreases |sensors|
  {
    if |sensors| > 0 {
      var prefix := sensors[..|sensors| - 1];
      var mid := MarkStale(db, prefix, now, faults);
      MarkStaleAtMostOffline(db, prefix, now, faults);
      StepEffect(mid, sensors[|sensors| - 1], now, faults);
      AtMostOfflineTransitive(db, mid, MarkStale(db, sensors, now, faults));
      AtMostOfflineKeepsKeyed(db, MarkStale(db, sensors, now, faults));
    } else {
      assert MarkStale(db, sensors, now, faults) == db;
    }
  }

  /** A sensor not listed as stale keeps its row. */
  lemma {:induction false} MarkStaleUntouched(db: SensorRepo.Db, sensors: seq<Sensor>, now: Timestamp,
                                              faults: string -> Option<Fault>, k: string)
    requires Keyed(db) && k in db.sensors
    requires forall i :: 0 <= i < |sensors| && sensors[i].id == k ==> !Stale(sensors[i], now)
    ensures k in MarkStale(db, sensors, now, faults).sensors
    ensures MarkStale(db, sensors, now, faults).sensors[k] == db.sensors[k]
    decreases |sensors|
  {
    MarkStaleAtMostOffline(db, sensors, now, faults);
    if |sensors| > 0 {
      var prefix := sensors[..|sensors| - 1];
      var mid := MarkStale(db, prefix, now, faults);
      MarkStaleUntouched(db, prefix, now, faults, k);
      MarkStaleAtMostOffline(db, prefix, now, faults);
      StepEffect(mid, sensors[|sensors| - 1], now, faults);
    }
  }

  /** A stored sensor listed as stale ends offline when its update goes through, even if
      it is listed again later. */
  lemma {:induction false} MarkStaleMarksOffline(db: SensorRepo.Db, sensors: seq<Sensor>, now: Timestamp,
                                                 faults: string -> Option<Fault>, i: int)
    requires Keyed(db) && 0 <= i < |sensors|
    requires Stale(sensors[i], now) && sensors[i].id in db.sensors
    requires Succeeds(db.sensors[sensors[i].id], faults(sensors[i].id))
    ensures sensors[i].id in MarkStale(db, sensors, now, faults).sensors
    ensures MarkStale(db, sensors, now, faults).sensors[sensors[i].id].status == SensorStatusOffline
    decreases |sensors|
  {
    var k := sensors[i].id;
    var prefix := sensors[..|sensors| - 1];
    var mid := MarkStale(db, prefix, now, faults);
    MarkStaleAtMostOffline(db, prefix, now, faults);
    StepEffect(mid, sensors[|sensors| - 1], now, faults);
    if i == |sensors| - 1 {
      assert mid.sensors[k].latitude == db.sensors[k].latitude && mid.sensors[k].longitude == db.sensors[k].longitude;
    } else {
      assert prefix[i] == sensors[i];
      MarkStaleMarksOffline(db, prefix, now, faults, i);
    }
  }
}

=== FILE: store.dfy ===
/** What the repositories need of the SQL store: a write can fail, statements run one
    after another and stop at the first failure, and a repository call ends in a new
    store and a result, or in a Go run-time panic. `WithTx` is all-or-nothing: a
    transactional call that fails returns the store it started from. */
module Store {
  import opened Wrappers
  import opened Errors

  /** The statement at position `at` of a call's sequence of writes fails with `error`. */
  datatype Fault = Fault(at: nat, error: Failure)

  /** The statements actually issued, and the error that stopped them, if any. */
  datatype Issued<W> = Issued(writes: seq<W>, error: Option<Failure>)

  /** Issues `planned` in order until the faulty statement, which fails and takes no effect. */
  function Issue<W>(planned: seq<W>, fault: Option<Fault>): (r: Issued<W>)
    ensures r.error.None? <==> fault.None? || fault.value.at >= |planned|
    ensures r.error.None? ==> r.writes == planned
    ensures r.error.Some? ==> r.writes == planned[..fault.value.at] && r.error == Some(fault.value.error)
    ensures |r.writes| <= |planned| && r.writes == planned[..|r.writes|]
  {
    if fault.Some? && fault.value.at < |planned| then Issued(planned[..fault.value.at], Some(fault.value.error))
    else Issued(planned, None)
  }

  /** How a repository call ends. */
  datatype Outcome<D, T> = Done(db: D, result: Result<T, Failure>) | Panicked(reason: string)
}

=== FILE: tree_repo.dfy ===
/** Updating a tree in the store (internal/storage/postgres/tree/update.go). Every update
    runs in one transaction: the lookup, the caller's update function, the entity writes,
    the re-read and the optional after-update hook either all take effect or none do. */
module TreeRepo {
  import opened Wrappers
  import opened Entities
  import opened Errors
  import Options
  import opened Store

  /** Stored trees; a tree's `images` are the images linked to it. */
  datatype Db = Db(trees: map<int, Tree>)

  /** `GetByID`; a missing row is the storage layer's not-found error. */
  function GetById(db: Db, id: int): (r: Result<Tree, Failure>)
    ensures r.Ok? <==> id in db.trees
    ensures r.Ok? ==> r.value == db.trees[id]
    ensures r.Err? ==> r.error == Sentinel(EntityNotFound)
  {
    if id in db.trees then Ok(db.trees[id]) else Err(Sentinel(EntityNotFound))
  }

  /** The caller's update function: it sees the stored tree and returns whether to write,
      together with the tree as it changed it. */
  type UpdateFn = Tree -> Result<(bool, Tree), Failure>

  /** The hook run after the re-read: none for `Update`, the image merge for
      `UpdateWithImages`. */
  datatype AfterUpdate = NoAfterUpdate | MergeImages

  datatype TreeWrite =
    | UnlinkSensor(sensorId: string)
    | SetLocation(id: int, latitude: real, longitude: real)
    | UpdateRow(tree: Tree)
    | UnlinkAllImages(id: int)
    | LinkImage(id: int, image: Image)

  function Perform(db: Db, w: TreeWrite): Db {
    match w
    case UnlinkSensor(s) =>
      Db(map k | k in db.trees :: if db.trees[k].sensorId == Some(s) then db.trees[k].(sensorId := None) else db.trees[k])
    case SetLocation(id, lat, lon) =>
      if id in db.trees then Db(db.trees[id := db.trees[id].(latitude := lat, longitude := lon)]) else db
    case UpdateRow(t) =>
      // every column but the location (written above) and the image links
      if t.id in db.trees then
        var prior := db.trees[t.id];
        Db(db.trees[t.id := t.(latitude := prior.latitude, longitude := prior.longitude, images := prior.images)])
      else db
    case UnlinkAllImages(id) =>
      if id in db.trees then Db(db.trees[id := db.trees[id].(images := [])]) else db
    case LinkImage(id, img) =>
      if id in db.trees then Db(db.trees[id := db.trees[id].(images := db.trees[id].images + [img])]) else db
  }

  function PerformAll(db: Db, ws: seq<TreeWrite>): Db
    decreases |ws|
  {
    if |ws| == 0 then db else PerformAll(Perform(db, ws[0]), ws[1..])
  }

  /** `updateEntity`'s statements: when the tree has a sensor, first detach that sensor
      from every tree; then the location; then the remaining columns. */
  function EntityWrites(t: Tree): (ws: seq<TreeWrite>)
    ensures |ws| == if t.sensorId.Some? then 3 else 2
    ensures t.sensorId.Some? ==> ws[0] == UnlinkSensor(t.sensorId.value)
    ensures ws[|ws| - 2] == SetLocation(t.id, t.latitude, t.longitude) && ws[|ws| - 1] == UpdateRow(t)
  {
    (if t.sensorId.Some? then [UnlinkSensor(t.sensorId.value)] else [])
    + [SetLocation(t.id, t.latitude, t.longitude), UpdateRow(t)]
  }

  function LinkWrites(id: int, images: seq<Image>): (ws: seq<TreeWrite>)
    ensures |ws| == |images|
    ensures forall i :: 0 <= i < |ws| ==> ws[i] == LinkImage(id, images[i])
    decreases |images|
  {
    if |images| == 0 then [] else [LinkImage(id, images[0])] + LinkWrites(id, images[1..])
  }

  /** `updateImages`: unlink every image of the tree, then link the given ones in order. */
  function ImageWrites(id: int, images: seq<Image>): (ws: seq<TreeWrite>)
    ensures |ws| == |images| + 1 && ws[0] == UnlinkAllImages(id) && ws[1..] == LinkWrites(id, images)
  {
    [UnlinkAllImages(id)] + LinkWrites(id, images)
  }

  /** The image list the `UpdateWithImages` hook stores: when the updated tree carries
      images, the re-read tree's images followed by them; otherwise the re-read ones. */
  function MergedImages(updated: Tree, reread: Tree): (imgs: seq<Image>)
    ensures |updated.images| == 0 ==> imgs == reread.images
    ensures |updated.images| > 0 ==> |imgs| == |reread.images| + |updated.images|
                                      && imgs[..|reread.images|] == reread.images
                                      && imgs[|reread.images|..] == updated.images
  {
    if |updated.images| > 0 then reread.images + updated.images else reread.images
  }

  /** The error an image statement fails with: the unlink's own error, or the fixed
      "error linking image" for any link. */
  function ImageError(f: Fault): Failure {
    if f.at == 0 then f.error else Plain("error linking image")
  }

  /** Every tree holds a different sensor. */
  ghost predicate UniqueSensors(db: Db) {
    forall j, k :: j in db.trees && k in db.trees && db.trees[j].sensorId.Some? && db.trees[j].sensorId == db.trees[k].sensorId ==> j == k
  }

  /** `after` is `before`, or `before` with the sensor `s` detached from it. */
  predicate Detached(before: Tree, after: Tree, s: Option<string>) {
    after == before || (s.Some? && before.sensorId == s && after == before.(sensorId := None))
  }

  /** What a successful update of the looked-up row `id` with the updated tree `t` leaves
      behind: the same rows; the row of `t`'s id holds `t`'s columns; the images of the
      row `id` are relinked (when `relink`) as the old ones followed by `t`'s, and no
      other images change; `t`'s sensor is held by no other tree; every other row is
      unchanged but for losing that sensor. */
  ghost predicate Written(db: Db, db': Db, id: int, t: Tree, relink: bool)
    requires id in db.trees
  {
    && db'.trees.Keys == db.trees.Keys
    && (forall k :: k in db.trees && k != id ==> db'.trees[k].images == db.trees[k].images)
    && db'.trees[id].images == (if relink then db.trees[id].images + t.images else db.trees[id].images)
    && (t.id in db.trees ==> db'.trees[t.id].(images := t.images) == t)
    && (forall k :: k in db.trees && k != t.id ==>
          Detached(db.trees[k], db'.trees[k].(images := db.trees[k].images), t.sensorId))
    && (t.sensorId.Some? ==> forall k :: k in db'.trees && db'.trees[k].sensorId == t.sensorId ==> k == t.id)
  }

  /** The rest of the transaction once the update function has asked to write `t`: the
      entity statements, the re-read of row `id` and, when `relink`, the hook's image
      statements. A failing statement rolls everything back. */
  function Commit(db: Db, id: int, t: Tree, relink: bool, entityFault: Option<Fault>, imageFault: Option<Fault>): (o: Outcome<Db, Tree>)
    requires id in db.trees
    ensures o.Done?
    ensures o.result.Err? ==> o.db == db
    ensures var entity := Issue(EntityWrites(t), entityFault).error;
            var images := Issue(ImageWrites(id, db.trees[id].images + t.images), imageFault).error;
            && (entity.Some? ==> o.result == Err(entity.value))
            && (entity.None? && relink && images.Some? ==> o.result == Err(ImageError(imageFault.value)))
            && (o.result.Ok? <==> entity.None? && (!relink || images.None?))
            && (o.result.Ok? ==> Written(db, o.db, id, t, relink) && o.result.value == o.db.trees[id])
  {
    match Issue(EntityWrites(t), entityFault).error
    case Some(e) => Done(db, Err(e))
    case None =>
      var db1 := PerformAll(db, EntityWrites(t));
      EntityWritesEffect(db, t);
      if relink then Relink(db, db1, id, t, imageFault)
      else
        assert db1.trees[id].images == db.trees[id].images;
        Done(db1, Ok(db1.trees[id]))
  }

  /** The `UpdateWithImages` hook on the store `db1` the entity statements left: the
      re-read tree's images followed by the updated tree's are relinked. */
  function Relink(db: Db, db1: Db, id: int, t: Tree, imageFault: Option<Fault>): (o: Outcome<Db, Tree>)
    requires id in db.trees
    requires Written(db, db1, id, t, false)
    ensures o.Done?
    ensures o.result.Err? ==> o.db == db
    ensures var images := Issue(ImageWrites(id, db.trees[id].images + t.images), imageFault).error;
            && (images.Some? ==> o.result == Err(ImageError(imageFault.value)))
            && (o.result.Ok? <==> images.None?)
            && (o.result.Ok? ==> Written(db, o.db, id, t, true) && o.result.value == o.db.trees[id])
  {
    var reread := db1.trees[id];
    var merged := MergedImages(t, reread);
    assert merged == db.trees[id].images + t.images;
    match Issue(ImageWrites(id, merged), imageFault).error
    case Some(_) => Done(db, Err(ImageError(imageFault.value)))
    case None =>
      var db2 := PerformAll(db1, ImageWrites(id, merged));
      ImageWritesEffect(db1, id, merged);
      RelinkKeepsWritten(db, db1, db2, id, t);
      Done(db2, Ok(reread.(images := merged)))
  }

  lemma RelinkKeepsWritten(db: Db, db1: Db, db2: Db, id: int, t: Tree)
    requires id in db.trees && Written(db, db1, id, t, false)
    requires db2.trees == db1.trees[id := db1.trees[id].(images := db.trees[id].images + t.images)]
    ensures Written(db, db2, id, t, true)
  {
    forall k | k in db.trees && k != t.id
      ensures Detached(db.trees[k], db2.trees[k].(images := db.trees[k].images), t.sensorId)
    {
      if k == id {
        RelinkRow(db1.trees[id], db.trees[id].images + t.images, db.trees[k].images);
      } else {
        assert db2.trees[k] == db1.trees[k];
      }
    }
  }

  /** `updateWithTx`: a missing tree or a nil update function fails with no write; an
      error of the update function aborts; an update function that declines returns the
      tree as it left it, with no write; otherwise the entity is written and re-read and,
      for `UpdateWithImages`, the hook merges and relinks the images. Any failure rolls
      the whole transaction back. */
  function UpdateWithTx(db: Db, id: int, updateFn: Option<UpdateFn>, after: AfterUpdate,
                        entityFault: Option<Fault>, imageFault: Option<Fault>): (o: Outcome<Db, Tree>)
    ensures o.Done?
    ensures o.result.Err? ==> o.db == db
    ensures id !in db.trees ==> o.result == Err(Sentinel(EntityNotFound))
    ensures id in db.trees && updateFn.None? ==> o.result == Err(Plain("updateFn is nil"))
    ensures id in db.trees && updateFn.Some? ==>
              match updateFn.value(db.trees[id])
              case Err(e) => o.result == Err(e)
              case Ok((updated, t)) =>
                && (!updated ==> o == Done(db, Ok(t)))
                && (updated ==> o == Commit(db, id, t, after == MergeImages && |t.images| > 0, entityFault, imageFault))
  {
    match GetById(db, id)
    case Err(e) => Done(db, Err(e))
    case Ok(tree) =>
      if updateFn.None? then Done(db, Err(Plain("updateFn is nil")))
      else match updateFn.value(tree)
        case Err(e) => Done(db, Err(e))
        case Ok((updated, t)) =>
          if !updated then Done(db, Ok(t))
          else Commit(db, id, t, after == MergeImages && |t.images| > 0, entityFault, imageFault)
  }

  /** `Update` as the services call it, with entity options: an update function that
      always writes the stored tree with the options applied, and no hook. */
  function Update(db: Db, id: int, opts: seq<Tree -> Tree>, entityFault: Option<Fault>): (o: Outcome<Db, Tree>)
    ensures o.Done?
    ensures o.result.Err? ==> o.db == db
    ensures o.result.Ok? <==> id in db.trees && Issue(EntityWrites(Options.ApplyAll(db.trees[id], opts)), entityFault).error.None?
    ensures o.result.Ok? ==> Written(db, o.db, id, Options.ApplyAll(db.trees[id], opts), false) && o.result.value == o.db.trees[id]
  {
    UpdateWithTx(db, id, Some(t => Ok((true, Options.ApplyAll(t, opts)))), NoAfterUpdate, entityFault, None)
  }

  /** `UpdateWithImages` with the same update function as `Update`. */
  function UpdateWithImages(db: Db, id: int, opts: seq<Tree -> Tree>, entityFault: Option<Fault>, imageFault: Option<Fault>): (o: Outcome<Db, Tree>)
    ensures o.Done?
    ensures o.result.Err? ==> o.db == db
    ensures id !in db.trees ==> o.result == Err(Sentinel(EntityNotFound))
    ensures id in db.trees ==>
              var t := Options.ApplyAll(db.trees[id], opts);
              var entity := Issue(EntityWrites(t), entityFault).error;
              var images := Issue(ImageWrites(id, db.trees[id].images + t.images), imageFault).error;
              && (entity.Some? ==> o.result == Err(entity.value))
              && (entity.None? && |t.images| > 0 && images.Some? ==> o.result == Err(ImageError(imageFault.value)))
              && (o.result.Ok? <==> entity.None? && (|t.images| > 0 ==> images.None?))
    ensures o.result.Ok? ==>
              id in db.trees &&
              var t := Options.ApplyAll(db.trees[id], opts);
              Written(db, o.db, id, t, |t.images| > 0) && o.result.value == o.db.trees[id]
  {
    UpdateWithTx(db, id, Some(t => Ok((true, Options.ApplyAll(t, opts)))), MergeImages, entityFault, imageFault)
  }

  /** Detaching sensor `s` from every tree, when there is one. */
  function Detach(db: Db, s: Option<string>): Db {
    if s.Some? then Perform(db, UnlinkSensor(s.value)) else db
  }

  lemma EntityWritesSteps(db: Db, t: Tree)
    ensures PerformAll(db, EntityWrites(t))
            == Perform(Perform(Detach(db, t.sensorId), SetLocation(t.id, t.latitude, t.longitude)), UpdateRow(t))
  {
    var ws := EntityWrites(t);
    var tail := [SetLocation(t.id, t.latitude, t.longitude), UpdateRow(t)];
    var d0 := Detach(db, t.sensorId);
    var d1 := Perform(d0, tail[0]);
    assert tail[1..] == [UpdateRow(t)] && tail[1..][1..] == [];
    assert PerformAll(d0, tail) == PerformAll(d1, tail[1..]) == PerformAll(Perform(d1, UpdateRow(t)), []);
    if t.sensorId.Some? {
      assert ws[1..] == tail;
    } else {
      assert ws == tail;
    }
  }

  lemma DetachEffect(db: Db, s: Option<string>)
    ensures Detach(db, s).trees.Keys == db.trees.Keys
    ensures forall k :: k in db.trees ==> Detached(db.trees[k], Detach(db, s).trees[k], s)
    ensures s.Some? ==> forall k :: k in db.trees ==> Detach(db, s).trees[k].sensorId != s
  {
  }

  /** The entity statements keep the rows, touch no image, give the updated tree's row
      its columns and leave every other row but for detaching the sensor. */
  lemma EntityWritesEffect(db: Db, t: Tree)
    ensures var db1 := PerformAll(db, EntityWrites(t));
            && db1.trees.Keys == db.trees.Keys
            && (forall k :: k in db.trees ==> db1.trees[k].images == db.trees[k].images)
            && (t.id in db.trees ==> db1.trees[t.id].(images := t.images) == t)
            && (forall k :: k in db.trees && k != t.id ==> Detached(db.trees[k], db1.trees[k], t.sensorId))
            && (t.sensorId.Some? ==> forall k :: k in db1.trees && db1.trees[k].sensorId == t.sensorId ==> k == t.id)
  {
    EntityWritesSteps(db, t);
    DetachEffect(db, t.sensorId);
  }

  lemma {:induction false} LinkWritesEffect(db: Db, id: int, images: seq<Image>)
    requires id in db.trees
    ensures PerformAll(db, LinkWrites(id, images)).trees
            == db.trees[id := db.trees[id].(images := db.trees[id].images + images)]
    decreases |images|
  {
    if |images| == 0 {
      LinkNothing(db, id, images);
    } else {
      var row := db.trees[id];
      var row1 := row.(images := row.images + [images[0]]);
      var db1 := Db(db.trees[id := row1]);
      LinkImageStep(db, id, images[0]);
      LinkWritesTail(id, images);
      LinkWritesEffect(db1, id, images[1..]);
      var all := row.images + images;
      assert row1.images + images[1..] == all;
      RelinkRow(row, row1.images, all);
      MapOverride(db.trees, id, row1, row.(images := all));
      assert db1.trees[id] == row1;
      assert PerformAll(db1, LinkWrites(id, images[1..])).trees == db.trees[id := row1][id := row1.(images := all)];
    }
  }

  lemma LinkImageStep(db: Db, id: int, img: Image)
    requires id in db.trees
    ensures Perform(db, LinkImage(id, img)) == Db(db.trees[id := db.trees[id].(images := db.trees[id].images + [img])])
  {
  }

  lemma LinkWritesTail(id: int, images: seq<Image>)
    requires |images| > 0
    ensures forall db :: PerformAll(db, LinkWrites(id, images)) == PerformAll(Perform(db, LinkImage(id, images[0])), LinkWrites(id, images[1..]))
  {
    var ws := LinkWrites(id, images);
    assert ws[0] == LinkImage(id, images[0]) && ws[1..] == LinkWrites(id, images[1..]);
  }

  lemma LinkNothing(db: Db, id: int, images: seq<Image>)
    requires id in db.trees && |images| == 0
    ensures PerformAll(db, LinkWrites(id, images)).trees == db.trees[id := db.trees[id].(images := db.trees[id].images + images)]
  {
    assert db.trees[id].images + images == db.trees[id].images;
    assert db.trees[id := db.trees[id]] == db.trees;
  }

  lemma RelinkRow(t: Tree, a: seq<Image>, b: seq<Image>)
    ensures t.(images := a).(images := b) == t.(images := b)
  {
  }

  lemma MapOverride<K, V>(m: map<K, V>, k: K, a: V, b: V)
    ensures m[k := a][k := b] == m[k := b]
  {
  }

  /** Unlinking every image and linking the given ones leaves exactly those, in order,
      and changes nothing else. */
  lemma ImageWritesEffect(db: Db, id: int, images: seq<Image>)
    requires id in db.trees
    ensures PerformAll(db, ImageWrites(id, images)).trees == db.trees[id := db.trees[id].(images := images)]
  {
    var db1 := Perform(db, UnlinkAllImages(id));
    assert ImageWrites(id, images)[1..] == LinkWrites(id, images);
    LinkWritesEffect(db1, id, images);
    assert [] + images == images;
  }

  /** A successful update keeps every sensor on at most one tree. */
  lemma UpdateKeepsSensorsUnique(db: Db, id: int, updateFn: Option<UpdateFn>, after: AfterUpdate,
                                 entityFault: Option<Fault>, imageFault: Option<Fault>)
    requires UniqueSensors(db)
    ensures UniqueSensors(UpdateWithTx(db, id, updateFn, after, entityFault, imageFault).db)
  {
    var o := UpdateWithTx(db, id, updateFn, after, entityFault, imageFault);
    if o.result.Ok? && id in db.trees && updateFn.Some? {
      match updateFn.value(db.trees[id])
      case Err(_) =>
      case Ok((updated, t)) =>
        if updated {
          var relink := after == MergeImages && |t.images| > 0;
          assert Written(db, o.db, id, t, relink);
          forall j, k | j in o.db.trees && k in o.db.trees && o.db.trees[j].sensorId.Some? && o.db.trees[j].sensorId == o.db.trees[k].sensorId
            ensures j == k
          {
            if o.db.trees[j].sensorId != t.sensorId {
              SensorCameFromBefore(db, o.db, id, t, relink, j);
              SensorCameFromBefore(db, o.db, id, t, relink, k);
            }
          }
        }
    }
  }

  /** After an update a tree holding a sensor other than the updated tree's held it
      before. */
  lemma SensorCameFromBefore(db: Db, db': Db, id: int, t: Tree, relink: bool, k: int)
    requires id in db.trees && Written(db, db', id, t, relink)
    requires k in db'.trees && db'.trees[k].sensorId.Some? && db'.trees[k].sensorId != t.sensorId
    ensures k != t.id && db.trees[k].sensorId == db'.trees[k].sensorId
  {
    assert Detached(db.trees[k], db'.trees[k].(images := db.trees[k].images), t.sensorId);
  }
}

=== FILE: tree_service.dfy ===
/** The tree service (internal/service/domain/tree/tree.go): it validates a request, looks
    up the referenced cluster and sensor, mutates through the tree repository and then
    publishes a create, update or delete event. Publishing can only be logged when it
    fails, so the event manager appears here as the append-only log of published events
    and no result depends on it. */
module TreeService {
  import opened Wrappers
  import opened Entities
  import opened Errors
  import Service
  import Options
  import opened Store
  import TreeRepo

  datatype TreeEvent =
    | CreateTree(tree: Tree)
    | UpdateTree(prev: Tree, updated: Option<Tree>)
    | DeleteTree(prev: Tree)

  /** The repositories the service reads and writes, and the published events. */
  datatype State = State(
    trees: TreeRepo.Db,
    clusters: map<int, TreeCluster>,
    sensors: map<string, Sensor>,
    events: seq<TreeEvent>)

  datatype Outcome<T> = Outcome(state: State, result: Result<T, Failure>)

  // ---------------------------------------------------------------------------
  // Error mapping

  /** `handleError`: anything that is `ErrEntityNotFound` becomes 404 with the
      tree-not-found text, anything that is `ErrSensorNotFound` 404 with its own text,
      and everything else 500 with its own text. */
  function HandleError(err: Failure): (e: Failure)
    ensures e.ServiceFailure?
    ensures e.error.code == Service.NotFound <==> Is(err, EntityNotFound) || Is(err, SensorNotFound)
    ensures e.error.code == Service.InternalError <==> !Is(err, EntityNotFound) && !Is(err, SensorNotFound)
    ensures Is(err, EntityNotFound) ==> e.error.message == SentinelText(TreeNotFound)
    ensures !Is(err, EntityNotFound) ==> e.error.message == Message(err)
  {
    if Is(err, EntityNotFound) then ServiceError(Service.NotFound, SentinelText(TreeNotFound))
    else if Is(err, SensorNotFound) then ServiceError(Service.NotFound, Message(err))
    else ServiceError(Service.InternalError, Message(err))
  }

  /** An error the service has already mapped is mapped again to a 500 whose text is the
      first error's rendering. */
  lemma HandleErrorRemapsServiceErrors(e: Service.Error)
    ensures HandleError(ServiceFailure(e)) == ServiceError(Service.InternalError, Service.Render(e))
  {
  }

  // ---------------------------------------------------------------------------
  // Tree options

  datatype TreeOption =
    | WithTreeCluster(cluster: Option<TreeCluster>)
    | WithSensor(sensor: Option<Sensor>)
    | WithReadonly(readonly: bool)
    | WithPlantingYear(plantingYear: int)
    | WithSpecies(species: string)
    | WithNumber(number: string)
    | WithLatitude(latitude: real)
    | WithLongitude(longitude: real)
    | WithDescription(description: string)
    | WithWateringStatus(status: WateringStatus)

  /** One option sets one field of the tree; a nil cluster or sensor leaves no id. */
  function Apply(t: Tree, o: TreeOption): Tree {
    match o
    case WithTreeCluster(c) => t.(treeClusterId := if c.Some? then Some(c.value.id) else None)
    case WithSensor(s) => t.(sensorId := if s.Some? then Some(s.value.id) else None)
    case WithReadonly(b) => t.(readonly := b)
    case WithPlantingYear(y) => t.(plantingYear := y)
    case WithSpecies(sp) => t.(species := sp)
    case WithNumber(n) => t.(number := n)
    case WithLatitude(lat) => t.(latitude := lat)
    case WithLongitude(lon) => t.(longitude := lon)
    case WithDescription(d) => t.(description := d)
    case WithWateringStatus(w) => t.(wateringStatus := w)
  }

  // ---------------------------------------------------------------------------
  // Create

  datatype TreeCreate = TreeCreate(
    treeClusterId: Option<int>,
    sensorId: Option<string>,
    readonly: bool,
    plantingYear: int,
    species: string,
    number: string,
    latitude: real,
    longitude: real)

  /** The repository's create (its file is not part of this model): it stores a tree
      built from the options, or fails. */
  type Insert = (TreeRepo.Db, seq<TreeOption>) -> Result<(TreeRepo.Db, Tree), Failure>

  /** The options `Create` passes: the cluster and the sensor when the request names
      them, then the six plain fields. */
  function CreateOptions(tc: TreeCreate, cluster: Option<TreeCluster>, sensor: Option<Sensor>): seq<TreeOption> {
    (if cluster.Some? then [WithTreeCluster(cluster)] else [])
    + (if sensor.Some? then [WithSensor(sensor)] else [])
    + [WithReadonly(tc.readonly), WithPlantingYear(tc.plantingYear), WithSpecies(tc.species),
       WithNumber(tc.number), WithLatitude(tc.latitude), WithLongitude(tc.longitude)]
  }

  /** `Create`: a request failing validation (`invalid` carries the validator's text) is
      a 400; a named cluster or sensor that does not exist fails through `handleError`;
      a failing insert too. Only a successful insert changes the store, and it publishes
      exactly one event, carrying the created tree. */
  function Create(s: State, tc: TreeCreate, invalid: Option<string>, insert: Insert): (o: Outcome<Tree>)
    ensures o.result.Err? ==> o.state == s
    ensures invalid.Some? ==> o.result == Err(ValidationError(invalid.value))
    ensures invalid.None? && tc.treeClusterId.Some? && tc.treeClusterId.value !in s.clusters ==>
              o.result == Err(ServiceError(Service.NotFound, SentinelText(TreeNotFound)))
    ensures && invalid.None?
            && (tc.treeClusterId.Some? ==> tc.treeClusterId.value in s.clusters)
            && tc.sensorId.Some? && tc.sensorId.value !in s.sensors ==>
              o.result == Err(ServiceError(Service.NotFound, SentinelText(SensorNotFound)))
    ensures && invalid.None?
            && (tc.treeClusterId.Some? ==> tc.treeClusterId.value in s.clusters)
            && (tc.sensorId.Some? ==> tc.sensorId.value in s.sensors)
            && insert(s.trees, CreateOptions(tc, ClusterOf(s, tc.treeClusterId), SensorOf(s, tc.sensorId))).Err? ==>
              o.result == Err(HandleError(insert(s.trees, CreateOptions(tc, ClusterOf(s, tc.treeClusterId), SensorOf(s, tc.sensorId))).error))
    ensures o.result.Ok? <==>
              && invalid.None?
              && (tc.treeClusterId.Some? ==> tc.treeClusterId.value in s.clusters)
              && (tc.sensorId.Some? ==> tc.sensorId.value in s.sensors)
              && insert(s.trees, CreateOptions(tc, ClusterOf(s, tc.treeClusterId), SensorOf(s, tc.sensorId))).Ok?
    ensures o.result.Ok? ==>
              var created := insert(s.trees, CreateOptions(tc, ClusterOf(s, tc.treeClusterId), SensorOf(s, tc.sensorId))).value;
              && o.result.value == created.1
              && o.state == s.(trees := created.0, events := s.events + [CreateTree(created.1)])
  {
    if invalid.Some? then Outcome(s, Err(ValidationError(invalid.value)))
    else if tc.treeClusterId.Some? && tc.treeClusterId.value !in s.clusters then
      Outcome(s, Err(HandleError(Sentinel(EntityNotFound))))
    else if tc.sensorId.Some? && tc.sensorId.value !in s.sensors then
      Outcome(s, Err(HandleError(Sentinel(SensorNotFound))))
    else
      match insert(s.trees, CreateOptions(tc, ClusterOf(s, tc.treeClusterId), SensorOf(s, tc.sensorId)))
      case Err(e) => Outcome(s, Err(HandleError(e)))
      case Ok((db, t)) => Outcome(s.(trees := db, events := s.events + [CreateTree(t)]), Ok(t))
  }

  /** The referenced cluster, when the request names one that exists. */
  function ClusterOf(s: State, id: Option<int>): (c: Option<TreeCluster>)
    ensures c.Some? <==> id.Some? && id.value in s.clusters
    ensures c.Some? ==> c.value == s.clusters[id.value]
  {
    if id.Some? && id.value in s.clusters then Some(s.clusters[id.value]) else None
  }

  function SensorOf(s: State, id: Option<string>): (r: Option<Sensor>)
    ensures r.Some? <==> id.Some? && id.value in s.sensors
    ensures r.Some? ==> r.value == s.sensors[id.value]
  {
    if id.Some? && id.value in s.sensors then Some(s.sensors[id.value]) else None
  }

  /** Whatever tree the options are applied to, the created tree carries the request's
      fields and the ids of the cluster and sensor it names. */
  lemma CreateOptionsSetRequestedFields(t: Tree, tc: TreeCreate, cluster: Option<TreeCluster>, sensor: Option<Sensor>)
    ensures var r := Options.ApplyAll(t, Options.Lift(Apply, CreateOptions(tc, cluster, sensor)));
            && r.readonly == tc.readonly && r.plantingYear == tc.plantingYear && r.species == tc.species
            && r.number == tc.number && r.latitude == tc.latitude && r.longitude == tc.longitude
            && (cluster.Some? ==> r.treeClusterId == Some(cluster.value.id))
            && (cluster.None? ==> r.treeClusterId == t.treeClusterId)
            && (sensor.Some? ==> r.sensorId == Some(sensor.value.id))
            && (sensor.None? ==> r.sensorId == t.sensorId)
            && r.id == t.id && r.description == t.description && r.images == t.images
  {
    var c := if cluster.Some? then [WithTreeCluster(cluster)] else [];
    var sn := if sensor.Some? then [WithSensor(sensor)] else [];
    var plain := [WithReadonly(tc.readonly), WithPlantingYear(tc.plantingYear), WithSpecies(tc.species),
                  WithNumber(tc.number), WithLatitude(tc.latitude), WithLongitude(tc.longitude)];
    assert CreateOptions(tc, cluster, sensor) == c + sn + plain;
    Options.ApplyAllLift(Apply, t, c + sn + plain);
    Options.FoldAppend(Apply, t, c + sn, plain);
    Options.FoldAppend(Apply, t, c, sn);
    var u1 := Options.Fold(Apply, t, c);
    assert c != [] ==> c[1..] == [];
    assert sn != [] ==> sn[1..] == [];
    var u := Options.Fold(Apply, u1, sn);
    PlainFieldsSet(u, plain);
  }

  lemma PlainFieldsSet(u: Tree, plain: seq<TreeOption>)
    requires |plain| == 6
    requires plain[0].WithReadonly? && plain[1].WithPlantingYear? && plain[2].WithSpecies?
    requires plain[3].WithNumber? && plain[4].WithLatitude? && plain[5].WithLongitude?
    ensures var r := Options.Fold(Apply, u, plain);
            && r.readonly == plain[0].readonly && r.plantingYear == plain[1].plantingYear && r.species == plain[2].species
            && r.number == plain[3].number && r.latitude == plain[4].latitude && r.longitude == plain[5].longitude
            && r.id == u.id && r.description == u.description && r.images == u.images
            && r.treeClusterId == u.treeClusterId && r.sensorId == u.sensorId
  {
    FoldSix(u, plain);
  }

  /** Six options applied are the six applications. */
  lemma FoldSix(u: Tree, o: seq<TreeOption>)
    requires |o| == 6
    ensures Options.Fold(Apply, u, o) == Apply(Apply(Apply(Apply(Apply(Apply(u, o[0]), o[1]), o[2]), o[3]), o[4]), o[5])
  {
    assert o[1..][0] == o[1] && o[1..][1..] == o[2..];
    assert o[2..][0] == o[2] && o[2..][1..] == o[3..];
    assert o[3..][0] == o[3] && o[3..][1..] == o[4..];
    assert o[4..][0] == o[4] && o[4..][1..] == o[5..];
    assert o[5..][0] == o[5] && o[5..][1..] == [];
    var u1 := Apply(u, o[0]);
    var u2 := Apply(u1, o[1]);
    var u3 := Apply(u2, o[2]);
    var u4 := Apply(u3, o[3]);
    var u5 := Apply(u4, o[4]);
    var u6 := Apply(u5, o[5]);
    assert Options.Fold(Apply, u, o) == Options.Fold(Apply, u1, o[1..]);
    assert Options.Fold(Apply, u1, o[1..]) == Options.Fold(Apply, u2, o[2..]);
    assert Options.Fold(Apply, u2, o[2..]) == Options.Fold(Apply, u3, o[3..]);
    assert Options.Fold(Apply, u3, o[3..]) == Options.Fold(Apply, u4, o[4..]);
    assert Options.Fold(Apply, u4, o[4..]) == Options.Fold(Apply, u5, o[5..]);
    assert Options.Fold(Apply, u5, o[5..]) == Options.Fold(Apply, u6, []);
  }

  // ---------------------------------------------------------------------------
  // Lookups, update and delete

  /** The service's own `GetByID`: the repository lookup, a failure mapped by
      `handleError`. */
  function GetById(s: State, id: int): (r: Result<Tree, Failure>)
    ensures r.Ok? <==> id in s.trees.trees
    ensures r.Ok? ==> r.value == s.trees.trees[id]
    ensures r.Err? ==> r.error == ServiceError(Service.NotFound, SentinelText(TreeNotFound))
  {
    match TreeRepo.GetById(s.trees, id)
    case Ok(t) => Ok(t)
    case Err(e) => Err(HandleError(e))
  }

  function IntText(n: int): (t: string)
    ensures |t| >= 1
  {
    if n < 0 then "-" + Service.DecimalText(-n) else Service.DecimalText(n)
  }

  datatype TreeUpdate = TreeUpdate(
    treeClusterId: Option<int>,
    sensorId: Option<string>,
    plantingYear: int,
    species: string,
    number: string,
    latitude: real,
    longitude: real,
    description: string)

  /** The options `Update` passes: the cluster and the sensor always, an absent one
      clearing the link, then the six plain fields. */
  function UpdateOptions(tu: TreeUpdate, cluster: Option<TreeCluster>, sensor: Option<Sensor>): seq<TreeOption> {
    [WithTreeCluster(cluster), WithSensor(sensor), WithPlantingYear(tu.plantingYear), WithSpecies(tu.species),
     WithNumber(tu.number), WithLatitude(tu.latitude), WithLongitude(tu.longitude), WithDescription(tu.description)]
  }

  /** A missing cluster is wrapped with its id, which `errors.Is` sees through: 404 with
      the tree-not-found text. */
  function ClusterLookupError(id: int): (e: Failure)
    ensures e == ServiceError(Service.NotFound, SentinelText(TreeNotFound))
  {
    var cause := Wrapped("failed to find TreeCluster with ID " + IntText(id), Sentinel(EntityNotFound));
    assert Is(cause, EntityNotFound);
    HandleError(cause)
  }

  /** A missing sensor is wrapped with its id: 404 with the wrapped text. */
  function SensorLookupError(id: string): (e: Failure)
    ensures e == ServiceError(Service.NotFound, Message(Wrapped("failed to find Sensor with ID " + id, Sentinel(SensorNotFound))))
  {
    var cause := Wrapped("failed to find Sensor with ID " + id, Sentinel(SensorNotFound));
    assert !Is(cause, EntityNotFound) && Is(cause, SensorNotFound);
    HandleError(cause)
  }

  /** `Update` once the previous tree `prev` has been read: the named cluster and sensor
      are looked up, the repository update runs with the options, and a success
      publishes one event carrying the previous and the updated tree. */
  function UpdateAfterLookup(s: State, id: int, tu: TreeUpdate, prev: Tree, fault: Option<Fault>): (o: Outcome<Tree>)
    ensures o.result.Err? ==> o.state == s
    ensures tu.treeClusterId.Some? && tu.treeClusterId.value !in s.clusters ==>
              o.result == Err(ServiceError(Service.NotFound, SentinelText(TreeNotFound)))
    ensures (tu.treeClusterId.Some? ==> tu.treeClusterId.value in s.clusters)
            && tu.sensorId.Some? && tu.sensorId.value !in s.sensors ==>
              o.result == Err(ServiceError(Service.NotFound, Message(Wrapped("failed to find Sensor with ID " + tu.sensorId.value, Sentinel(SensorNotFound)))))
    ensures var repo := TreeRepo.Update(s.trees, id, Options.Lift(Apply, UpdateOptions(tu, ClusterOf(s, tu.treeClusterId), SensorOf(s, tu.sensorId))), fault);
            && (o.result.Ok? <==>
                  && (tu.treeClusterId.Some? ==> tu.treeClusterId.value in s.clusters)
                  && (tu.sensorId.Some? ==> tu.sensorId.value in s.sensors)
                  && repo.result.Ok?)
            && (o.result.Ok? ==>
                  && o.result == repo.result
                  && o.state == s.(trees := repo.db, events := s.events + [UpdateTree(prev, Some(repo.result.value))]))
  {
    if tu.treeClusterId.Some? && tu.treeClusterId.value !in s.clusters then
      Outcome(s, Err(ClusterLookupError(tu.treeClusterId.value)))
    else if tu.sensorId.Some? && tu.sensorId.value !in s.sensors then
      Outcome(s, Err(SensorLookupError(tu.sensorId.value)))
    else
      var opts := UpdateOptions(tu, ClusterOf(s, tu.treeClusterId), SensorOf(s, tu.sensorId));
      var repo := TreeRepo.Update(s.trees, id, Options.Lift(Apply, opts), fault);
      match repo.result
      case Err(e) => Outcome(s, Err(HandleError(e)))
      case Ok(t) => Outcome(s.(trees := repo.db, events := s.events + [UpdateTree(prev, Some(t))]), Ok(t))
  }

  /** `Update` as written: the failure of the service's own `GetByID`, already mapped, is
      mapped by `handleError` a second time. */
  function UpdateAsWritten(s: State, id: int, tu: TreeUpdate, invalid: Option<string>, fault: Option<Fault>): (o: Outcome<Tree>)
    ensures o.result.Err? ==> o.state == s
    ensures invalid.Some? ==> o.result == Err(ValidationError(invalid.value))
    ensures invalid.None? && id !in s.trees.trees ==> o.result == Err(HandleError(GetById(s, id).error))
    ensures invalid.None? && id in s.trees.trees ==> o == UpdateAfterLookup(s, id, tu, s.trees.trees[id], fault)
  {
    if invalid.Some? then Outcome(s, Err(ValidationError(invalid.value)))
    else match GetById(s, id)
      case Err(e) => Outcome(s, Err(HandleError(e)))
      case Ok(prev) => UpdateAfterLookup(s, id, tu, prev, fault)
  }

  /** `Update` with the lookup failure passed on as `GetByID` mapped it: a request
      failing validation is a 400, a missing tree a 404, and otherwise the update runs on
      the tree read before it. */
  function Update(s: State, id: int, tu: TreeUpdate, invalid: Option<string>, fault: Option<Fault>): (o: Outcome<Tree>)
    ensures o.result.Err? ==> o.state == s
    ensures invalid.Some? ==> o.result == Err(ValidationError(invalid.value))
    ensures invalid.None? && id !in s.trees.trees ==>
              o.result == Err(ServiceError(Service.NotFound, SentinelText(TreeNotFound)))
    ensures invalid.None? && id in s.trees.trees ==> o == UpdateAfterLookup(s, id, tu, s.trees.trees[id], fault)
  {
    if invalid.Some? then Outcome(s, Err(ValidationError(invalid.value)))
    else match GetById(s, id)
      case Err(e) => Outcome(s, Err(e))
      case Ok(prev) => UpdateAfterLookup(s, id, tu, prev, fault)
  }

  /** Every stored tree, cluster and sensor carries the id it is stored under. */
  ghost predicate Keyed(s: State) {
    && (forall k :: k in s.trees.trees ==> s.trees.trees[k].id == k)
    && (forall k :: k in s.clusters ==> s.clusters[k].id == k)
    && (forall k :: k in s.sensors ==> s.sensors[k].id == k)
  }

  /** A successful update stores and returns the requested fields: the named cluster
      and sensor, or none when the request names none, and the plain fields; the
      images are kept. */
  lemma UpdateStoresRequest(s: State, id: int, tu: TreeUpdate, fault: Option<Fault>)
    requires Keyed(s)
    requires Update(s, id, tu, None, fault).result.Ok?
    ensures var o := Update(s, id, tu, None, fault);
            var r := o.result.value;
            && r == o.state.trees.trees[id]
            && r.treeClusterId == tu.treeClusterId && r.sensorId == tu.sensorId
            && r.plantingYear == tu.plantingYear && r.species == tu.species && r.number == tu.number
            && r.latitude == tu.latitude && r.longitude == tu.longitude && r.description == tu.description
            && r.images == s.trees.trees[id].images
            && o.state.events == s.events + [UpdateTree(s.trees.trees[id], Some(r))]
  {
    var prev := s.trees.trees[id];
    var cluster := ClusterOf(s, tu.treeClusterId);
    var sensor := SensorOf(s, tu.sensorId);
    var fns := Options.Lift(Apply, UpdateOptions(tu, cluster, sensor));
    var t := Options.ApplyAll(prev, fns);
    UpdateOptionsSetFields(prev, tu, cluster, sensor);
    var repo := TreeRepo.Update(s.trees, id, fns, fault);
    var o := Update(s, id, tu, None, fault);
    assert o == UpdateAfterLookup(s, id, tu, prev, fault);
    assert o.result == repo.result && o.state.trees == repo.db;
    assert TreeRepo.Written(s.trees, repo.db, id, t, false);
    assert t.id == id;
    var r := repo.db.trees[id];
    assert o.result.value == r;
    assert r.(images := t.images) == t;
    if tu.treeClusterId.Some? {
      assert s.clusters[tu.treeClusterId.value].id == tu.treeClusterId.value;
    }
    if tu.sensorId.Some? {
      assert s.sensors[tu.sensorId.value].id == tu.sensorId.value;
    }
  }

  lemma UpdateOptionsSetFields(t: Tree, tu: TreeUpdate, cluster: Option<TreeCluster>, sensor: Option<Sensor>)
    ensures var r := Options.ApplyAll(t, Options.Lift(Apply, UpdateOptions(tu, cluster, sensor)));
            && r.treeClusterId == (if cluster.Some? then Some(cluster.value.id) else None)
            && r.sensorId == (if sensor.Some? then Some(sensor.value.id) else None)
            && r.plantingYear == tu.plantingYear && r.species == tu.species && r.number == tu.number
            && r.latitude == tu.latitude && r.longitude == tu.longitude && r.description == tu.description
            && r.id == t.id && r.readonly == t.readonly && r.wateringStatus == t.wateringStatus && r.images == t.images
  {
    Options.ApplyAllLift(Apply, t, UpdateOptions(tu, cluster, sensor));
    UpdateFoldSetsFields(t, tu, cluster, sensor);
  }

  lemma UpdateFoldSetsFields(t: Tree, tu: TreeUpdate, cluster: Option<TreeCluster>, sensor: Option<Sensor>)
    ensures var r := Options.Fold(Apply, t, UpdateOptions(tu, cluster, sensor));
            && r.treeClusterId == (if cluster.Some? then Some(cluster.value.id) else None)
            && r.sensorId == (if sensor.Some? then Some(sensor.value.id) else None)
            && r.plantingYear == tu.plantingYear && r.species == tu.species && r.number == tu.number
            && r.latitude == tu.latitude && r.longitude == tu.longitude && r.description == tu.description
            && r.id == t.id && r.readonly == t.readonly && r.wateringStatus == t.wateringStatus && r.images == t.images
  {
    var links := [WithTreeCluster(cluster), WithSensor(sensor)];
    var plain := PlainOptions(tu);
    assert UpdateOptions(tu, cluster, sensor) == links + plain;
    Options.FoldAppend(Apply, t, links, plain);
    assert links[1..][0] == links[1] && links[1..][1..] == [];
    var u1 := Apply(t, links[0]);
    var u := Apply(u1, links[1]);
    assert Options.Fold(Apply, t, links) == Options.Fold(Apply, u1, links[1..]);
    assert Options.Fold(Apply, u1, links[1..]) == Options.Fold(Apply, u, []);
    PlainFoldSetsFields(u, tu);
  }

  /** The six plain options of `Update`. */
  function PlainOptions(tu: TreeUpdate): (o: seq<TreeOption>)
    ensures |o| == 6
  {
    [WithPlantingYear(tu.plantingYear), WithSpecies(tu.species), WithNumber(tu.number),
     WithLatitude(tu.latitude), WithLongitude(tu.longitude), WithDescription(tu.description)]
  }

  lemma PlainFoldSetsFields(u: Tree, tu: TreeUpdate)
    ensures var r := Options.Fold(Apply, u, PlainOptions(tu));
            && r.plantingYear == tu.plantingYear && r.species == tu.species && r.number == tu.number
            && r.latitude == tu.latitude && r.longitude == tu.longitude && r.description == tu.description
            && r.id == u.id && r.readonly == u.readonly && r.wateringStatus == u.wateringStatus && r.images == u.images
            && r.treeClusterId == u.treeClusterId && r.sensorId == u.sensorId
  {
    var o := PlainOptions(tu);
    FoldSix(u, o);
    var u1 := Apply(u, o[0]);
    var u2 := Apply(u1, o[1]);
    var u3 := Apply(u2, o[2]);
    var u4 := Apply(u3, o[3]);
    var u5 := Apply(u4, o[4]);
    assert u5 == u.(plantingYear := tu.plantingYear, species := tu.species, number := tu.number,
                    latitude := tu.latitude, longitude := tu.longitude);
  }

  /** `Delete` once the tree `prev` has been read: the repository delete, mapped by
      `handleError` when it fails, and one event carrying the deleted tree. */
  function DeleteAfterLookup(s: State, id: int, prev: Tree, deleteFault: Option<Failure>): (o: Outcome<()>)
    ensures o.result.Err? ==> o.state == s
    ensures o.result.Ok? <==> deleteFault.None?
    ensures deleteFault.Some? ==> o.result == Err(HandleError(deleteFault.value))
    ensures o.result.Ok? ==>
              && o.state.trees.trees.Keys == s.trees.trees.Keys - {id}
              && (forall k :: k in o.state.trees.trees ==> o.state.trees.trees[k] == s.trees.trees[k])
              && o.state.events == s.events + [DeleteTree(prev)]
              && o.state.clusters == s.clusters && o.state.sensors == s.sensors
  {
    match deleteFault
    case Some(e) => Outcome(s, Err(HandleError(e)))
    case None =>
      Outcome(s.(trees := TreeRepo.Db(s.trees.trees - {id}), events := s.events + [DeleteTree(prev)]), Ok(()))
  }

  /** `Delete` as written: the lookup failure, already mapped, is mapped again. */
  function DeleteAsWritten(s: State, id: int, deleteFault: Option<Failure>): (o: Outcome<()>)
    ensures o.result.Err? ==> o.state == s
    ensures id !in s.trees.trees ==> o.result == Err(HandleError(GetById(s, id).error))
    ensures id in s.trees.trees ==> o == DeleteAfterLookup(s, id, s.trees.trees[id], deleteFault)
  {
    match GetById(s, id)
    case Err(e) => Outcome(s, Err(HandleError(e)))
    case Ok(prev) => DeleteAfterLookup(s, id, prev, deleteFault)
  }

  /** `Delete`: a missing tree is a 404 with nothing deleted and nothing published;
      otherwise the tree is deleted and its last state published. */
  function Delete(s: State, id: int, deleteFault: Option<Failure>): (o: Outcome<()>)
    ensures o.result.Err? ==> o.state == s
    ensures id !in s.trees.trees ==> o.result == Err(ServiceError(Service.NotFound, SentinelText(TreeNotFound)))
    ensures id in s.trees.trees ==> o == DeleteAfterLookup(s, id, s.trees.trees[id], deleteFault)
  {
    match GetById(s, id)
    case Err(e) => Outcome(s, Err(e))
    case Ok(prev) => DeleteAfterLookup(s, id, prev, deleteFault)
  }

  /** For a tree that does not exist, `Delete` and `Update` as written answer 500 with
      the text "404: tree not found" instead of a 404. */
  lemma MissingTreeAsWrittenIsInternalError(s: State, id: int, tu: TreeUpdate, deleteFault: Option<Failure>, fault: Option<Fault>)
    requires id !in s.trees.trees
    ensures DeleteAsWritten(s, id, deleteFault).result == Err(ServiceError(Service.InternalError, "404: tree not found"))
    ensures UpdateAsWritten(s, id, tu, None, fault).result == Err(ServiceError(Service.InternalError, "404: tree not found"))
    ensures Delete(s, id, deleteFault).result == Err(ServiceError(Service.NotFound, "tree not found"))
  {
    var e := Service.NewError(Service.NotFound, SentinelText(TreeNotFound));
    HandleErrorRemapsServiceErrors(e);
    NotFoundRendering();
  }

  /** The not-found service error renders with its status code in front. */
  lemma NotFoundRendering()
    ensures Service.Render(Service.NewError(Service.NotFound, SentinelText(TreeNotFound))) == "404: tree not found"
  {
    assert Service.DecimalText(4) == "4";
    assert Service.DecimalText(40) == Service.DecimalText(4) + "0";
    assert Service.DecimalText(404) == Service.DecimalText(40) + "4";
    assert Service.DecimalText(404) == "404";
    assert "404" + ": " + "tree not found" == "404: tree not found";
  }

  // ---------------------------------------------------------------------------
  // New sensor data

  /** The watering-status calculation (its file is not part of this model). */
  type StatusCalculation = (int, seq<Watermark>) -> WateringStatus

  /** `HandleNewSensorData`: the tree holding the sensor (`bySensor`, the repository's
      answer) gets the status computed from its planting year and the new readings. A
      failed lookup or an unchanged status ends the handling with nothing written and
      nothing published; otherwise the update runs and one event is published with the
      updated tree, or with none when the update failed. The handler never fails. */
  function HandleNewSensorData(s: State, watermarks: seq<Watermark>, bySensor: Result<Tree, Failure>,
                               calculate: StatusCalculation, fault: Option<Fault>): (r: (State, Option<Failure>))
    ensures r.1.None?
    ensures bySensor.Err? ==> r.0 == s
    ensures bySensor.Ok? && calculate(bySensor.value.plantingYear, watermarks) == bySensor.value.wateringStatus ==> r.0 == s
    ensures bySensor.Ok? && calculate(bySensor.value.plantingYear, watermarks) != bySensor.value.wateringStatus ==>
              var t := bySensor.value;
              var repo := TreeRepo.Update(s.trees, t.id, Options.Lift(Apply, [WithWateringStatus(calculate(t.plantingYear, watermarks))]), fault);
              && r.0.trees == repo.db
              && r.0.events == s.events + [UpdateTree(t, if repo.result.Ok? then Some(repo.result.value) else None)]
              && r.0.clusters == s.clusters && r.0.sensors == s.sensors
  {
    match bySensor
    case Err(_) => (s, None)
    case Ok(t) =>
      var status := calculate(t.plantingYear, watermarks);
      if status == t.wateringStatus then (s, None)
      else
        var repo := TreeRepo.Update(s.trees, t.id, Options.Lift(Apply, [WithWateringStatus(status)]), fault);
        var updated := if repo.result.Ok? then Some(repo.result.value) else None;
        (s.(trees := repo.db, events := s.events + [UpdateTree(t, updated)]), None)
  }

  /** When the new readings change the status of a stored tree and the write succeeds,
      the stored tree has the new status and nothing else of it changes. */
  lemma NewSensorDataSetsStatus(s: State, watermarks: seq<Watermark>, t: Tree, calculate: StatusCalculation)
    requires t.id in s.trees.trees && s.trees.trees[t.id].id == t.id
    requires calculate(t.plantingYear, watermarks) != t.wateringStatus
    ensures var r := HandleNewSensorData(s, watermarks, Ok(t), calculate, None);
            r.0.trees.trees[t.id] == s.trees.trees[t.id].(wateringStatus := calculate(t.plantingYear, watermarks))
  {
    var status := calculate(t.plantingYear, watermarks);
    var fns := Options.Lift(Apply, [WithWateringStatus(status)]);
    var stored := s.trees.trees[t.id];
    assert fns[1..] == [];
    assert Options.ApplyAll(stored, fns) == stored.(wateringStatus := status);
    var repo := TreeRepo.Update(s.trees, t.id, fns, None);
    assert Issue(TreeRepo.EntityWrites(stored.(wateringStatus := status)), None).error.None?;
    assert TreeRepo.Written(s.trees, repo.db, t.id, stored.(wateringStatus := status), false);
  }
}

=== FILE: vehicle_repo.dfy ===
/** Creating a vehicle in the store (internal/storage/postgres/vehicle/create.go). The
    vehicle options are opaque entity functions, applied in order. */
module VehicleRepo {
  import opened Wrappers
  import opened Entities
  import opened Errors
  import Options
  import opened Store

  datatype Db = Db(vehicles: map<int, Vehicle>, nextId: int)

  /** The default vehicle: no plate, no description, no water capacity; every other
      field at its zero value. */
  function DefaultVehicle(): (v: Vehicle)
    ensures v.numberPlate == "" && v.description == "" && v.waterCapacity == 0.0
  {
    Vehicle(0, "", "", 0.0, VehicleType(""), "", "", 0.0, 0.0, 0.0, "")
  }

  const CapacityMessage := "water capacity is required and can not be 0"
  const PlateMessage := "number plate is required"

  /** The row the insert writes: only plate, description and capacity come from the
      entity; every other column takes the table's default. */
  function InsertedRow(v: Vehicle, id: int, columnDefaults: Vehicle): (row: Vehicle)
    ensures row.id == id
    ensures row.numberPlate == v.numberPlate && row.description == v.description
    ensures row.waterCapacity == v.waterCapacity
    ensures row.(numberPlate := "", description := "", waterCapacity := 0.0)
            == columnDefaults.(id := id, numberPlate := "", description := "", waterCapacity := 0.0)
  {
    columnDefaults.(id := id, numberPlate := v.numberPlate, description := v.description, waterCapacity := v.waterCapacity)
  }

  /** `Create`: the options run on the default vehicle; a zero capacity is rejected
      first, then an empty plate, with no write; a failing insert writes nothing;
      otherwise the row gets the next id and is read back. */
  function Create(db: Db, opts: seq<Vehicle -> Vehicle>, columnDefaults: Vehicle, insertFault: Option<Failure>): (o: Outcome<Db, Vehicle>)
    ensures o.Done?
    ensures o.result.Err? ==> o.db == db
    ensures var v := Options.ApplyAll(DefaultVehicle(), opts);
            && (v.waterCapacity == 0.0 ==> o.result == Err(Plain(CapacityMessage)))
            && (v.waterCapacity != 0.0 && v.numberPlate == "" ==> o.result == Err(Plain(PlateMessage)))
            && (o.result.Ok? <==> v.waterCapacity != 0.0 && v.numberPlate != "" && insertFault.None?)
            && (o.result.Ok? ==>
                  && o.result.value == InsertedRow(v, db.nextId, columnDefaults)
                  && o.db == Db(db.vehicles[db.nextId := o.result.value], db.nextId + 1))
  {
    var v := Options.ApplyAll(DefaultVehicle(), opts);
    if v.waterCapacity == 0.0 then Done(db, Err(Plain(CapacityMessage)))
    else if v.numberPlate == "" then Done(db, Err(Plain(PlateMessage)))
    else match insertFault
      case Some(e) => Done(db, Err(e))
      case None =>
        var row := InsertedRow(v, db.nextId, columnDefaults);
        Done(Db(db.vehicles[db.nextId := row], db.nextId + 1), Ok(row))
  }

  /** Two option lists that agree on plate, description and capacity create the same
      vehicle: nothing else reaches the insert. */
  lemma CreateSeesOnlyThreeFields(db: Db, a: seq<Vehicle -> Vehicle>, b: seq<Vehicle -> Vehicle>,
                                  columnDefaults: Vehicle, insertFault: Option<Failure>)
    requires var va := Options.ApplyAll(DefaultVehicle(), a);
             var vb := Options.ApplyAll(DefaultVehicle(), b);
             va.numberPlate == vb.numberPlate && va.description == vb.description && va.waterCapacity == vb.waterCapacity
    ensures Create(db, a, columnDefaults, insertFault) == Create(db, b, columnDefaults, insertFault)
  {
  }
}

=== FILE: vehicle_service.dfy ===
/** The vehicle service (internal/service/domain/vehicle/vehicle.go): it validates a
    request, refuses a number plate some vehicle already has, and maps the repository's
    errors to service errors. */
module VehicleService {
  import opened Wrappers
  import opened Entities
  import opened Errors
  import Service
  import Options
  import opened Store
  import VehicleRepo

  datatype VehicleOption =
    | WithNumberPlate(numberPlate: string)
    | WithDescription(description: string)
    | WithWaterCapacity(waterCapacity: real)
    | WithVehicleStatus(status: string)
    | WithVehicleType(vehicleType: VehicleType)
    | WithHeight(height: real)
    | WithLength(length: real)
    | WithModel(model: string)
    | WithWidth(width: real)
    | WithDrivingLicense(drivingLicense: string)

  /** One option sets one field of the vehicle. */
  function Apply(v: Vehicle, o: VehicleOption): Vehicle {
    match o
    case WithNumberPlate(p) => v.(numberPlate := p)
    case WithDescription(d) => v.(description := d)
    case WithWaterCapacity(c) => v.(waterCapacity := c)
    case WithVehicleStatus(st) => v.(status := st)
    case WithVehicleType(t) => v.(vehicleType := t)
    case WithHeight(h) => v.(height := h)
    case WithLength(l) => v.(length := l)
    case WithModel(m) => v.(model := m)
    case WithWidth(w) => v.(width := w)
    case WithDrivingLicense(d) => v.(drivingLicense := d)
  }

  /** The fields of a create or update request. */
  datatype VehicleRequest = VehicleRequest(
    numberPlate: string,
    description: string,
    waterCapacity: real,
    status: string,
    vehicleType: VehicleType,
    height: real,
    length: real,
    model: string,
    width: real,
    drivingLicense: string)

  /** The ten options `Create` and `Update` pass, in the order they pass them. */
  function RequestOptions(r: VehicleRequest): seq<VehicleOption> {
    [WithNumberPlate(r.numberPlate), WithDescription(r.description), WithWaterCapacity(r.waterCapacity)]
    + OtherOptions(r)
  }

  function OtherOptions(r: VehicleRequest): seq<VehicleOption> {
    [WithVehicleStatus(r.status), WithVehicleType(r.vehicleType), WithHeight(r.height), WithLength(r.length),
     WithModel(r.model), WithWidth(r.width), WithDrivingLicense(r.drivingLicense)]
  }

  // ---------------------------------------------------------------------------
  // Errors

  /** `handleError`: anything that is `ErrEntityNotFound` becomes 404 with the
      vehicle-not-found text, everything else 500 with its own text. */
  function HandleError(err: Failure): (e: Failure)
    ensures e.ServiceFailure?
    ensures e.error.code == Service.NotFound <==> Is(err, EntityNotFound)
    ensures e.error.code == Service.InternalError <==> !Is(err, EntityNotFound)
    ensures e.error.message == if Is(err, EntityNotFound) then SentinelText(VehicleNotFound) else Message(err)
  {
    if Is(err, EntityNotFound) then ServiceError(Service.NotFound, SentinelText(VehicleNotFound))
    else ServiceError(Service.InternalError, Message(err))
  }

  const PlateTaken := ServiceError(Service.BadRequest, "Number plate is already taken")

  // ---------------------------------------------------------------------------
  // Plate check

  /** The ids of the vehicles with the given plate. */
  function Holders(db: VehicleRepo.Db, plate: string): (ids: set<int>)
    ensures forall k :: k in ids <==> k in db.vehicles && db.vehicles[k].numberPlate == plate
  {
    set k | k in db.vehicles && db.vehicles[k].numberPlate == plate
  }

  /** `isVehicleNumberPlateTaken`: the plate lookup (`lookupFault` is a failure of the
      query itself); a not-found answer means the plate is free, any other failure is
      mapped by `handleError`. */
  function IsPlateTaken(db: VehicleRepo.Db, plate: string, lookupFault: Option<Failure>): (r: Result<bool, Failure>)
    ensures lookupFault.None? ==> r == Ok(Holders(db, plate) != {})
    ensures lookupFault.Some? && Is(lookupFault.value, EntityNotFound) ==> r == Ok(false)
    ensures lookupFault.Some? && !Is(lookupFault.value, EntityNotFound) ==> r == Err(HandleError(lookupFault.value))
  {
    var lookup: Result<int, Failure> :=
      if lookupFault.Some? then Err(lookupFault.value)
      else if Holders(db, plate) != {} then Ok(0)
      else Err(Sentinel(EntityNotFound));
    match lookup
    case Err(e) => if Is(e, EntityNotFound) then Ok(false) else Err(HandleError(e))
    case Ok(_) => Ok(true)
  }

  // ---------------------------------------------------------------------------
  // Create

  /** `Create`: validation (a 400), then the plate check (its error, or a 400 when the
      plate is held), then the repository create, whose failure is mapped. Nothing is
      written unless the repository create succeeds. */
  function Create(db: VehicleRepo.Db, req: VehicleRequest, invalid: Option<string>, plateFault: Option<Failure>,
                  columnDefaults: Vehicle, insertFault: Option<Failure>): (o: (VehicleRepo.Db, Result<Vehicle, Failure>))
    ensures o.1.Err? ==> o.0 == db
    ensures invalid.Some? ==> o.1 == Err(ValidationError(invalid.value))
    ensures invalid.None? && IsPlateTaken(db, req.numberPlate, plateFault) == Ok(true) ==> o.1 == Err(PlateTaken)
    ensures var repo := VehicleRepo.Create(db, Options.Lift(Apply, RequestOptions(req)), columnDefaults, insertFault);
            && (o.1.Ok? <==> invalid.None? && IsPlateTaken(db, req.numberPlate, plateFault) == Ok(false) && repo.result.Ok?)
            && (o.1.Ok? ==> o == (repo.db, repo.result))
            && (invalid.None? && IsPlateTaken(db, req.numberPlate, plateFault) == Ok(false) && repo.result.Err? ==>
                  o.1 == Err(HandleError(repo.result.error)))
  {
    if invalid.Some? then (db, Err(ValidationError(invalid.value)))
    else match IsPlateTaken(db, req.numberPlate, plateFault)
      case Err(e) => (db, Err(e))
      case Ok(taken) =>
        if taken then (db, Err(PlateTaken))
        else
          var repo := VehicleRepo.Create(db, Options.Lift(Apply, RequestOptions(req)), columnDefaults, insertFault);
          match repo.result
          case Err(e) => (db, Err(HandleError(e)))
          case Ok(v) => (repo.db, Ok(v))
  }

  /** A created vehicle has the request's plate, description and capacity, under the
      next id; its type, status, model, sizes and licence are the store's column
      defaults, whatever the request says, because the insert takes only those three. */
  lemma CreatedVehicleFields(db: VehicleRepo.Db, req: VehicleRequest, plateFault: Option<Failure>,
                             columnDefaults: Vehicle, insertFault: Option<Failure>)
    requires Create(db, req, None, plateFault, columnDefaults, insertFault).1.Ok?
    ensures var v := Create(db, req, None, plateFault, columnDefaults, insertFault).1.value;
            && v.id == db.nextId
            && v.numberPlate == req.numberPlate && v.description == req.description && v.waterCapacity == req.waterCapacity
            && v.vehicleType == columnDefaults.vehicleType && v.status == columnDefaults.status
            && v.model == columnDefaults.model && v.drivingLicense == columnDefaults.drivingLicense
  {
    Options.ApplyAllLift(Apply, VehicleRepo.DefaultVehicle(), RequestOptions(req));
    RequestSetsStoredFields(VehicleRepo.DefaultVehicle(), req);
  }

  /** Whatever vehicle the request's options are applied to, the three stored fields
      come from the request. */
  lemma RequestSetsStoredFields(v: Vehicle, req: VehicleRequest)
    ensures var r := Options.Fold(Apply, v, RequestOptions(req));
            r.numberPlate == req.numberPlate && r.description == req.description && r.waterCapacity == req.waterCapacity
  {
    var first := [WithNumberPlate(req.numberPlate), WithDescription(req.description), WithWaterCapacity(req.waterCapacity)];
    Options.FoldAppend(Apply, v, first, OtherOptions(req));
    var v1 := Apply(v, first[0]);
    var v2 := Apply(v1, first[1]);
    var v3 := Apply(v2, first[2]);
    assert first[1..][0] == first[1] && first[1..][1..] == first[2..];
    assert first[2..][0] == first[2] && first[2..][1..] == [];
    assert Options.Fold(Apply, v, first) == Options.Fold(Apply, v1, first[1..]);
    assert Options.Fold(Apply, v1, first[1..]) == Options.Fold(Apply, v2, first[2..]);
    assert Options.Fold(Apply, v2, first[2..]) == Options.Fold(Apply, v3, []);
    FoldKeepsStoredFields(v3, OtherOptions(req));
  }

  /** The option touches one of the three fields the insert stores. */
  predicate SetsStoredField(o: VehicleOption) {
    o.WithNumberPlate? || o.WithDescription? || o.WithWaterCapacity?
  }

  lemma {:induction false} FoldKeepsStoredFields(v: Vehicle, opts: seq<VehicleOption>)
    requires forall i :: 0 <= i < |opts| ==> !SetsStoredField(opts[i])
    ensures var r := Options.Fold(Apply, v, opts);
            r.numberPlate == v.numberPlate && r.description == v.description && r.waterCapacity == v.waterCapacity
    decreases |opts|
  {
    if |opts| > 0 {
      assert !SetsStoredField(opts[0]);
      FoldKeepsStoredFields(Apply(v, opts[0]), opts[1..]);
    }
  }

  // ---------------------------------------------------------------------------
  // Update and delete

  /** The repository's update (its file is not part of this model). */
  type RepoUpdate = (VehicleRepo.Db, int, seq<VehicleOption>) -> Result<(VehicleRepo.Db, Vehicle), Failure>

  /** `Update` after the plate check has decided `taken`. */
  function UpdateAfterCheck(db: VehicleRepo.Db, id: int, req: VehicleRequest, taken: Result<bool, Failure>,
                            update: RepoUpdate): (o: (VehicleRepo.Db, Result<Vehicle, Failure>))
    ensures o.1.Err? ==> o.0 == db
    ensures taken.Err? ==> o.1 == Err(taken.error)
    ensures taken == Ok(true) ==> o.1 == Err(PlateTaken)
    ensures taken == Ok(false) ==>
              match update(db, id, RequestOptions(req))
              case Err(e) => o.1 == Err(HandleError(e))
              case Ok((db', v)) => o == (db', Ok(v))
  {
    match taken
    case Err(e) => (db, Err(e))
    case Ok(true) => (db, Err(PlateTaken))
    case Ok(false) =>
      match update(db, id, RequestOptions(req))
      case Err(e) => (db, Err(HandleError(e)))
      case Ok((db', v)) => (db', Ok(v))
  }

  /** `Update` as written: after validation and the lookup of the vehicle, any vehicle
      holding the requested plate, the updated one included, makes the request fail. */
  function UpdateAsWritten(db: VehicleRepo.Db, id: int, req: VehicleRequest, invalid: Option<string>,
                           plateFault: Option<Failure>, update: RepoUpdate): (o: (VehicleRepo.Db, Result<Vehicle, Failure>))
    ensures o.1.Err? ==> o.0 == db
    ensures invalid.Some? ==> o.1 == Err(ValidationError(invalid.value))
    ensures invalid.None? && id !in db.vehicles ==> o.1 == Err(ServiceError(Service.NotFound, SentinelText(VehicleNotFound)))
    ensures invalid.None? && id in db.vehicles ==>
              o == UpdateAfterCheck(db, id, req, IsPlateTaken(db, req.numberPlate, plateFault), update)
  {
    if invalid.Some? then (db, Err(ValidationError(invalid.value)))
    else if id !in db.vehicles then (db, Err(HandleError(Sentinel(EntityNotFound))))
    else UpdateAfterCheck(db, id, req, IsPlateTaken(db, req.numberPlate, plateFault), update)
  }

  /** The plate check as `Update` needs it: the plate is taken only when a vehicle other
      than the updated one holds it. */
  function IsPlateTakenByOther(db: VehicleRepo.Db, id: int, plate: string, lookupFault: Option<Failure>): (r: Result<bool, Failure>)
    ensures lookupFault.None? ==> r == Ok(Holders(db, plate) - {id} != {})
    ensures lookupFault.Some? ==> r == IsPlateTaken(db, plate, lookupFault)
  {
    match IsPlateTaken(db, plate, lookupFault)
    case Err(e) => Err(e)
    case Ok(taken) => Ok(taken && Holders(db, plate) - {id} != {})
  }

  /** `Update`: as written, but a vehicle keeping its own plate passes the check. */
  function Update(db: VehicleRepo.Db, id: int, req: VehicleRequest, invalid: Option<string>,
                  plateFault: Option<Failure>, update: RepoUpdate): (o: (VehicleRepo.Db, Result<Vehicle, Failure>))
    ensures o.1.Err? ==> o.0 == db
    ensures invalid.Some? ==> o.1 == Err(ValidationError(invalid.value))
    ensures invalid.None? && id !in db.vehicles ==> o.1 == Err(ServiceError(Service.NotFound, SentinelText(VehicleNotFound)))
    ensures invalid.None? && id in db.vehicles ==>
              o == UpdateAfterCheck(db, id, req, IsPlateTakenByOther(db, id, req.numberPlate, plateFault), update)
  {
    if invalid.Some? then (db, Err(ValidationError(invalid.value)))
    else if id !in db.vehicles then (db, Err(HandleError(Sentinel(EntityNotFound))))
    else UpdateAfterCheck(db, id, req, IsPlateTakenByOther(db, id, req.numberPlate, plateFault), update)
  }

  /** An update that keeps the vehicle's own plate: as written it is refused as a taken
      plate; corrected, it reaches the repository when no other vehicle has the plate. */
  lemma UpdateKeepingOwnPlate(db: VehicleRepo.Db, id: int, req: VehicleRequest, update: RepoUpdate)
    requires id in db.vehicles && db.vehicles[id].numberPlate == req.numberPlate
    ensures UpdateAsWritten(db, id, req, None, None, update).1 == Err(PlateTaken)
    ensures Holders(db, req.numberPlate) == {id} ==>
              Update(db, id, req, None, None, update) == UpdateAfterCheck(db, id, req, Ok(false), update)
  {
    assert id in Holders(db, req.numberPlate);
    if Holders(db, req.numberPlate) == {id} {
      assert Holders(db, req.numberPlate) - {id} == {};
    }
  }

  /** `Delete`: a missing vehicle is a 404 with no delete; a failing delete is mapped;
      otherwise the vehicle is removed and nothing else changes. */
  function Delete(db: VehicleRepo.Db, id: int, deleteFault: Option<Failure>): (o: (VehicleRepo.Db, Option<Failure>))
    ensures o.1.Some? ==> o.0 == db
    ensures id !in db.vehicles ==> o.1 == Some(ServiceError(Service.NotFound, SentinelText(VehicleNotFound)))
    ensures id in db.vehicles && deleteFault.Some? ==> o.1 == Some(HandleError(deleteFault.value))
    ensures o.1.None? <==> id in db.vehicles && deleteFault.None?
    ensures o.1.None? ==> o.0.vehicles.Keys == db.vehicles.Keys - {id} && o.0.nextId == db.nextId
                          && forall k :: k in o.0.vehicles ==> o.0.vehicles[k] == db.vehicles[k]
  {
    if id !in db.vehicles then (db, Some(HandleError(Sentinel(EntityNotFound))))
    else match deleteFault
      case Some(e) => (db, Some(HandleError(e)))
      case None => (VehicleRepo.Db(db.vehicles - {id}, db.nextId), None)
  }
}

=== FILE: vroom.dfy ===
/** The vroom client (internal/storage/routing/vroom/vroom.go): its configuration built
    from functional options, and the request it builds. `Send` is HTTP and appears only
    as a parameter. */
module Vroom {
  import opened Wrappers
  import opened Entities
  import opened Errors
  import Options
  import opened Routing

  /** Water one cluster needs, as shipment amount. */
  const TreeAmount: int := 40

  /** The HTTP client the config holds: the library default or some other one. */
  datatype HttpClient = DefaultHttpClient | CustomHttpClient(handle: nat)

  /** `VroomClientConfig`; nil pointers are `None`, nil slices empty. */
  datatype Config = Config(
    url: Option<string>,
    client: Option<HttpClient>,
    startPoint: Point,
    endPoint: Point,
    wateringPoint: Point)

  datatype VroomClient = VroomClient(cfg: Config)

  /** The default config: only the HTTP client is set. */
  const DefaultConfig: Config := Config(None, Some(DefaultHttpClient), [], [], [])

  /** The `With*` options. */
  datatype ClientOption =
    | WithClient(client: Option<HttpClient>)
    | WithHostUrl(url: Option<string>)
    | WithStartPoint(point: Point)
    | WithEndPoint(point: Point)
    | WithWateringPoint(point: Point)

  datatype ConfigField = UrlField | ClientField | StartField | EndField | WateringField

  datatype FieldValue = UrlValue(url: Option<string>) | ClientValue(client: Option<HttpClient>) | PointValue(point: Point)

  function Get(cfg: Config, f: ConfigField): FieldValue {
    match f
    case UrlField => UrlValue(cfg.url)
    case ClientField => ClientValue(cfg.client)
    case StartField => PointValue(cfg.startPoint)
    case EndField => PointValue(cfg.endPoint)
    case WateringField => PointValue(cfg.wateringPoint)
  }

  /** The field an option sets. */
  function Target(o: ClientOption): ConfigField {
    match o
    case WithClient(_) => ClientField
    case WithHostUrl(_) => UrlField
    case WithStartPoint(_) => StartField
    case WithEndPoint(_) => EndField
    case WithWateringPoint(_) => WateringField
  }

  /** The value an option stores. */
  function Value(o: ClientOption): FieldValue {
    match o
    case WithClient(c) => ClientValue(c)
    case WithHostUrl(u) => UrlValue(u)
    case WithStartPoint(p) => PointValue(p)
    case WithEndPoint(p) => PointValue(p)
    case WithWateringPoint(p) => PointValue(p)
  }

  /** Running one option: its own field takes its value and every other field keeps
      its value. */
  function Apply(cfg: Config, o: ClientOption): (r: Config)
    ensures Get(r, Target(o)) == Value(o)
    ensures forall f :: f != Target(o) ==> Get(r, f) == Get(cfg, f)
  {
    match o
    case WithClient(c) => cfg.(client := c)
    case WithHostUrl(u) => cfg.(url := u)
    case WithStartPoint(p) => cfg.(startPoint := p)
    case WithEndPoint(p) => cfg.(endPoint := p)
    case WithWateringPoint(p) => cfg.(wateringPoint := p)
  }

  function AsFunction(o: ClientOption): Config -> Config {
    cfg => Apply(cfg, o)
  }

  function AsFunctions(opts: seq<ClientOption>): (fns: seq<Config -> Config>)
    ensures |fns| == |opts|
    ensures forall i :: 0 <= i < |opts| ==> fns[i] == AsFunction(opts[i])
  {
    seq(|opts|, i requires 0 <= i < |opts| => AsFunction(opts[i]))
  }

  /** `NewVroomClient`: the default config with the options run in order. */
  function NewVroomClient(opts: seq<ClientOption>): VroomClient {
    VroomClient(Options.ApplyAll(DefaultConfig, AsFunctions(opts)))
  }

  /** The last option among `opts` that sets `f`, if any. */
  function LastSetter(opts: seq<ClientOption>, f: ConfigField): (r: Option<ClientOption>)
    ensures r.Some? ==> r.value in opts && Target(r.value) == f
    ensures r.None? <==> forall i :: 0 <= i < |opts| ==> Target(opts[i]) != f
    decreases |opts|
  {
    if |opts| == 0 then None
    else if Target(opts[|opts| - 1]) == f then Some(opts[|opts| - 1])
    else LastSetter(opts[..|opts| - 1], f)
  }

  lemma NewVroomClientSnoc(opts: seq<ClientOption>, o: ClientOption)
    ensures NewVroomClient(opts + [o]).cfg == Apply(NewVroomClient(opts).cfg, o)
  {
    assert AsFunctions(opts + [o]) == AsFunctions(opts) + [AsFunction(o)];
    Options.ApplyAllLast(DefaultConfig, AsFunctions(opts), AsFunction(o));
  }

  /** Later options override earlier ones: each field holds the value of the last
      option that sets it, or its default when none does. */
  lemma {:induction false} NewVroomClientLastWins(opts: seq<ClientOption>, f: ConfigField)
    ensures Get(NewVroomClient(opts).cfg, f)
            == match LastSetter(opts, f)
               case Some(o) => Value(o)
               case None => Get(DefaultConfig, f)
    decreases |opts|
  {
    if |opts| == 0 {
      assert AsFunctions(opts) == [];
    } else {
      var init := opts[..|opts| - 1];
      var o := opts[|opts| - 1];
      assert init + [o] == opts;
      NewVroomClientSnoc(init, o);
      NewVroomClientLastWins(init, f);
    }
  }

  /** Only the unknown type fails; every known type drives the car profile. */
  function ToOrsVehicleType(t: VehicleType): (r: Result<string, Failure>)
    ensures r.Ok? <==> t != VehicleTypeUnknown
    ensures r.Err? ==> r.error == Sentinel(UnknownVehicleType)
    ensures r.Ok? ==> r.value == "driving-car"
  {
    if t == VehicleTypeUnknown then Err(Sentinel(UnknownVehicleType)) else Ok("driving-car")
  }

  /** `toVroomVehicle`: fails exactly for an unknown type; otherwise copies id and
      description and uses the configured start and end. */
  function ToVroomVehicle(client: VroomClient, vehicle: Vehicle, truncate: real -> int): (r: Result<VroomVehicle, Failure>)
    ensures r.Ok? <==> vehicle.vehicleType != VehicleTypeUnknown
    ensures r.Err? ==> r.error == Sentinel(UnknownVehicleType)
    ensures r.Ok? ==>
              && r.value.id == vehicle.id
              && r.value.description == vehicle.description
              && r.value.profile == "driving-car"
              && r.value.start == client.cfg.startPoint && r.value.end == client.cfg.endPoint
              && r.value.capacity == [truncate(vehicle.waterCapacity)]
  {
    match ToOrsVehicleType(vehicle.vehicleType)
    case Err(e) => Err(e)
    case Ok(profile) =>
      Ok(VroomVehicle(vehicle.id, vehicle.description, profile, client.cfg.startPoint, client.cfg.endPoint,
                      [truncate(vehicle.waterCapacity)]))
  }

  /** Located clusters become shipments numbered 0/1, 2/3, ..., each of 40 units picked
      up, without a description, at the configured watering point. */
  function ToVroomShipments(client: VroomClient, clusters: seq<TreeCluster>): (r: seq<VroomShipment>)
    ensures |r| == |Located(clusters)|
    ensures forall k :: 0 <= k < |r| ==>
              var c := Located(clusters)[k];
              && r[k].amount == [40]
              && r[k].pickup == VroomShipmentStep("", 2 * k, client.cfg.wateringPoint)
              && r[k].delivery == VroomShipmentStep(c.name, 2 * k + 1, [c.longitude.value, c.latitude.value])
  {
    ShipmentsFor(clusters, TreeAmount, "", client.cfg.wateringPoint)
  }

  /** `OptimizeRoute`: an unknown vehicle type fails before anything is sent; otherwise
      the answer of `send` for the one vehicle and the shipments is returned. */
  function OptimizeRoute(client: VroomClient, vehicle: Vehicle, clusters: seq<TreeCluster>, truncate: real -> int,
                         send: VroomRequest -> Result<VroomResponse, Failure>): (r: Result<VroomResponse, Failure>)
    ensures vehicle.vehicleType == VehicleTypeUnknown ==> r == Err(Sentinel(UnknownVehicleType))
    ensures vehicle.vehicleType != VehicleTypeUnknown ==>
              r == send(VroomRequest([ToVroomVehicle(client, vehicle, truncate).value], ToVroomShipments(client, clusters)))
  {
    match ToVroomVehicle(client, vehicle, truncate)
    case Err(e) => Err(e)
    case Ok(v) => send(VroomRequest([v], ToVroomShipments(client, clusters)))
  }
}

=== FILE: watering_plan_repo.dfy ===
/** Creating a watering plan in the store (internal/storage/postgres/watering_plan/create.go).
    The store is a value; the whole create runs in one transaction, so any failure leaves
    the store as it was. Which write fails, if any, is a parameter. */
module WateringPlanRepo {
  import opened Wrappers
  import opened Entities
  import opened Errors
  import opened WateringPlans
  import opened Store

  /** Water one tree needs, in litres. */
  const WaterPerTree: int := 120

  /** A stored plan row. The status column is always written as planned. */
  datatype PlanRow = PlanRow(
    id: int,
    date: Timestamp,
    description: string,
    distance: Option<real>,
    totalWaterRequired: int,
    status: WateringPlanStatus)

  /** A statement the create issues, in order. */
  datatype Write =
    | InsertPlan(row: PlanRow)
    | LinkUser(planId: int, userId: Uuid)
    | LinkVehicle(planId: int, vehicleId: int)
    | LinkCluster(planId: int, clusterId: int)

  datatype Db = Db(plans: map<int, PlanRow>, nextId: int, links: seq<Write>)

  /** The callback the caller fills the plan in with: it returns whether to create,
      or fails. */
  type CreateFn = WateringPlan -> Result<(bool, WateringPlan), Failure>

  /** `MapClusterFields`: loads a cluster's trees, or fails. */
  type MapClusterFields = TreeCluster -> Option<TreeCluster>

  /** The default plan handed to the callback: planned, dated at the zero time, with zero
      distance and water, and no users, clusters or vehicles. */
  function DefaultWateringPlan(): (p: WateringPlan)
    ensures p.status == Planned && p.date == ZeroTime
    ensures p.userIds == [] && p.treeClusters == []
    ensures p.transporter.None? && p.trailer.None?
    ensures p.distance == Some(0.0) && p.totalWaterRequired == Some(0.0)
  {
    WateringPlan(0, 0, 0, ZeroTime, "", Planned, Some(0.0), Some(0.0), [], [], None, None, "", [])
  }

  predicate TransporterOk(p: WateringPlan) {
    p.transporter.Some? && p.transporter.value.vehicleType == Transporter
  }

  predicate TrailerOk(p: WateringPlan) {
    p.trailer.None? || p.trailer.value.vehicleType == Trailer
  }

  const TransporterMessage := "watering plan requires a valid transporter"
  const TrailerMessage := "trailer vehicle requires a vehicle of type trailer"
  const UsersMessage := "watering plan requires employees"
  const ClustersMessage := "watering plan requires tree cluster"

  /** `validateWateringPlan`: the checks run in the order transporter, trailer, users,
      clusters, and the first failing one decides the error. */
  function ValidateWateringPlan(p: WateringPlan): (r: Option<Failure>)
    ensures r.None? <==> TransporterOk(p) && TrailerOk(p) && |p.userIds| > 0 && |p.treeClusters| > 0
    ensures !TransporterOk(p) ==> r == Some(Plain(TransporterMessage))
    ensures TransporterOk(p) && !TrailerOk(p) ==> r == Some(Plain(TrailerMessage))
    ensures TransporterOk(p) && TrailerOk(p) && |p.userIds| == 0 ==> r == Some(Plain(UsersMessage))
    ensures TransporterOk(p) && TrailerOk(p) && |p.userIds| > 0 && |p.treeClusters| == 0 ==>
              r == Some(Plain(ClustersMessage))
  {
    if !TransporterOk(p) then Some(Plain(TransporterMessage))
    else if !TrailerOk(p) then Some(Plain(TrailerMessage))
    else if |p.userIds| == 0 then Some(Plain(UsersMessage))
    else if |p.treeClusters| == 0 then Some(Plain(ClustersMessage))
    else None
  }

  /** The number of trees over all clusters. */
  function TreeCount(clusters: seq<TreeCluster>): nat
    decreases |clusters|
  {
    if |clusters| == 0 then 0 else |clusters[0].trees| + TreeCount(clusters[1..])
  }

  lemma {:induction false} TreeCountAppend(a: seq<TreeCluster>, b: seq<TreeCluster>)
    ensures TreeCount(a + b) == TreeCount(a) + TreeCount(b)
    decreases |a|
  {
    if |a| == 0 {
      assert a + b == b;
    } else {
      assert (a + b)[1..] == a[1..] + b;
      TreeCountAppend(a[1..], b);
    }
  }

  /** The water of a list of (already loaded) clusters: 120 litres per tree. */
  function RequiredWater(clusters: seq<TreeCluster>): (w: int)
    ensures w >= 0 && w % WaterPerTree == 0
    ensures clusters == [] ==> w == 0
  {
    WaterPerTree * TreeCount(clusters)
  }

  /** Water is additive over clusters. */
  lemma RequiredWaterAppend(a: seq<TreeCluster>, b: seq<TreeCluster>)
    ensures RequiredWater(a + b) == RequiredWater(a) + RequiredWater(b)
  {
    TreeCountAppend(a, b);
  }

  /** Loads every cluster's fields; `None` when one of them fails. */
  function MapAll(clusters: seq<TreeCluster>, load: MapClusterFields): (r: Option<seq<TreeCluster>>)
    ensures r.Some? <==> forall i :: 0 <= i < |clusters| ==> load(clusters[i]).Some?
    ensures r.Some? ==> |r.value| == |clusters| && forall i :: 0 <= i < |clusters| ==> r.value[i] == load(clusters[i]).value
    decreases |clusters|
  {
    if |clusters| == 0 then Some([])
    else match (load(clusters[0]), MapAll(clusters[1..], load))
      case (Some(c), Some(rest)) => Some([c] + rest)
      case _ => None
  }

  /** `calculateRequiredWater`: all clusters are loaded first; any failure gives the
      mapping error, otherwise the water of the loaded clusters. */
  function CalculateRequiredWater(clusters: seq<TreeCluster>, load: MapClusterFields): (r: Result<int, Failure>)
    ensures r.Ok? <==> MapAll(clusters, load).Some?
    ensures r.Err? ==> r.error == Plain("error on mapping treecluster fields")
    ensures r.Ok? ==> r.value == RequiredWater(MapAll(clusters, load).value)
  {
    match MapAll(clusters, load)
    case None => Err(Plain("error on mapping treecluster fields"))
    case Some(loaded) => Ok(RequiredWater(loaded))
  }

  function UserLinks(users: seq<Uuid>, id: int): (r: seq<Write>)
    ensures |r| == |users| && forall i :: 0 <= i < |r| ==> r[i] == LinkUser(id, users[i])
    decreases |users|
  {
    if |users| == 0 then [] else [LinkUser(id, users[0])] + UserLinks(users[1..], id)
  }

  function ClusterLinks(clusters: seq<TreeCluster>, id: int): (r: seq<Write>)
    ensures |r| == |clusters| && forall i :: 0 <= i < |r| ==> r[i] == LinkCluster(id, clusters[i].id)
    decreases |clusters|
  {
    if |clusters| == 0 then [] else [LinkCluster(id, clusters[0].id)] + ClusterLinks(clusters[1..], id)
  }

  /** `setLinkedVehicles`: the transporter always, then the trailer if there is one. */
  function VehicleLinks(p: WateringPlan, id: int): (r: seq<Write>)
    requires p.transporter.Some?
    ensures p.trailer.None? ==> r == [LinkVehicle(id, p.transporter.value.id)]
    ensures p.trailer.Some? ==> r == [LinkVehicle(id, p.transporter.value.id), LinkVehicle(id, p.trailer.value.id)]
  {
    [LinkVehicle(id, p.transporter.value.id)] + if p.trailer.Some? then [LinkVehicle(id, p.trailer.value.id)] else []
  }

  /** The statements of `createEntity` in order: the insert, one link per user, the
      vehicles, one link per cluster. */
  function PlannedWrites(p: WateringPlan, row: PlanRow): (r: seq<Write>)
    requires p.transporter.Some?
    ensures |r| == 1 + |p.userIds| + (if p.trailer.Some? then 2 else 1) + |p.treeClusters|
    ensures r[0] == InsertPlan(row)
    ensures var u := 1 + |p.userIds|;
            var v := u + (if p.trailer.Some? then 2 else 1);
            && r[1..u] == UserLinks(p.userIds, row.id)
            && r[u..v] == VehicleLinks(p, row.id)
            && r[v..] == ClusterLinks(p.treeClusters, row.id)
  {
    [InsertPlan(row)] + UserLinks(p.userIds, row.id) + VehicleLinks(p, row.id) + ClusterLinks(p.treeClusters, row.id)
  }

  /** After the insert come exactly the link statements. */
  lemma PlannedLinks(p: WateringPlan, row: PlanRow)
    requires p.transporter.Some?
    ensures PlannedWrites(p, row)[1..]
            == UserLinks(p.userIds, row.id) + VehicleLinks(p, row.id) + ClusterLinks(p.treeClusters, row.id)
  {
    var links := UserLinks(p.userIds, row.id) + VehicleLinks(p, row.id) + ClusterLinks(p.treeClusters, row.id);
    assert PlannedWrites(p, row) == [InsertPlan(row)] + links;
  }

  /** What `createEntity` did: the statements it issued, and its error if one failed.
      A fault at position 0 hits the insert, at position k the k-th link. */
  datatype EntityWrite = EntityWrite(issued: seq<Write>, row: PlanRow, error: Option<Failure>)

  /** `createEntity`: computes the water, then issues the statements in order and stops at
      the first that fails. The row is always written with status planned. */
  function CreateEntity(db: Db, p: WateringPlan, load: MapClusterFields, fault: Option<Fault>): (r: EntityWrite)
    requires p.transporter.Some?
    ensures r.row.id == db.nextId && r.row.status == Planned
    ensures r.row.date == p.date && r.row.description == p.description && r.row.distance == p.distance
    ensures CalculateRequiredWater(p.treeClusters, load).Err? ==>
              r.issued == [] && r.error == Some(CalculateRequiredWater(p.treeClusters, load).error)
    ensures CalculateRequiredWater(p.treeClusters, load).Ok? ==>
              var planned := PlannedWrites(p, r.row);
              && r.row.totalWaterRequired == CalculateRequiredWater(p.treeClusters, load).value
              && (r.error.None? <==> fault.None? || fault.value.at >= |planned|)
              && (r.error.None? ==> r.issued == planned)
              && (r.error.Some? ==> r.issued == planned[..fault.value.at] && r.error == Some(fault.value.error))
  {
    match CalculateRequiredWater(p.treeClusters, load)
    case Err(e) => EntityWrite([], PlanRow(db.nextId, p.date, p.description, p.distance, 0, Planned), Some(e))
    case Ok(water) =>
      var row := PlanRow(db.nextId, p.date, p.description, p.distance, water, Planned);
      var issued := Issue(PlannedWrites(p, row), fault);
      EntityWrite(issued.writes, row, issued.error)
  }

  /** The store after a committed create. */
  function Commit(db: Db, w: EntityWrite): (db': Db)
    ensures db'.plans == db.plans[w.row.id := w.row]
    ensures db'.nextId == w.row.id + 1
    ensures db'.links == db.links + w.issued[1..]
    requires |w.issued| > 0
  {
    Db(db.plans[w.row.id := w.row], w.row.id + 1, db.links + w.issued[1..])
  }

  datatype CreateOutcome = CreateOutcome(db: Db, result: Result<Option<PlanRow>, Failure>)

  /** The transaction's body once the plan is valid: a failing write aborts and leaves the
      store as it was; otherwise the plan row is committed under the next id with status
      planned, and exactly its users, its vehicles (the trailer only when present) and its
      clusters are linked, in that order. */
  function Persist(db: Db, p: WateringPlan, load: MapClusterFields, fault: Option<Fault>): (o: CreateOutcome)
    requires ValidateWateringPlan(p).None?
    ensures o.result.Err? ==> o.db == db
    ensures var water := CalculateRequiredWater(p.treeClusters, load);
            && (water.Err? ==> o.result == Err(water.error))
            && (water.Ok? ==>
                  var statements := |PlannedWrites(p, PlanRow(db.nextId, p.date, p.description, p.distance, water.value, Planned))|;
                  && (o.result.Ok? <==> fault.None? || fault.value.at >= statements)
                  && (fault.Some? && fault.value.at < statements ==> o.result == Err(fault.value.error)))
    ensures o.result.Ok? ==>
              && CalculateRequiredWater(p.treeClusters, load).Ok?
              && o.result.value
                 == Some(PlanRow(db.nextId, p.date, p.description, p.distance,
                                 CalculateRequiredWater(p.treeClusters, load).value, Planned))
              && var row := o.result.value.value;
              && row.id == db.nextId && row.status == Planned
              && o.db.plans == db.plans[row.id := row] && o.db.nextId == db.nextId + 1
              && o.db.links == db.links + UserLinks(p.userIds, row.id) + VehicleLinks(p, row.id)
                                        + ClusterLinks(p.treeClusters, row.id)
  {
    var w := CreateEntity(db, p, load, fault);
    match w.error
    case Some(e) => CreateOutcome(db, Err(e))
    case None =>
      PlannedLinks(p, w.row);
      CreateOutcome(Commit(db, w), Ok(Some(w.row)))
  }

  /** `Create`. A nil callback fails at once. Inside the transaction: the callback's
      error aborts, a callback declining to create ends with nothing and no error (no
      validation, no write), an invalid plan aborts with its validation error, and a
      valid plan is persisted. Any abort leaves the store unchanged. */
  function Create(db: Db, createFn: Option<CreateFn>, load: MapClusterFields, fault: Option<Fault>): (o: CreateOutcome)
    ensures o.result.Err? ==> o.db == db
    ensures o.result.Ok? && o.result.value.None? ==> o.db == db
    ensures createFn.None? ==> o == CreateOutcome(db, Err(Plain("createFn is nil")))
    ensures createFn.Some? ==>
              match createFn.value(DefaultWateringPlan())
              case Err(e) => o == CreateOutcome(db, Err(e))
              case Ok((created, p)) =>
                && (!created ==> o == CreateOutcome(db, Ok(None)))
                && (created && ValidateWateringPlan(p).Some? ==> o == CreateOutcome(db, Err(ValidateWateringPlan(p).value)))
                && (created && ValidateWateringPlan(p).None? ==> o == Persist(db, p, load, fault))
  {
    match createFn
    case None => CreateOutcome(db, Err(Plain("createFn is nil")))
    case Some(fn) =>
      match fn(DefaultWateringPlan())
      case Err(e) => CreateOutcome(db, Err(e))
      case Ok((created, p)) =>
        if !created then CreateOutcome(db, Ok(None))
        else match ValidateWateringPlan(p)
          case Some(e) => CreateOutcome(db, Err(e))
          case None => Persist(db, p, load, fault)
  }
}

=== FILE: watering_plans.dfy ===
/** Watering plans (internal/entities/watering_plan.go): the status enum, the plan
    entity, and the validity the `validate` tags of the create and update requests
    declare. */
module WateringPlans {
  import opened Wrappers
  import opened Entities

  /** A status is a string type. */
  datatype WateringPlanStatus = WateringPlanStatus(value: string)

  const Planned := WateringPlanStatus("planned")
  const Active := WateringPlanStatus("active")
  const Canceled := WateringPlanStatus("canceled")
  const Finished := WateringPlanStatus("finished")
  const NotCompeted := WateringPlanStatus("not competed")
  const StatusUnknown := WateringPlanStatus("unknown")

  const AllStatuses: seq<WateringPlanStatus> := [Planned, Active, Canceled, Finished, NotCompeted, StatusUnknown]

  /** There are six status values, pairwise distinct. */
  lemma SixDistinctStatuses()
    ensures |AllStatuses| == 6
    ensures forall i, j :: 0 <= i < j < |AllStatuses| ==> AllStatuses[i] != AllStatuses[j]
  {
  }

  /** The words of the update request's `oneof` tag. */
  const UpdateStatusWords: seq<string> := ["planned", "active", "canceled", "finished", "not competed", "unknown"]

  predicate ValidUpdateStatus(s: WateringPlanStatus) {
    s.value in UpdateStatusWords
  }

  /** The `oneof` tag admits exactly the six declared statuses. */
  lemma UpdateStatusValidIffDeclared(s: WateringPlanStatus)
    ensures ValidUpdateStatus(s) <==> s in AllStatuses
  {
  }

  type Uuid = string

  datatype EvaluationValue = EvaluationValue(wateringPlanId: int, treeClusterId: int, consumedWater: Option<real>)

  datatype WateringPlan = WateringPlan(
    id: int,
    createdAt: Timestamp,
    updatedAt: Timestamp,
    date: Timestamp,
    description: string,
    status: WateringPlanStatus,
    distance: Option<real>,
    totalWaterRequired: Option<real>,
    userIds: seq<Uuid>,
    treeClusters: seq<TreeCluster>,
    transporter: Option<Vehicle>,
    trailer: Option<Vehicle>,
    cancellationNote: string,
    evaluation: seq<EvaluationValue>)

  /** A request's list of cluster ids: `required,min=1,dive,required`. */
  predicate RequiredIds(ids: seq<Option<int>>) {
    |ids| >= 1 && forall i :: 0 <= i < |ids| ==> ids[i].Some?
  }

  datatype WateringPlanCreate = WateringPlanCreate(
    date: Timestamp,
    description: string,
    treeClusterIds: seq<Option<int>>,
    transporterId: Option<int>,
    trailerId: Option<int>)

  datatype WateringPlanUpdate = WateringPlanUpdate(
    date: Timestamp,
    description: string,
    treeClusterIds: seq<Option<int>>,
    transporterId: Option<int>,
    trailerId: Option<int>,
    cancellationNote: string,
    status: WateringPlanStatus,
    evaluation: seq<EvaluationValue>)

  /** A create request needs a date, at least one cluster id and no nil among them,
      and a transporter; the trailer is optional. */
  predicate ValidCreate(c: WateringPlanCreate) {
    c.date != ZeroTime && RequiredIds(c.treeClusterIds) && c.transporterId.Some?
  }

  /** An update request carries the same requirements and a declared status. */
  predicate ValidUpdate(u: WateringPlanUpdate) {
    && u.date != ZeroTime
    && RequiredIds(u.treeClusterIds)
    && u.transporterId.Some?
    && ValidUpdateStatus(u.status)
  }

  /** The create-request part of an update request. */
  function CreatePart(u: WateringPlanUpdate): (c: WateringPlanCreate)
    ensures c.date == u.date && c.description == u.description
    ensures c.treeClusterIds == u.treeClusterIds
    ensures c.transporterId == u.transporterId && c.trailerId == u.trailerId
  {
    WateringPlanCreate(u.date, u.description, u.treeClusterIds, u.transporterId, u.trailerId)
  }

  /** An update is valid iff its create part is and its status is declared. */
  lemma UpdateValidIffCreatePartValid(u: WateringPlanUpdate)
    ensures ValidUpdate(u) <==> ValidCreate(CreatePart(u)) && u.status in AllStatuses
  {
    UpdateStatusValidIffDeclared(u.status);
  }
}

=== FILE: worker.dfy ===
/** The in-process event manager (package worker): a closed set of registered event
    types, a per-type registry of subscriptions with integer ids, one bounded FIFO
    intake queue, and a dispatcher that hands each queued event to every subscriber of
    its type.

    Concurrency is replaced by explicit steps: `Publish`, `Subscribe` and `Unsubscribe`
    are the caller-side operations; `Dispatch` is one iteration of `Run` taking the next
    event off the intake queue; `Receive` is a subscriber reading its channel. Subscriber
    channels are unbuffered, so the dispatcher holds the event it is delivering until
    every subscriber of its type has read it. A publisher that would block on a full
    queue gets `Blocked`, or its context's error if the context is already done. */
module Worker {
  import opened Wrappers

  type EventType = string

  /** Capacity of the intake queue. */
  const IntakeCapacity: nat := 100

  /** An event: its type (what `Type()` reports) and an immutable payload. */
  datatype Event<P> = Event(eventType: EventType, payload: P)

  datatype ContextCause = Canceled | DeadlineExceeded

  /** A caller's context: still live, or done with the cause `ctx.Err()` reports. */
  datatype Context = Live | Done(cause: ContextCause)

  datatype ManagerError =
    | UnknownEventType              // ErrUnknownEventTypeErr
    | NotSubscribed                 // ErrNotSubscribedErr
    | ContextError(cause: ContextCause)

  /** The receiving end handed out by `Subscribe`. */
  datatype Channel = Channel(eventType: EventType, id: nat)

  /** The event the dispatcher is handing out and the subscribers still to read it. */
  datatype Delivery<P> = Delivery(event: Event<P>, pending: set<nat>)

  datatype Manager<P> = Manager(
    eventTypes: set<EventType>,
    subscribers: map<EventType, set<nat>>,
    nextId: map<EventType, nat>,
    intake: seq<Event<P>>,
    inFlight: Option<Delivery<P>>,
    stopped: bool)

  /** The manager's invariant: the queue never exceeds its capacity, the registry is
      keyed by exactly the registered types, every live id was issued, only registered
      events are queued, and an in-flight event only waits for live subscribers of its
      own type. */
  ghost predicate Valid<P>(m: Manager<P>) {
    && |m.intake| <= IntakeCapacity
    && m.subscribers.Keys == m.eventTypes
    && m.nextId.Keys == m.eventTypes
    && (forall t, id :: t in m.subscribers && id in m.subscribers[t] ==> id < m.nextId[t])
    && (forall i :: 0 <= i < |m.intake| ==> m.intake[i].eventType in m.eventTypes)
    && (m.inFlight.Some? ==>
          && m.inFlight.value.event.eventType in m.eventTypes
          && m.inFlight.value.pending != {}
          && m.inFlight.value.pending <= m.subscribers[m.inFlight.value.event.eventType])
  }

  predicate IsSubscribed<P>(m: Manager<P>, t: EventType, id: int) {
    t in m.subscribers && id >= 0 && id as nat in m.subscribers[t]
  }

  /** Nothing queued and nothing in flight. */
  predicate Idle<P>(m: Manager<P>) {
    m.intake == [] && m.inFlight.None? && !m.stopped
  }

  /** `NewEventManager(types...)`: the registered set is fixed here, once. */
  function NewEventManager<P>(types: seq<EventType>): (m: Manager<P>)
    ensures Valid(m) && Idle(m)
    ensures forall t :: t in m.eventTypes <==> t in types
    ensures forall t :: t in m.eventTypes ==> m.subscribers[t] == {}
  {
    var ts := set t | t in types;
    Manager(ts, map t | t in ts :: {}, map t | t in ts :: 0, [], None, false)
  }

  datatype PublishOutcome = Published | Blocked | Failed(error: ManagerError)

  /** `Publish(ctx, e)`: an unregistered type fails at once; a registered event joins the
      back of the queue if there is room; on a full queue the caller blocks, or gets its
      context's error if that context is already done. */
  function Publish<P>(m: Manager<P>, ctx: Context, e: Event<P>): (r: (Manager<P>, PublishOutcome))
    ensures Valid(m) ==> Valid(r.0)
    ensures r.1 == Published <==> e.eventType in m.eventTypes && |m.intake| < IntakeCapacity
    ensures r.1 == Published ==> r.0 == m.(intake := m.intake + [e])
    ensures r.1 != Published ==> r.0 == m
    ensures e.eventType !in m.eventTypes ==> r.1 == Failed(UnknownEventType)
    ensures e.eventType in m.eventTypes && |m.intake| >= IntakeCapacity ==>
              r.1 == (if ctx.Done? then Failed(ContextError(ctx.cause)) else Blocked)
  {
    if e.eventType !in m.eventTypes then (m, Failed(UnknownEventType))
    else if |m.intake| < IntakeCapacity then (m.(intake := m.intake + [e]), Published)
    else if ctx.Done? then (m, Failed(ContextError(ctx.cause)))
    else (m, Blocked)
  }

  /** `Subscribe(t)`'s three results. */
  datatype Subscription = Subscription(id: int, channel: Option<Channel>, error: Option<ManagerError>)

  /** `Subscribe(t)`: an unregistered type yields the -1 sentinel, no channel and
      `ErrUnknownEventTypeErr`; otherwise a fresh id (never issued before for `t`) and its
      channel are registered. */
  function Subscribe<P>(m: Manager<P>, t: EventType): (r: (Manager<P>, Subscription))
    requires Valid(m)
    ensures Valid(r.0)
    ensures t !in m.eventTypes ==> r.0 == m && r.1 == Subscription(-1, None, Some(UnknownEventType))
    ensures t in m.eventTypes ==>
              && r.1.error.None? && r.1.id >= 0
              && r.1.channel == Some(Channel(t, r.1.id as nat))
              && !IsSubscribed(m, t, r.1.id)
              && r.0.eventTypes == m.eventTypes
              && r.1.id == m.nextId[t] && r.0.nextId[t] > r.1.id
              && r.0.subscribers == m.subscribers[t := m.subscribers[t] + {r.1.id as nat}]
              && r.0 == r.0.(intake := m.intake, inFlight := m.inFlight, stopped := m.stopped,
                             eventTypes := m.eventTypes)
  {
    if t !in m.eventTypes then (m, Subscription(-1, None, Some(UnknownEventType)))
    else
      var id := m.nextId[t];
      var m' := m.(subscribers := m.subscribers[t := m.subscribers[t] + {id}],
                   nextId := m.nextId[t := id + 1]);
      (m', Subscription(id, Some(Channel(t, id)), None))
  }

  /** `Unsubscribe(t, id)`: succeeds exactly for a live subscription, which is removed
      (and no longer waited for by an in-flight delivery); anything else is
      `ErrNotSubscribedErr` with no change. */
  function Unsubscribe<P>(m: Manager<P>, t: EventType, id: int): (r: (Manager<P>, Option<ManagerError>))
    requires Valid(m)
    ensures Valid(r.0)
    ensures r.1.None? <==> IsSubscribed(m, t, id)
    ensures r.1.Some? ==> r.1 == Some(NotSubscribed) && r.0 == m
    ensures r.1.None? ==>
              && !IsSubscribed(r.0, t, id)
              && r.0.subscribers == m.subscribers[t := m.subscribers[t] - {id as nat}]
              && r.0.intake == m.intake && r.0.nextId == m.nextId
              && r.0.eventTypes == m.eventTypes && r.0.stopped == m.stopped
              && (m.inFlight.None? ==> r.0.inFlight.None?)
              && (m.inFlight.Some? && m.inFlight.value.event.eventType != t ==> r.0.inFlight == m.inFlight)
              && (m.inFlight.Some? && m.inFlight.value.event.eventType == t ==>
                    var rest := m.inFlight.value.pending - {id as nat};
                    r.0.inFlight == (if rest == {} then None else Some(m.inFlight.value.(pending := rest))))
  {
    if !IsSubscribed(m, t, id) then (m, Some(NotSubscribed))
    else
      var subs := m.subscribers[t := m.subscribers[t] - {id as nat}];
      var inFlight :=
        match m.inFlight
        case None => None
        case Some(d) =>
          if d.event.eventType != t then Some(d)
          else if d.pending - {id as nat} == {} then None
          else Some(d.(pending := d.pending - {id as nat}));
      (m.(subscribers := subs, inFlight := inFlight), None)
  }

  /** One iteration of `Run`: when the dispatcher is free it takes the oldest queued
      event and starts handing it to every current subscriber of its type (an event with
      no subscribers is dropped). A stopped dispatcher does nothing. */
  function Dispatch<P>(m: Manager<P>): (m': Manager<P>)
    requires Valid(m)
    ensures Valid(m')
    ensures !m.stopped && m.inFlight.None? && |m.intake| > 0 ==>
              && m'.intake == m.intake[1..]
              && var subs := m.subscribers[m.intake[0].eventType];
                 m'.inFlight == (if subs == {} then None else Some(Delivery(m.intake[0], subs)))
    ensures m.stopped || m.inFlight.Some? || |m.intake| == 0 ==> m' == m
    ensures m'.subscribers == m.subscribers && m'.nextId == m.nextId && m'.stopped == m.stopped
  {
    if m.stopped || m.inFlight.Some? || |m.intake| == 0 then m
    else
      var e := m.intake[0];
      var subs := m.subscribers[e.eventType];
      m.(intake := m.intake[1..], inFlight := if subs == {} then None else Some(Delivery(e, subs)))
  }

  /** A subscriber reads its channel: it gets the in-flight event if that event is of
      its type and still owed to it; otherwise the read would block (`None`). */
  function Receive<P>(m: Manager<P>, ch: Channel): (r: (Manager<P>, Option<Event<P>>))
    requires Valid(m)
    ensures Valid(r.0)
    ensures r.1.Some? <==>
              m.inFlight.Some? && m.inFlight.value.event.eventType == ch.eventType
              && ch.id in m.inFlight.value.pending
    ensures r.1.Some? ==> r.1.value.eventType == ch.eventType && r.1 == Some(m.inFlight.value.event)
    ensures r.1.Some? ==>
              r.0.inFlight == (if m.inFlight.value.pending == {ch.id} then None
                               else Some(m.inFlight.value.(pending := m.inFlight.value.pending - {ch.id})))
    ensures r.1.None? ==> r.0 == m
    ensures r.0 == m.(inFlight := r.0.inFlight)
  {
    match m.inFlight
    case Some(d) =>
      if d.event.eventType == ch.eventType && ch.id in d.pending then
        var rest := d.pending - {ch.id};
        (m.(inFlight := if rest == {} then None else Some(d.(pending := rest))), Some(d.event))
      else (m, None)
    case None => (m, None)
  }

  /** Cancelling `Run`'s context: the dispatcher stops; whatever is still queued is never
      dispatched. */
  function Stop<P>(m: Manager<P>): (m': Manager<P>)
    requires Valid(m)
    ensures Valid(m') && m'.stopped
    ensures m'.intake == m.intake && m'.subscribers == m.subscribers
    ensures Dispatch(m') == m'
  {
    m.(stopped := true)
  }

  // ---------------------------------------------------------------------------
  // RunSubscription

  /** A subscriber object: the type it listens to and its `HandleEvent`, which may fail
      with a message. */
  datatype Handler<!P> = Handler(eventType: EventType, handle: Event<P> -> Option<string>)

  /** A running `RunSubscription` loop: its channel, the events handed to the handler
      so far, and the handler failures seen (logged, never fatal). */
  datatype Runner<P> = Runner(channel: Channel, handled: seq<Event<P>>, failures: seq<string>)

  /** Start of `RunSubscription`: subscribe to the handler's type; a failed subscribe is
      returned at once. */
  function StartSubscription<P>(m: Manager<P>, h: Handler<P>): (r: (Manager<P>, Result<Runner<P>, ManagerError>))
    requires Valid(m)
    ensures Valid(r.0)
    ensures r.1.Err? <==> h.eventType !in m.eventTypes
    ensures r.1.Err? ==> r.0 == m && r.1.error == UnknownEventType
    ensures r.1.Ok? ==> r.1.value.channel.eventType == h.eventType
                        && IsSubscribed(r.0, h.eventType, r.1.value.channel.id)
                        && r.1.value.handled == [] && r.1.value.failures == []
  {
    var (m', sub) := Subscribe(m, h.eventType);
    if sub.error.Some? then (m', Err(sub.error.value))
    else (m', Ok(Runner(sub.channel.value, [], [])))
  }

  /** One turn of the loop: if an event is waiting on the channel it is handed to the
      handler; a handler failure is recorded and the loop goes on. */
  function RunnerStep<P>(m: Manager<P>, h: Handler<P>, run: Runner<P>): (r: (Manager<P>, Runner<P>))
    requires Valid(m)
    ensures Valid(r.0)
    ensures r.1.channel == run.channel && r.0.subscribers == m.subscribers
    ensures |run.handled| <= |r.1.handled| <= |run.handled| + 1
    ensures r.1.handled[..|run.handled|] == run.handled
    ensures |r.1.handled| == |run.handled| + 1 ==>
              var e := r.1.handled[|run.handled|];
              && e.eventType == run.channel.eventType
              && r.1.failures == run.failures + (if h.handle(e).Some? then [h.handle(e).value] else [])
  {
    var (m', got) := Receive(m, run.channel);
    match got
    case None => (m', run)
    case Some(e) =>
      var failures := match h.handle(e) case None => run.failures case Some(msg) => run.failures + [msg];
      (m', run.(handled := run.handled + [e], failures := failures))
  }

  /** Cancellation of `RunSubscription`'s context: it unsubscribes its own id and
      returns nil. */
  function StopSubscription<P>(m: Manager<P>, run: Runner<P>): (r: (Manager<P>, Option<ManagerError>))
    requires Valid(m)
    ensures Valid(r.0) && r.1.None?
    ensures !IsSubscribed(r.0, run.channel.eventType, run.channel.id)
    ensures forall t :: t != run.channel.eventType && t in m.subscribers ==>
              t in r.0.subscribers && r.0.subscribers[t] == m.subscribers[t]
  {
    var (m', _) := Unsubscribe(m, run.channel.eventType, run.channel.id);
    (m', None)
  }
}

=== FILE: worker_scenarios.dfy ===
/** The behaviour the event manager's tests pin down (internal/worker/manager_test.go),
    stated for all inputs over the step model of module Worker. */
module WorkerScenarios {
  import opened Wrappers
  import opened Worker

  /** The event type the tests register. */
  const EventTypeTest: EventType := "test event"

  /** Unregistered types: publishing fails with the unknown-type error and leaves the
      manager alone; subscribing yields id -1, no channel and the same error. */
  lemma UnregisteredTypeIsRejected<P>(e: Event<P>)
    ensures var m: Manager<P> := NewEventManager([]);
            && Publish(m, Live, e) == (m, Failed(UnknownEventType))
            && Subscribe(m, e.eventType).1 == Subscription(-1, None, Some(UnknownEventType))
  {
  }

  /** Unsubscribing a live subscription succeeds once; the same pair a second time, or an
      id never issued, fails with the not-subscribed error. */
  lemma UnsubscribeExactlyOnce<P>(m: Manager<P>, t: EventType, bogus: int)
    requires Valid(m) && t in m.eventTypes
    requires bogus >= m.nextId[t]
    ensures var (m1, sub) := Subscribe(m, t);
            var (m2, err1) := Unsubscribe(m1, t, sub.id);
            && err1.None?
            && Unsubscribe(m2, t, sub.id).1 == Some(NotSubscribed)
            && Unsubscribe(m, t, bogus).1 == Some(NotSubscribed)
  {
  }

  /** Ids are never reused: a subscription taken after another one was dropped gets a
      different id. */
  lemma IdsAreNotReused<P>(m: Manager<P>, t: EventType)
    requires Valid(m) && t in m.eventTypes
    ensures var (m1, a) := Subscribe(m, t);
            var (m2, _) := Unsubscribe(m1, t, a.id);
            var (_, b) := Subscribe(m2, t);
            b.id != a.id && b.id >= 0
  {
  }

  // ---------------------------------------------------------------------------
  // Delivery to one reading subscriber

  /** The test's loop: publish each event, let the dispatcher take it, let the subscriber
      read; the second component collects what the subscriber read. */
  function PublishAndRead<P>(m: Manager<P>, ch: Channel, es: seq<Event<P>>): (r: (Manager<P>, seq<Event<P>>))
    requires Valid(m)
    ensures Valid(r.0)
    decreases |es|
  {
    if es == [] then (m, [])
    else
      var (m1, _) := Publish(m, Live, es[0]);
      var m2 := Dispatch(m1);
      var (m3, got) := Receive(m2, ch);
      var (m4, rest) := PublishAndRead(m3, ch, es[1..]);
      (m4, (if got.Some? then [got.value] else []) + rest)
  }

  /** One round with a single reading subscriber on an idle manager: the event is
      published, dispatched to that subscriber and read by it, and the manager is idle
      again with the same subscribers. */
  lemma OneRound<P>(m: Manager<P>, ch: Channel, e: Event<P>)
    requires Valid(m) && Idle(m)
    requires ch.eventType in m.eventTypes && m.subscribers[ch.eventType] == {ch.id}
    requires e.eventType == ch.eventType
    ensures var (m1, _) := Publish(m, Live, e);
            var m2 := Dispatch(m1);
            var (m3, got) := Receive(m2, ch);
            && got == Some(e) && Idle(m3) && m3.subscribers == m.subscribers
            && m3.eventTypes == m.eventTypes
  {
    var (m1, o) := Publish(m, Live, e);
    assert o == Published && m1.intake == [e];
    var m2 := Dispatch(m1);
    assert m2.inFlight == Some(Delivery(e, {ch.id}));
  }

  /** With a single subscriber that reads, every published event arrives exactly once,
      unchanged and in publishing order, and the manager ends idle again. */
  lemma {:induction false} OneReaderGetsEverythingInOrder<P>(m: Manager<P>, ch: Channel, es: seq<Event<P>>)
    requires Valid(m) && Idle(m)
    requires ch.eventType in m.eventTypes && m.subscribers[ch.eventType] == {ch.id}
    requires forall i :: 0 <= i < |es| ==> es[i].eventType == ch.eventType
    ensures PublishAndRead(m, ch, es).1 == es
    ensures Idle(PublishAndRead(m, ch, es).0)
    ensures PublishAndRead(m, ch, es).0.subscribers == m.subscribers
    decreases |es|
  {
    if es != [] {
      OneRound(m, ch, es[0]);
      var (m1, _) := Publish(m, Live, es[0]);
      var m2 := Dispatch(m1);
      var (m3, got) := Receive(m2, ch);
      OneReaderGetsEverythingInOrder(m3, ch, es[1..]);
      assert [es[0]] + es[1..] == es;
    }
  }

  /** The test scenario: one subscriber, 100 events, all 100 received in order. */
  lemma HundredEventsAllDelivered<P>(es: seq<Event<P>>)
    requires |es| == 100
    requires forall i :: 0 <= i < |es| ==> es[i].eventType == EventTypeTest
    ensures var (m1, sub) := Subscribe(NewEventManager<P>([EventTypeTest]), EventTypeTest);
            && sub.channel.Some?
            && PublishAndRead(m1, sub.channel.value, es).1 == es
  {
    var m0 := NewEventManager<P>([EventTypeTest]);
    var (m1, sub) := Subscribe(m0, EventTypeTest);
    OneReaderGetsEverythingInOrder(m1, sub.channel.value, es);
  }

  // ---------------------------------------------------------------------------
  // Intake capacity

  /** Publishing a batch, in order, under one context. */
  function PublishAll<P>(m: Manager<P>, ctx: Context, es: seq<Event<P>>): (r: (Manager<P>, seq<PublishOutcome>))
    ensures |r.1| == |es|
    ensures Valid(m) ==> Valid(r.0)
    decreases |es|
  {
    if es == [] then (m, [])
    else
      var (m1, o) := Publish(m, ctx, es[0]);
      var (m2, os) := PublishAll(m1, ctx, es[1..]);
      (m2, [o] + os)
  }

  /** While there is room, every publish of a registered event succeeds and the queue
      grows by exactly the batch, in order. */
  lemma {:induction false} FillIntake<P>(m: Manager<P>, ctx: Context, es: seq<Event<P>>)
    requires Valid(m)
    requires |m.intake| + |es| <= IntakeCapacity
    requires forall i :: 0 <= i < |es| ==> es[i].eventType in m.eventTypes
    ensures forall i :: 0 <= i < |es| ==> PublishAll(m, ctx, es).1[i] == Published
    ensures PublishAll(m, ctx, es).0 == m.(intake := m.intake + es)
    decreases |es|
  {
    if es != [] {
      var (m1, o) := Publish(m, ctx, es[0]);
      FillIntake(m1, ctx, es[1..]);
      assert m.intake + [es[0]] + es[1..] == m.intake + es;
    }
  }

  /** The capacity test: with a subscriber that never reads, the dispatcher takes the
      first event and then waits on it, 100 more publishes fill the queue, and the next
      publish blocks, failing with deadline-exceeded once the caller's deadline has
      passed. */
  lemma IntakeHoldsHundred<P>(first: Event<P>, es: seq<Event<P>>, last: Event<P>)
    requires first.eventType == EventTypeTest && last.eventType == EventTypeTest
    requires |es| == 100
    requires forall i :: 0 <= i < |es| ==> es[i].eventType == EventTypeTest
    ensures var (m1, sub) := Subscribe(NewEventManager<P>([EventTypeTest]), EventTypeTest);
            var (m2, o) := Publish(m1, Live, first);
            var m3 := Dispatch(m2);
            var (m4, os) := PublishAll(m3, Live, es);
            && o == Published
            && (forall i :: 0 <= i < |os| ==> os[i] == Published)
            && |m4.intake| == 100
            && m4.inFlight == Some(Delivery(first, {sub.id as nat}))
            && Publish(m4, Done(DeadlineExceeded), last) == (m4, Failed(ContextError(DeadlineExceeded)))
            && Publish(m4, Live, last).1 == Blocked
  {
    var m0 := NewEventManager<P>([EventTypeTest]);
    var (m1, sub) := Subscribe(m0, EventTypeTest);
    var (m2, o) := Publish(m1, Live, first);
    assert m1.subscribers[EventTypeTest] == {sub.id as nat};
    assert m2.intake == [first];
    var m3 := Dispatch(m2);
    assert m3.intake == [] && m3.inFlight == Some(Delivery(first, {sub.id as nat}));
    FillIntake(m3, Live, es);
  }
}

=== FILE: wrappers.dfy ===
/** Failure-compatible wrappers used throughout the model: `Option` for Go's nil
    pointers and `Result` for Go's `(value, error)` return pairs. */
module Wrappers {

  /** A value that may be absent; `None` plays the role of a nil pointer. */
  datatype Option<+T> = None | Some(value: T) {

    predicate IsFailure() {
      None?
    }

    function PropagateFailure<U>(): Option<U>
      requires None?
    {
      None
    }

    function Extract(): T
      requires Some?
    {
      value
    }

    /** The wrapped value, or `default` when absent. */
    function GetOr(default: T): T {
      match this
      case Some(v) => v
      case None => default
    }
  }

  /** The outcome of a Go call returning `(value, error)`: exactly one of the two is set. */
  datatype Result<+T, +E> = Ok(value: T) | Err(error: E) {

    predicate IsFailure() {
      Err?
    }

    function PropagateFailure<U>(): Result<U, E>
      requires Err?
    {
      Err(error)
    }

    function Extract(): T
      requires Ok?
    {
      value
    }
  }
}
